=== FILE: README.md ===
# Modern School Website — a Dafny model of its page logic

The site is a React front end for one school. Its pages fetch the school's JSON
record once per browser tab and then render parts of it. This project models the
small pieces of sequential logic that the pages repeat:

- the per-component school-data cache: a cached value plus an in-flight request,
  shared between mounts of one component;
- the detail pages (committee member, teacher, staff, event, news, notice,
  achievement): route-id lookup, field defaulting with `??` and `||`, and the
  loading / error / not-found precedence;
- the "latest published entry by id" rule of the fee and schedule pages;
- the leadership slider and the principal page: role titles, filtering, a stable
  ordering by role weight, and slugs;
- the home-page feeds: `getOrdinal`, the first-five and first-six lists, the
  doubled scrolling tracks, the notice marquee and the responsive slide count;
- the galleries: media-extension regexes, flattening of event galleries,
  8-per-page pagination and clamped or wrap-around lightbox navigation;
- the sentinel carousels `[last, ...slides, first]` of the uniform and campus
  sliders;
- the document helpers: `getFileKind`, download file names, `parseAPIDate` and
  the calendar list;
- the student-statistics counter parser (`"350+"`) and its visibility flags;
- the loading placeholders (`cx`, skeleton text and grids, the `Shimmer` switch);
- the navigation bar's theme choice and dropdown state.

Every module is a set of immutable datatypes and pure functions. JavaScript values
that matter are modelled explicitly in `JsCore`:
- truthiness, and the `??` and logical-or defaults;
- `Number()` on decimal text and `String()` on integers;
- the truncating `%`.

The network, the browser's storage and clock, and the date library become
parameters or abstract values.

| file | module | what it holds |
|---|---|---|
| js_core.dfy | JsCore | JS values, nullish and logical-or defaults, `Number`/`String`, trimming, `%` |
| strings.dfy | Strings | lower-casing, search, split/join, `<br />` conversion, whitespace runs |
| seqs.dfy | Seqs | find, filter, take, slice, a stable sort by key |
| school_cache.dfy | SchoolCache | the cache state machine and its three variants |
| detail_pages.dfy | DetailPages | route lookup, profile mapping, detail-page screens |
| downloads.dfy | Downloads | download file names, download and read actions |
| latest_entry.dfy | LatestEntry | latest published fee or routine entry; fee and schedule screens |
| leadership.dfy | Leadership | leadership slider and principal page |
| contact_page.dfy | ContactPage | contact cards and the map condition |
| home_feeds.dfy | HomeFeeds | ordinals, feeds, notice marquee, news section |
| galleries.dfy | Galleries | media regexes, photo and video lists, pagination, lightboxes |
| carousel.dfy | Carousel | wrap-around tracks and sentinel carousels |
| documents.dfy | Documents | file kinds, schedule downloads, API dates, the calendar |
| statistics.dfy | Statistics | `"NNN+"` parser and visibility flags |
| shimmer.dfy | Shimmer | `cx`, skeleton blocks, the `Shimmer` switch |
| navbar.dfy | Navbar | theme and dropdown state |

## Model

| member | source | states |
|---|---|---|
| JsCore.Nullish | src/Components/About/CommitteeDetails.jsx:107-113 | `x ?? d` replaces only a missing value; an empty string is kept |
| JsCore.OrElse | src/Components/About/CommitteeDetails.jsx:106 | the logical-or default replaces a missing or empty value and keeps every other string |
| JsCore.OrText | src/Components/Contact/Contact.jsx:48-51 | the logical or of two optional texts yields the first when it is truthy, otherwise the second |
| JsCore.FalsyValues | src/Components/Contact/Contact.jsx:226 | `Truthy` fails exactly for undefined, null, 0, "" and false |
| JsCore.IntToString | src/Components/Others/NewsDetails.jsx:51-54 | `String(i)` is non-empty decimal digits, with a leading '-' exactly for negatives |
| JsCore.ToStr | src/Components/Student/Schedule.jsx:159 | a template literal prints undefined and null as "undefined" and "null", a number as its decimal text with '-' when negative, a string unchanged and a boolean as "true" or "false" |
| JsCore.DecimalRoundTrip | src/Components/Others/NewsDetails.jsx:51-54 | reading back the decimal text of a natural number gives the number |
| JsCore.NumberOfPrintedInt | src/Components/About/CommitteeDetails.jsx:12 | `Number(String(i)) === i` for every integer, so a route built from an id finds it again |
| JsCore.NumberOfString | src/Components/Academic/Calender.jsx:14 | `Number(s)` of a non-empty digit string is its decimal value |
| JsCore.BlankIsZero | src/Components/About/CommitteeDetails.jsx:12 | `Number(s)` of the empty text, or of whitespace only, is 0 |
| JsCore.NumberIgnoresPadding | src/Components/About/CommitteeDetails.jsx:12 | whitespace on either side of a text does not change `Number(s)` |
| JsCore.StrayCharIsNaN | src/Components/About/CommitteeDetails.jsx:12 | a character that is not whitespace, a digit or a sign, anywhere in the text, makes `Number(s)` NaN |
| JsCore.ToNumber | src/Components/About/CommitteeDetails.jsx:12 | `Number(v)` keeps a number, gives NaN for undefined, 0 for null, 1 or 0 for a boolean, and converts a string as `Number(s)` does |
| JsCore.Trim | src/Components/Academic/Calender.jsx:10 | `trim()` leaves no whitespace at either end and keeps text that has none |
| JsCore.TrimIsSlice | src/Components/Academic/Calender.jsx:10 | `trim()` gives a slice of the text, and only whitespace lies before and after that slice |
| JsCore.TrimSplit | src/Components/Academic/Calender.jsx:10 | the text is its leading whitespace, its trimmed form and its trailing whitespace, in that order |
| JsCore.TrimOfPadded | src/Components/Home/Notices.jsx:51 | a text that starts and ends with a non-space, padded with whitespace, trims back to itself |
| JsCore.TrimIgnoresPadding | src/Components/Home/Notices.jsx:51 | extra whitespace on either side does not change what `trim()` gives |
| JsCore.JsRem | src/Components/Home/VideoGallery.jsx:82 | JS `%` agrees with the mathematical remainder for a non-negative left side and lies in (-b, 0] for a negative one; either way the left side minus the result is a multiple of b |
| Strings.Lower | src/Components/Student/Schedule.jsx:6 | `toLowerCase()` keeps the length and maps each ASCII capital to its small letter, leaving other characters alone |
| Strings.Contains | src/Components/Home/Hero1.jsx:6-11 | `includes(p)` holds iff `p` occurs at some position of the text |
| Strings.Split | src/Components/Academic/Calender.jsx:14 | `split(c)` yields at least one part and no part contains `c` |
| Strings.SplitJoin | src/Shimmer/Shimmer.jsx:5 | splitting a join of separator-free parts at the separator gives the parts back |
| Strings.AfterLast | src/Components/Others/NewsDetails.jsx:67 | `split("/").pop()` is the longest suffix without '/', preceded by '/' when shorter than the text |
| Strings.BeforeFirst | src/Components/Student/Schedule.jsx:6 | `split("?")[0]` is the longest prefix without '?', followed by '?' when shorter than the text |
| Strings.NewlinesToBr | src/Components/About/AchieveDetails.jsx:136 | `replace(/\n/g, "<br />")` leaves no line feed and keeps text that has none |
| Strings.NewlinesToBrAppend | src/Components/About/AchieveDetails.jsx:136 | the conversion works piecewise: converting `a + b` equals converting `a` and `b` apart |
| Strings.SpaceRunsToDash | src/Components/Home/Hero1.jsx:141 | `replace(/\s+/g, "-")` leaves no whitespace and never lengthens the text |
| Strings.SpaceRunsToDashNoSpace | src/Components/Home/Hero1.jsx:141 | text with no whitespace is unchanged |
| Strings.SpaceRunsToDashWords | src/Components/Home/Hero1.jsx:141 | a whole run of whitespace between two words becomes a single '-' |
| Seqs.FindIndex | src/Components/About/CommitteeDetails.jsx:95-96 | the index found is the first whose element passes; none exactly when no element passes |
| Seqs.Find | src/Components/About/CommitteeDetails.jsx:95-96 | `find` yields an element of the list that passes, or nothing exactly when none passes |
| Seqs.Filter | src/Components/Academic/Calender.jsx:98 | `filter` keeps exactly the passing elements, all drawn from the list |
| Seqs.FilterSubMultiset | src/Components/Academic/Calender.jsx:98 | `filter` keeps no element more often than the list holds it |
| Seqs.FilterSingle | src/Components/Academic/Calender.jsx:98 | a one-element list keeps its element exactly when it passes |
| Seqs.FilterAppend | src/Components/Academic/Calender.jsx:98 | filtering a concatenation concatenates the filtered parts, so the kept elements keep their order and repetitions |
| Seqs.Take | src/Components/Home/Notice.jsx:38-44 | `slice(0, k)` is the prefix of length min(k, n) |
| Seqs.TakeSubMultiset | src/Components/Home/Notices.jsx:56 | a prefix holds no element more often than the list |
| Seqs.Slice | src/Components/Others/Gallery.jsx:67-70 | `slice(a, b)` holds the elements from index a up to b, clipped to the list |
| Seqs.SortBy | src/Components/Home/Hero1.jsx:91 | sorting by a key yields a permutation of the input ordered by that key |
| Seqs.SortByStable | src/Components/Home/Hero1.jsx:91 | the sort is stable: the elements of each key keep their relative order |
| Seqs.FirstMinIndex | src/Components/Student/TuitionFee.jsx:52-53 | names the first position holding the least key |
| Seqs.SortByHead | src/Components/Student/TuitionFee.jsx:52-53 | the head of the sorted list is the first element with the least key |
| SchoolCache.ErrorText | src/Components/About/CommitteeDetails.jsx:43 | a subscriber shows the error's message, or "Failed to load school data." when it is empty |
| SchoolCache.Mount | src/Components/About/CommitteeDetails.jsx:14-15 | a new instance starts with the cached data, loading exactly when the cache is empty, with no error; nothing else changes |
| SchoolCache.Effect | src/Components/About/CommitteeDetails.jsx:18-45 | the mount effect touches only its own instance and never the cache |
| SchoolCache.Notify | src/Components/About/CommitteeDetails.jsx:41-44 | a settled request ends the loading of exactly its subscribers, giving them the data or the error text; the fallback variant gives an empty list and no error |
| SchoolCache.Settle | src/Components/About/CommitteeDetails.jsx:24-36 | a pending request settles once: it leaves the pending set, clears the in-flight marker if it was that request, and notifies every subscriber |
| SchoolCache.FullCacheMount | src/Components/About/CommitteeDetails.jsx:14-20 | with the cache full a new instance starts loaded and its effect starts no request |
| SchoolCache.SingleFlightEffect | src/Components/About/CommitteeDetails.jsx:24-41 | on an empty cache the effect starts a request only when none is in flight, and otherwise subscribes to the one in flight |
| SchoolCache.IndependentEffect | src/Components/Others/EventsDetails.jsx:24-44 | without sharing, each effect on an empty cache issues its own request |
| SchoolCache.SucceedFillsCache | src/Components/About/CommitteeDetails.jsx:29-35 | success stores the data in the cache, clears the in-flight marker and delivers the data to the subscribers |
| SchoolCache.FailLeavesCache | src/Components/About/CommitteeDetails.jsx:34-35 | failure leaves the cache as it was and clears the in-flight marker |
| SchoolCache.RetryAfterFailure | src/Components/About/CommitteeDetails.jsx:20-27 | after a failed request the next instance to mount issues a new request |
| SchoolCache.FallbackNeverRetries | src/Components/Others/VideoGallery.jsx:42-45 | the video gallery caches an empty list on failure, so later mounts start loaded and never refetch |
| SchoolCache.MountMany | src/Components/About/CommitteeDetails.jsx:14-45 | n mounts, each followed by its effect, add exactly n instances |
| SchoolCache.SingleFlightShares | src/Components/About/CommitteeDetails.jsx:24-25 | any number of mounts on an empty cache with nothing in flight issue exactly one request, which stays in flight |
| SchoolCache.AttachedMountsShare | src/Components/About/CommitteeDetails.jsx:41 | mounts while a request is in flight issue no request and keep the same one in flight |
| SchoolCache.IndependentRefetches | src/Components/Others/EventsDetails.jsx:27-32 | without sharing, n mounts on an empty cache issue n requests |
| SchoolCache.InitConsistent | src/Components/About/CommitteeDetails.jsx:7-8 | after a hard refresh the single-flight invariant holds: the only pending request is the one the promise variable holds, the cache is empty while it is pending, every subscriber waits on it, and every instance's data is the cached data |
| SchoolCache.MountConsistent | src/Components/About/CommitteeDetails.jsx:14-15 | a first render keeps the single-flight invariant |
| SchoolCache.EffectConsistent | src/Components/About/CommitteeDetails.jsx:18-45 | under both sharing variants the mount effect keeps the single-flight invariant |
| SchoolCache.SettleConsistent | src/Components/About/CommitteeDetails.jsx:24-36 | settling a request, with success or failure, keeps the single-flight invariant |
| SchoolCache.StuckLoadingTrace | src/Components/About/CommitteeDetails.jsx:14-20 | a concrete run in which an instance renders while a request is in flight, the request succeeds before its effect runs, and it is left loading with no data and no subscription |
| SchoolCache.StuckStaysStuck | src/Components/About/CommitteeDetails.jsx:18-45 | an instance whose effect ran without subscribing is changed by no later mount, effect or settlement |
| SchoolCache.EffectSynced | src/Components/About/CommitteeDetails.jsx:18-20 | the intended effect copies a cache that filled after the first render into the instance and ends its loading |
| SchoolCache.EffectSyncedAgrees | src/Components/About/CommitteeDetails.jsx:18-45 | when the instance already reflects the cache, the intended effect and the written one coincide |
| SchoolCache.Apply | src/Components/About/CommitteeDetails.jsx:14-45 | one system step is a mount, an intended effect or a settlement; an effect for a missing instance does nothing |
| SchoolCache.LivePreserved | src/Components/About/CommitteeDetails.jsx:18-45 | with the intended effect, every step keeps each loading instance either unstarted or subscribed to a pending request |
| SchoolCache.RunLive | src/Components/About/CommitteeDetails.jsx:18-45 | every run of intended steps from a live state stays live |
| SchoolCache.InitLive | src/Components/About/CommitteeDetails.jsx:7-8 | the state after a hard refresh is live |
| DetailPages.LookUp | src/Components/About/CommitteeDetails.jsx:95-96 | `(list ?? []).find(...)` finds a record of the list, and finds none exactly when no record's id matches the route |
| DetailPages.NumberMatchesBothForms | src/Components/About/CommitteeDetails.jsx:12 | `Number(x.id) === Number(id)` accepts a numeric id and its decimal text alike |
| DetailPages.StrictMatchesOnlyNumbers | src/Components/Others/NoticeDetails.jsx:54 | `n.id === Number(id)` accepts a numeric id and never a string id |
| DetailPages.StringMatchesBothForms | src/Components/Others/NewsDetails.jsx:51-54 | `String(n.id) === String(id)` accepts a numeric id and its decimal text alike |
| DetailPages.LeadingZeroDiffers | src/Components/About/AchieveDetails.jsx:46-49 | the comparisons differ: "07" is record 7 numerically but not as text, and "7" never matches strictly |
| DetailPages.NaNRouteMatchesNothing | src/Components/Academic/TeacherDetails.jsx:12 | a route that is not a number matches no record under either numeric comparison |
| DetailPages.StrayCharRouteNotFound | src/Components/About/CommitteeDetails.jsx:95-99 | a route holding a letter (or any other non-numeric character) finds no member, and the page then shows "Governing Body not found" |
| DetailPages.FirstStart | src/Components/About/CommitteeDetails.jsx:108 | `periods?.[0]?.start_date` is missing for an empty list and is the first period's date otherwise |
| DetailPages.CommitteeProfile | src/Components/About/CommitteeDetails.jsx:103-119 | scalar fields default to "—" only when missing, the role falls back to "Member" when falsy, and the HTML fields fall back to "" when falsy |
| DetailPages.StaffProfile | src/Components/Academic/TeacherDetails.jsx:95-110 | scalar and HTML fields default to "—" only when missing, and the role falls back to the page's default when falsy |
| DetailPages.ProfilesAgreeOnScalars | src/Components/Academic/StaffDetails.jsx:95-110 | the committee and staff mappings agree on every scalar field and differ on a missing HTML field, "" against "—" |
| DetailPages.EmptyStringDefaulting | src/Components/Academic/StaffDetails.jsx:97-99 | an empty title gives the default role, while an empty index number stays empty |
| DetailPages.ContactRow | src/Components/Academic/TeacherDetails.jsx:166 | teacher and staff pages prefix the number with "+88"; the committee page shows it bare |
| DetailPages.MissingPhoneRow | src/Components/Academic/StaffDetails.jsx:165 | a record with no phone shows "+88—" |
| DetailPages.NotFoundText | src/Components/Others/EventsDetails.jsx:84-91 | each page's not-found text and back link, with the notice page reusing "News not found!" and /news |
| DetailPages.DetailScreen | src/Components/Others/NoticeDetails.jsx:79-119 | loading wins, then a truthy error, then the page's not-found view, and only a found record is shown |
| DetailPages.NewsScreen | src/Components/Others/NewsDetails.jsx:78-103 | the news page shows an error first, not-found only when not loading, and otherwise the record under the loading placeholder |
| DetailPages.ErrorPrecedenceDiffers | src/Components/Others/NewsDetails.jsx:78-80 | an error that arrives during loading is shown by the news page but hidden by the others |
| DetailPages.BodyHtml | src/Components/About/AchieveDetails.jsx:136 | a missing body gives "", the result has no line feed, and a body without one is kept |
| DetailPages.BodyHtmlLines | src/Components/Others/NewsDetails.jsx:126 | a line feed in a body becomes one "<br />" between the two converted lines |
| DetailPages.ShowsDownloadButton | src/Components/Others/NewsDetails.jsx:131-139 | the news and achievement pages show the button iff the record has a file; the notice page always shows it |
| DetailPages.RecordDownload | src/Components/Others/NewsDetails.jsx:56-76 | without a file the download does nothing; with one it saves under a non-empty name with no '/' |
| DetailPages.NoticeButtonWithoutFile | src/Components/Others/NoticeDetails.jsx:150-156 | the notice page's button appears without a file and pressing it then does nothing |
| Downloads.DownloadName | src/Components/Others/NewsDetails.jsx:67 | the name is the last '/'-segment of the URL, or the fallback when that segment is empty |
| Downloads.DownloadNameIsFileName | src/Components/Others/NoticeDetails.jsx:68 | a URL ending in "/name" downloads as "name" |
| Downloads.DownloadNameOfDirectory | src/Components/About/AchieveDetails.jsx:62 | a URL ending in '/' downloads under the fallback name |
| Downloads.Download | src/Components/Student/Schedule.jsx:64-83 | an empty URL does nothing; otherwise the URL is saved under its download name |
| Downloads.Read | src/Components/Student/Schedule.jsx:85-88 | an empty URL does nothing; otherwise the URL opens in a new tab |
| LatestEntry.Pool | src/Components/Student/TuitionFee.jsx:50-51 | the published entries, in list order, when there is one, otherwise the whole list; no published entry is dropped and nothing is added |
| LatestEntry.Latest | src/Components/Student/TuitionFee.jsx:44-54 | nothing exactly for a missing or empty list; otherwise an entry of the list, published when any is, with the greatest id in the pool (missing id 0), the first listed among equal ids |
| LatestEntry.OnlyPublishedWins | src/Components/Others/Schedule.jsx:42-43 | a single published entry among drafts is chosen whatever the drafts' ids |
| LatestEntry.TieGoesToFirstListed | src/Components/Academic/Schedule.jsx:50-54 | of two published entries with equal ids the first listed wins |
| LatestEntry.Title | src/Components/Others/Schedule.jsx:105-107 | the entry's truthy title, or the page's fallback title |
| LatestEntry.TuitionFeeScreen | src/Components/Student/TuitionFee.jsx:116-125 | loading shows the skeleton, then a truthy error, then the table under the title or "Tuition Fees" |
| LatestEntry.RoutineScreen | src/Components/Others/Schedule.jsx:105-113 | loading shows the skeleton only; otherwise the title or "School Schedule" above the error, the empty message or the table, in that precedence |
| LatestEntry.SchedulesBody | src/Components/Academic/Schedule.jsx:84-93 | loading, then a truthy error, then no rows, then the table |
| LatestEntry.TuitionScheduleScreen | src/Components/Academic/Schedule.jsx:79-93 | the heading, the title or "Tuition Fees", is shown in every state above the body |
| LatestEntry.PagesAgreeOnRows | src/Components/Academic/Schedule.jsx:84-93 | with rows and no error all three pages show the table |
| LatestEntry.EmptyTableDiffers | src/Components/Others/Schedule.jsx:109-113 | with no rows the fee page shows an empty table while both schedule pages show the empty message |
| Leadership.RoleTitle | src/Components/Home/Hero1.jsx:6-11 | "Principal" iff the lower-cased role contains "principal", else "Chairman" iff it contains "chairman", else "Leadership" |
| Leadership.IsLeaderRole | src/Components/Home/Hero1.jsx:83 | the role matches principal or chairman, case-insensitively |
| Leadership.RoleWeight | src/Components/Home/Hero1.jsx:84-89 | chairman weighs 0, else principal 1, else 2 |
| Leadership.Chosen | src/Components/Home/Hero1.jsx:82-90 | the principal and chairman entries, all of them in list order, when there is one, otherwise all entries; nothing for a non-array value |
| Leadership.Leaders | src/Components/Home/Hero1.jsx:81-93 | a permutation of the chosen entries ordered by weight |
| Leadership.LeadersStable | src/Components/Home/Hero1.jsx:91 | entries of equal weight keep their order in the source |
| Leadership.ChairmanFirst | src/Components/Home/Hero1.jsx:84-91 | if any entry's role contains "chairman", the first slide is a chairman's |
| Leadership.Slug | src/Components/Home/Hero1.jsx:141 | the slug contains no whitespace |
| Leadership.SlugOfTwoWords | src/Components/Home/Hero1.jsx:141 | two words separated by any whitespace run give the lower-cased words joined by one '-' |
| Leadership.MessageHtml | src/Components/Home/Hero1.jsx:143 | a missing message gives "" and the result has no line feed |
| Leadership.SlideOf | src/Components/Home/Hero1.jsx:140-182 | the heading names the role title, the link is "/" plus the slug, and the message is shown iff it is truthy |
| Leadership.HeroScreen | src/Components/Home/Hero1.jsx:95-104 | loading, then a truthy error, then one slide per leader in order |
| Leadership.PrincipalOf | src/Components/About/Principal.jsx:70-73 | the first entry whose lower-cased role is exactly "principal" (`IsPrincipal`), or nothing exactly when none is |
| Leadership.PrincipalScreen | src/Components/About/Principal.jsx:42-96 | loading, then a truthy error, then the principal's photo, name and converted message, or an empty page |
| Leadership.OnlyVicePrincipal | src/Components/About/Principal.jsx:70-73 | a vice principal alone leaves the principal page empty but still gets a slide |
| Leadership.PrefixedPrincipalDiffers | src/Components/Home/Hero1.jsx:6-11 | a prefixed "principal" role is titled Principal by the slider but is not the principal page's principal |
| Leadership.ExactPrincipal | src/Components/About/Principal.jsx:70-73 | a role that lower-cases to "principal" is accepted by both pages |
| ContactPage.First | src/Components/Contact/Contact.jsx:46-47 | `list?.[0]` is missing exactly for a missing or empty list |
| ContactPage.AddressText | src/Components/Contact/Contact.jsx:45 | the truthy address, or "Address not available" |
| ContactPage.EmailText | src/Components/Contact/Contact.jsx:46-47 | the first entry's truthy email, or "Email not available" |
| ContactPage.PhoneText | src/Components/Contact/Contact.jsx:48-51 | the first entry's phone, else its number, else "Phone not available" |
| ContactPage.Cards | src/Components/Contact/Contact.jsx:53-57 | exactly the Location, Email and Phone cards, in that order, with those texts |
| ContactPage.NoSchoolAllFallbacks | src/Components/Contact/Contact.jsx:44-58 | with no school record every card shows its fallback text |
| ContactPage.ZeroCoordinateHidesMap | src/Components/Contact/Contact.jsx:226-243 | a zero or empty coordinate fails `ShowsMap` (both coordinates truthy) and hides the map |
| ContactPage.ContactScreen | src/Components/Contact/Contact.jsx:60-84 | loading, then a truthy error, then the cards with the map iff both coordinates are truthy |
| HomeFeeds.Ordinal | src/Components/Home/Notice.jsx:7-10 | a non-negative number's decimal text followed by its English suffix; a negative number's text followed by "th" |
| HomeFeeds.OrdinalRule | src/Components/Home/Notice.jsx:7-10 | for n ≥ 0 the lookup chain `OrdinalSuffix` gives "st", "nd" or "rd" iff n mod 10 is 1, 2 or 3 and n mod 100 is not 11, 12 or 13, and "th" otherwise |
| HomeFeeds.NegativeOrdinal | src/Components/Home/NewsList.jsx:6-9 | a negative number always gets "th", because JS `%` of it is never positive |
| HomeFeeds.LatestFive | src/Components/Home/Notice.jsx:38-44 | the first min(5, n) items in order, each paired with its `created_at` as `date` |
| HomeFeeds.LatestFiveIsPrefix | src/Components/Home/NewsList.jsx:37-43 | stripping the dates from the list gives the prefix of the source |
| HomeFeeds.TickerTrack | src/Components/Home/Notice.jsx:47 | the loop holds twice as many items as the list |
| HomeFeeds.TickerWraps | src/Components/Home/Notice.jsx:49-52 | `TickerPrev` and `TickerNext` keep the offset within the list and undo each other |
| HomeFeeds.SlidesToShow | src/Components/Home/News.jsx:27-33 | the slide count is between 1 and 4, and 4 for a zero width |
| HomeFeeds.SlidesToShowMonotone | src/Components/Home/News.jsx:29-32 | a wider screen never shows fewer slides |
| HomeFeeds.SlidesToShowBreakpoints | src/Components/Home/News.jsx:29-32 | the count changes exactly at 640, 768 and 1025 pixels |
| HomeFeeds.NewsSectionOf | src/Components/Home/News.jsx:118-194 | the first six items slide, the placeholder shows iff there are none, and "View all" shows iff there are more than four |
| HomeFeeds.ViewAllWithoutHiddenItems | src/Components/Home/News.jsx:194 | with five or six items "View all" shows although every item is already in the slider |
| HomeFeeds.Normalise | src/Components/Home/Notices.jsx:50-53 | the id is kept, the title is trimmed or "", and the file and date are kept or "" |
| HomeFeeds.NormaliseAll | src/Components/Home/Notices.jsx:48-54 | each notice is normalised in place |
| HomeFeeds.DisplayNotices | src/Components/Home/Notices.jsx:46-57 | the first six of the normalised notices in the stable newest-first order, so a sub-multiset of them, newest first |
| HomeFeeds.SortedPrefix | src/Components/Home/Notices.jsx:55-56 | the first k of the newest-first order are notices of the list in newest-first order |
| HomeFeeds.DroppedAreOlder | src/Components/Home/Notices.jsx:55-56 | every notice left out is no newer than every notice displayed |
| HomeFeeds.DurationSec | src/Components/Home/Notices.jsx:65-76 | the marquee lasts between 12 and 120 seconds, at 100 pixels per second otherwise |
| HomeFeeds.Bulleted | src/Components/Home/Notices.jsx:79-95 | a pass with leading bullets has two pieces per item |
| HomeFeeds.BulletedShape | src/Components/Home/Notices.jsx:86 | every item is immediately preceded by exactly one bullet |
| HomeFeeds.BulletedAppend | src/Components/Home/Notices.jsx:137-144 | bulleting two lists one after the other equals bulleting their concatenation |
| HomeFeeds.TrackIsBulletedLoop | src/Components/Home/Notices.jsx:137-144 | `Track`, the leading bullet and the two `Pass`es, are the doubled list with a bullet before every item |
| HomeFeeds.TrackAlternates | src/Components/Home/Notices.jsx:137-144 | the track alternates bullet and notice, cycling through the notices twice |
| HomeFeeds.MarqueeScreen | src/Components/Home/Notices.jsx:122-146 | loading, then a truthy error, then the empty message, then the bulleted track |
| Galleries.MediaMatches | src/Components/Others/EventsDetails.jsx:22 | the scan agrees with the regex: some extension, case-insensitive, followed by the end or by '?' and a line without breaks |
| Galleries.RegexCases | src/Components/Others/Gallery.jsx:52 | the regex matches iff the URL ends in an extension or some '?' with no line break after it follows one |
| Galleries.IsMp4 | src/Components/Others/VideoGallery.jsx:15 | `isMp4` holds iff the URL (or "" when missing) matches `/\.mp4(\?.*)?$/i` |
| Galleries.IsImage | src/Components/Others/Gallery.jsx:52 | `isImage` holds iff the URL (or "" when missing) ends in .jpg, .jpeg or .png, case-insensitively, optionally followed by a query on the last line |
| Galleries.UpperCaseClip | src/Components/Others/EventsDetails.jsx:22 | "clip.MP4" is a video |
| Galleries.ClipWithQuery | src/Components/Others/VideoGallery.jsx:15 | "clip.mp4?t=10" is a video |
| Galleries.VideoAndImage | src/Components/Others/Gallery.jsx:52 | "a.mp4?x.jpg" is both a video and an image |
| Galleries.FirstTruthy | src/Components/Others/VideoGallery.jsx:35 | a chained logical or: the first truthy of caption and title, else the default |
| Galleries.Kept | src/Components/Others/VideoGallery.jsx:28-32 | an event's gallery items whose media matches, all and only those, none more often than in the gallery |
| Galleries.KeptSingle | src/Components/Others/VideoGallery.jsx:28-32 | a one-item gallery keeps its item exactly when its media matches |
| Galleries.KeptAppend | src/Components/Others/VideoGallery.jsx:28-32 | splitting a gallery splits what is kept the same way, so items keep their order |
| Galleries.EventMedia | src/Components/Others/Gallery.jsx:54-64 | one card per kept item, named by caption, title or the default |
| Galleries.MediaCard | src/Components/Others/VideoGallery.jsx:32-37 | a card's source is the entry's media; its name and occasion are the caption, else the event title, else the default name and "" |
| Galleries.AllMedia | src/Components/Others/VideoGallery.jsx:28-38 | every card of the flattened list passes the extension test, and a non-empty default names every card |
| Galleries.Videos | src/Components/Others/VideoGallery.jsx:28-38 | the video page's cards are all `.mp4` and all named; a missing event list gives none |
| Galleries.Photos | src/Components/Others/Gallery.jsx:54-64 | the gallery page's cards are all jpg, jpeg or png and all named; a missing event list gives none |
| Galleries.AllMediaAppend | src/Components/Others/VideoGallery.jsx:28-38 | the media of two event lists is the media of each, in event order |
| Galleries.AllMediaFromEvents | src/Components/Others/Gallery.jsx:54-64 | every card comes from a matching gallery item of some event |
| Galleries.OneClip | src/Components/Others/VideoGallery.jsx:28-38 | one event with one clip yields one video card with its caption or title |
| Galleries.HomePhotos | src/Components/Home/Photo.jsx:26-37 | the home slider has one photo per gallery item of every event |
| Galleries.HomePhotoOf | src/Components/Home/Photo.jsx:31-35 | a home photo's image is the media or "", its name the caption, title or "Photo", its occasion the caption or "" |
| Galleries.HomePhotosOf | src/Components/Home/Photo.jsx:26-37 | the flattened list has one photo per gallery item |
| Galleries.HomeShowsAtLeastGallery | src/Components/Home/Photo.jsx:26-37 | the home slider, which does not filter, shows at least as many photos as the gallery page |
| Galleries.TotalPages | src/Components/Others/Gallery.jsx:67-68 | `ceil(n / 8)`: the last page is the one holding the last item |
| Galleries.PageItems | src/Components/Others/VideoGallery.jsx:58-64 | page p shows items (p-1)*8 up to p*8, clipped to the list |
| Galleries.ItemOnItsPage | src/Components/Others/Gallery.jsx:67-70 | every item appears on page j/8 + 1, at position j mod 8 |
| Galleries.PrevPage | src/Components/Others/Gallery.jsx:174 | `Math.max(p - 1, 1)` |
| Galleries.NextPage | src/Components/Others/Gallery.jsx:198 | `Math.min(p + 1, total)` |
| Galleries.PagesStayInRange | src/Components/Others/Gallery.jsx:169-200 | the page buttons keep the page within 1 to the page count |
| Galleries.PageControls | src/Components/Others/Gallery.jsx:169-200 | controls show iff there is more than one page, Previous iff not on the first, Next iff not on the last, and buttons 1 to the page count |
| Galleries.ClampPrev | src/Components/Others/EventsDetails.jsx:221 | the lightbox's previous steps back except at the first item |
| Galleries.ClampNext | src/Components/Others/EventsDetails.jsx:253 | the lightbox's next steps forward except at the last item |
| Galleries.ClampedStaysInRange | src/Components/Others/Gallery.jsx:74-77 | the clamped steps stay within the list and do not wrap |
| Galleries.OpenPhoto | src/Components/Others/Gallery.jsx:72 | opening card i of page p opens absolute index (p-1)*8 + i |
| Galleries.OpenPhotoShowsCard | src/Components/Others/Gallery.jsx:72 | the modal shows the card that was clicked |
| Galleries.OnKey | src/Components/Others/Gallery.jsx:80-100 | left and right step with clamping, Escape closes, other keys and a closed modal do nothing |
| Galleries.KeysStayInRange | src/Components/Others/Gallery.jsx:84-95 | any key sequence keeps an open modal within the list |
| Galleries.VideoModalStaysOnPage | src/Components/Others/VideoGallery.jsx:69-77 | the video modal's index is page-relative and its steps stay on the current page |
| Galleries.VisibleGallery | src/Components/Others/EventsDetails.jsx:93-94 | the whole gallery when showing all, otherwise its first five items |
| Galleries.SeeMoreIffHidden | src/Components/Others/EventsDetails.jsx:119 | "see more" shows exactly when some item is hidden |
| Galleries.LightboxBeyondPreview | src/Components/Others/EventsDetails.jsx:96-100 | a preview index opens the same item, and next from the fifth reaches an item the preview hides |
| Carousel.WrapPrev | src/Components/Home/VideoGallery.jsx:15 | within the list, prev is one step back modulo the length |
| Carousel.WrapNext | src/Components/Home/VideoGallery.jsx:18 | within the list, next is one step forward modulo the length |
| Carousel.WrapInverse | src/Components/Home/VideoGallery.jsx:14-27 | prev and next undo each other |
| Carousel.UnguardedOnEmpty | src/Components/Home/VideoGallery.jsx:23-26 | on an empty list the unguarded handlers leave the range, to -1 and 1 |
| Carousel.GuardedPrev | src/Components/Home/Photo.jsx:53-56 | no-op on an empty list, otherwise a wrap-around step back |
| Carousel.GuardedNext | src/Components/Home/Photo.jsx:57-60 | no-op on an empty list, otherwise a wrap-around step forward |
| Carousel.Doubled | src/Components/Home/Photo.jsx:50 | the track is the list twice over |
| Carousel.OpenCard | src/Components/Home/Photo.jsx:131-134 | a click opens an index within the list, and nothing on an empty list |
| Carousel.OpenCardShowsClicked | src/Components/Home/VideoGallery.jsx:82 | clicking card idx of the doubled track opens the item it shows |
| Carousel.Extended | src/Components/Student/Uniform.jsx:20 | `[last, ...slides, first]` has n+2 slides with the sentinels at both ends |
| Carousel.RealActive | src/Components/Student/Uniform.jsx:82 | the active dot is a slide number |
| Carousel.ActiveDotMatches | src/Components/Home/Ab.jsx:165-171 | at every index of the extended track the active dot names the slide displayed |
| Carousel.TransitionEnd | src/Components/Student/Uniform.jsx:60-74 | past the end jumps to 1, before the start jumps to n, both without animation; elsewhere nothing changes |
| Carousel.FramesElapsed | src/Components/Student/Uniform.jsx:60-74 | animation comes back on after the jump, at the same index |
| Carousel.GoTo | src/Components/Student/Uniform.jsx:76-79 | choosing a dot moves with animation |
| Carousel.GoToActivates | src/Components/Home/Ab.jsx:78-81 | choosing dot i makes dot i active |
| Carousel.Next | src/Components/Student/Uniform.jsx:81 | next moves the index by exactly +1 |
| Carousel.Prev | src/Components/Student/Uniform.jsx:80 | prev moves the index by exactly -1 |
| Carousel.ActiveAtRest | src/Components/Home/Ab.jsx:84 | at rest at index i the active dot is i-1 |
| Carousel.NextThenSettle | src/Components/Student/Uniform.jsx:60-82 | next followed by the transition's end comes to rest with the active dot one further, wrapping |
| Carousel.PrevThenSettle | src/Components/Student/Uniform.jsx:60-82 | prev followed by the transition's end comes to rest with the active dot one back, wrapping |
| Carousel.TwoMovesLeaveTrack | src/Components/Student/Uniform.jsx:33-35 | two moves before a transition ends leave the track, where the jump-back does not apply |
| Carousel.AbCarousel | src/Components/Home/Ab.jsx:4-23 | the five slides extend to seven, the jumps go from 6 to 1 and from 0 to 5, and the start shows the first dot |
| Carousel.UniformCarousel | src/Components/Student/Uniform.jsx:4-21 | the three slides extend to five and the jumps go from 4 to 1 and from 0 to 3 |
| Documents.Extension | src/Components/Student/Schedule.jsx:6 | the extension contains no '.' and no '?' |
| Documents.GetFileKind | src/Components/Student/Schedule.jsx:5-10 | image iff the extension is an image one, pdf iff it is "pdf", unknown otherwise |
| Documents.ExtensionOfFileName | src/Components/Student/Schedule.jsx:6 | "base.ext" has extension ext lower-cased |
| Documents.ExtensionIgnoresQuery | src/Components/Student/Schedule.jsx:6 | whatever follows the first '?' is ignored |
| Documents.ExtensionWithoutDot | src/Components/Student/Schedule.jsx:6 | with no '.' the whole text before the query is the extension |
| Documents.EmptyUrlIsUnknown | src/Components/Student/Schedule.jsx:5 | the default empty URL is of unknown kind |
| Documents.UpperCasePdf | src/Components/Student/Schedule.jsx:6-8 | "x.PDF?query" is a pdf |
| Documents.DownloadSchedule | src/Components/Student/Schedule.jsx:64-83 | no file does nothing; otherwise the file is saved under its last segment or under the title as `String` prints it plus ".pdf" |
| Documents.DirectoryUrlSavedUnderTitle | src/Components/Student/Schedule.jsx:159 | a URL ending in '/' is saved as the title with ".pdf" |
| Documents.UntitledDirectoryDownload | src/Components/Student/Schedule.jsx:159 | such a URL with a null title saves "null.pdf", with a missing title "undefined.pdf" |
| Documents.FromParts | src/Components/Academic/Calender.jsx:14-15 | a date from three numbers, with the month made zero-based, and none when a part is not a number |
| Documents.GroupNumbers | src/Components/Academic/Calender.jsx:14 | three dash-separated digit groups split into three parts that read as their values |
| Documents.ParseTrimmed | src/Components/Academic/Calender.jsx:13-28 | "YYYY-MM-DD" gives (y, m-1, d), "DD-MM-YYYY" gives (yyyy, mm-1, dd), and anything else goes to the native parser |
| Documents.ParseApiDate | src/Components/Academic/Calender.jsx:8-29 | a falsy input gives null; otherwise the trimmed text is parsed |
| Documents.ShapesExclusive | src/Components/Academic/Calender.jsx:13-24 | no text has both date shapes, so the order of the tests does not matter |
| Documents.IsoRoundTrip | src/Components/Academic/Calender.jsx:13-17 | printing a date as "YYYY-MM-DD" and parsing it gives back its parts |
| Documents.DmyRoundTrip | src/Components/Academic/Calender.jsx:20-24 | printing a date as "DD-MM-YYYY" and parsing it gives back its parts |
| Documents.FormatDateDisplay | src/Components/Academic/Calender.jsx:31-36 | "" when parsing fails, otherwise the parsed date's display |
| Documents.DisplayOfApiDates | src/Components/Academic/Calender.jsx:31-36 | missing and empty dates display as "", and an API date displays its own parts |
| Documents.CardOf | src/Components/Academic/Calender.jsx:99-104 | a card keeps the entry's title, date and file, and its description or the default text |
| Documents.ListedEntries | src/Components/Academic/Calender.jsx:98 | exactly the entries whose `is_published` is not `false` (`Listed`), none more often than in the list |
| Documents.ListedEntriesSingle | src/Components/Academic/Calender.jsx:98 | a single entry is kept exactly when it is listed |
| Documents.ListedEntriesAppend | src/Components/Academic/Calender.jsx:98 | the listed entries of two lists in turn are those of each in turn, so the list order is kept |
| Documents.Calendar | src/Components/Academic/Calender.jsx:97-104 | one card per listed entry, in order |
| Documents.CalendarShowsListed | src/Components/Academic/Calender.jsx:97-104 | every listed entry has its card, and every card comes from a listed entry |
| Documents.ContentHtml | src/Components/Academic/Calender.jsx:204 | the card's content has no line feed |
| Documents.DefaultContentShown | src/Components/Academic/Calender.jsx:103 | an entry with no description shows the default text |
| Statistics.DigitRun | src/Components/Student/StudentStatistics.jsx:65 | the longest run of digits at the start of the text |
| Statistics.ParseCount | src/Components/Student/StudentStatistics.jsx:64-70 | when the regex matches, the leading digits' value and the rest; when it does not, 0 and "" |
| Statistics.ParseCountRoundTrip | src/Components/Student/StudentStatistics.jsx:64-70 | a printed count followed by a non-digit suffix parses back to both |
| Statistics.NoLeadingDigit | src/Components/Student/StudentStatistics.jsx:66-69 | text not starting with a digit counts to 0 with no suffix |
| Statistics.LineBreakDefeatsMatch | src/Components/Student/StudentStatistics.jsx:65 | a line break after the digits makes the whole match fail |
| Statistics.FirstStatParsed | src/Components/Student/StudentStatistics.jsx:54-61 | "350+" counts to 350 and keeps "+" |
| Statistics.Initial | src/Components/Student/StudentStatistics.jsx:73 | one false flag per card |
| Statistics.MarkVisible | src/Components/Student/StudentStatistics.jsx:80-85 | sets exactly that flag, filling any gap with holes that read false |
| Statistics.MarkAllExactly | src/Components/Student/StudentStatistics.jsx:80-85 | after any sightings of real cards, a flag is set iff it was or its card was sighted |
| Statistics.SightedCardsOnly | src/Components/Student/StudentStatistics.jsx:73-85 | from the start, a card is visible iff it has been sighted |
| Statistics.Card | src/Components/Student/StudentStatistics.jsx:115-124 | an unseen card shows "0" and its suffix; a seen one counts up over 1500 + 150·index ms |
| Statistics.AllPlaceholdersAtFirst | src/Components/Student/StudentStatistics.jsx:115-124 | before and just after the flags are filled every card shows its placeholder |
| Shimmer.Truthies | src/Shimmer/Shimmer.jsx:5 | exactly the truthy class names, each taken from the arguments |
| Shimmer.TruthiesAppend | src/Shimmer/Shimmer.jsx:5 | the names of two argument lists in turn are those of each in turn, so argument order is kept |
| Shimmer.TruthiesSingle | src/Shimmer/Shimmer.jsx:5 | one argument contributes its text exactly when it is truthy |
| Shimmer.TruthiesOfFalsy | src/Shimmer/Shimmer.jsx:5 | with no truthy argument there is no name |
| Shimmer.JoinedTruthiesSplit | src/Shimmer/Shimmer.jsx:5 | joining single names with spaces and splitting again gives them back |
| Shimmer.Cx | src/Shimmer/Shimmer.jsx:5 | empty without a truthy argument; for single class names, splitting the result at spaces gives the truthy arguments back, in order |
| Shimmer.CxDropsFalse | src/Shimmer/Shimmer.jsx:5 | a falsy argument is dropped |
| Shimmer.CxOfTwo | src/Shimmer/Shimmer.jsx:5 | two truthy arguments are joined by one space |
| Shimmer.Skeleton | src/Shimmer/Shimmer.jsx:7-9 | a block's class is the base class, followed by the given class when it is truthy |
| Shimmer.SkeletonButton | src/Shimmer/Shimmer.jsx:23-25 | a button block; without a class it gets "h-9 w-28 rounded" |
| Shimmer.SkeletonMedia | src/Shimmer/Shimmer.jsx:28-30 | a media block prefixed "w-full"; without a class it gets "w-full h-50", and an empty class adds nothing |
| Shimmer.SkeletonText | src/Shimmer/Shimmer.jsx:13-21 | exactly `lines` blocks (none for a negative count), each with its line's class |
| Shimmer.OnlyLastLineShort | src/Shimmer/Shimmer.jsx:17 | every line is full width except the last, which is "w-5/6" |
| Shimmer.SkeletonCard | src/Shimmer/Shimmer.jsx:34-54 | media, title and meta blocks, then the text lines (two unless given), then the "mt-5 h-9 w-28 rounded" button unless turned off |
| Shimmer.DefaultCardClasses | src/Shimmer/Shimmer.jsx:34-54 | the default card's media is "w-full w-full h-50", its title "h-5 w-3/4" and its meta line "h-4 mt-2 w-1/3" |
| Shimmer.SkeletonGrid | src/Shimmer/Shimmer.jsx:57-70 | exactly `count` copies of the card |
| Shimmer.DefaultGrid | src/Shimmer/Shimmer.jsx:57-70 | the default grid shows eight cards of six blocks |
| Shimmer.SkeletonDetails | src/Shimmer/Shimmer.jsx:73-95 | media, title and date blocks, the text lines (six unless given), then the "h-9 w-36" and "h-9 w-32" buttons |
| Shimmer.NewsDetailsSkeleton | src/Components/Others/NewsDetails.jsx:104 | the news placeholder has an "w-full w-full h-80" media block, the default title and date widths and six text lines, eleven blocks in all |
| Shimmer.ShimmerView | src/Shimmer/Shimmer.jsx:101-104 | the fallback iff `show` is truthy, otherwise the children |
| Shimmer.LoadingShowsFallback | src/Shimmer/Shimmer.jsx:101-104 | a page shows its placeholder exactly while it loads |
| Navbar.InitialTheme | src/Components/Navbar.jsx:14-16 | the stored theme, or "system" when none is stored |
| Navbar.ThemeIcon | src/Components/Navbar.jsx:18-22 | sun for light, moon for dark, the monitor for anything else |
| Navbar.ThemeEffect | src/Components/Navbar.jsx:45-74 | "system" forgets the stored theme and follows the OS; "dark" and "light" set the class and store themselves; other values touch nothing |
| Navbar.ChoiceSurvivesReload | src/Components/Navbar.jsx:14-16 | a theme chosen from the menu is the theme of the next visit |
| Navbar.DarkClassOfChoice | src/Components/Navbar.jsx:47-73 | the page is dark for "dark", and for "system" exactly when the OS prefers dark |
| Navbar.ThemeEffectIdempotent | src/Components/Navbar.jsx:45-74 | running the effect again changes nothing |
| Navbar.Start | src/Components/Navbar.jsx:10-16 | the first render has the initial theme, closed menus and the effect applied |
| Navbar.ToggleDropdown | src/Components/Navbar.jsx:302-310 | pressing the open item closes it; pressing another opens only that one |
| Navbar.Step | src/Components/Navbar.jsx:221-224 | choosing the current theme changes nothing, another re-runs the effect, and no other event changes the theme |
| Navbar.StartConsistent | src/Components/Navbar.jsx:14-74 | after the first effect the class and stored choice agree with a menu theme |
| Navbar.RunConsistent | src/Components/Navbar.jsx:45-74 | no sequence of events lets the class or stored choice drift from a menu theme |
| Navbar.HoverShowsOne | src/Components/Navbar.jsx:191-197 | hovering shows exactly the hovered menu and leaving closes it |
| Navbar.ToggleTwice | src/Components/Navbar.jsx:302-310 | pressing a header twice restores the state iff nothing else was open |
| Navbar.DrawerLinkCloses | src/Components/Navbar.jsx:273-328 | every drawer link closes the drawer and leaves the open dropdown as it was |
| Navbar.UnknownStoredTheme | src/Components/Navbar.jsx:14-74 | a stored value outside the menu becomes the theme, shows the monitor, and neither follows the OS nor is cleared |

## Left out

- Network access (`fetch`, `res.json()`, the API base URL) is not modelled. A request is a name in the cache state, and its outcome is either the data or an error message.
- React rendering, hooks, JSX markup, Tailwind classes and `dangerouslySetInnerHTML` are not modelled. Only the values fed into them are.
- JavaScript `Date` is abstract. `new Date(...)` normalisation and validity is the `nativeValid` parameter, and `toLocaleDateString` is the `show` parameter. The notices' newest-first order uses an abstract `stamp` key in place of `new Date(created_at)`. So an invalid date, which makes the comparator return NaN, is not modelled.
- The `DOMParser` table extraction of the fee and schedule pages is not modelled. A screen receives only the number of rows parsed.
- Blob downloads, `window.open`, `alert`, IntersectionObserver, `matchMedia` and `localStorage` internals, `requestAnimationFrame`, timers and resize listeners are not modelled. Their effects are fields or events of the state.
- The CountUp easing, marquee pixel measurements, animation delays and react-slick settings are not modelled. The marquee duration is computed over reals.
- `toLowerCase` is modelled for ASCII letters only. Other letters are left unchanged.
- `Number()` is modelled on an optional sign, decimal digits and surrounding whitespace, with "" giving 0. Hexadecimal, exponent and fraction forms are left out, and so is the precision limit of `parseInt` on very long digit runs.
- A `null` entry inside a list is not modelled. Lists are of records, and a missing field is `None`. In the source, `x.id` on a null entry throws, and `?.` treats it as missing.
- A JS default parameter or prop such as `url = ""` applies only to `undefined`. The model uses the default for any missing value, `null` included.
- A number field such as a map coordinate is modelled by an integer with the same truthiness. Fractional values are not modelled; only their truthiness is used.
- The fee selection treats an entry's id as an integer or missing. A string id, which the JS subtraction would coerce, is not modelled.
- The router table, static data arrays and console logging are not modelled.
- Components that only repeat the cache snippet and render fields are covered by the generic SchoolCache model alone.
- A request that succeeds with a falsy JSON value (`null`, `0`, `""`) leaves the source's cache falsy, so a later mount requests again. The model treats every successful response as a full cache.
- Carousel.RealActive: its contract gives only the range. ActiveDotMatches and ActiveAtRest give its value.
- Leadership.Slug: its contract says only that no whitespace remains. SlugOfTwoWords gives the slug of a concrete role.
- Leadership.MessageHtml: its contract omits the `<br />` placement. Strings.NewlinesToBrAppend gives it.
- HomeFeeds.TickerTrack: its contract gives only the length. The content is Carousel.Doubled of the dated list.
- HomeFeeds.Bulleted: its contract gives only the length. BulletedShape gives the content.
- Galleries.HomePhotos: its contract gives only the count. HomePhotoOf gives each photo's fields, but no lemma ties the i-th photo to its entry.
- Shimmer.SkeletonCard and Shimmer.SkeletonDetails: their contracts fix the text lines and the buttons but not the class names of the first three blocks for arbitrary props. DefaultCardClasses and NewsDetailsSkeleton give them for the default card and the news page.
- Documents.Extension: its contract says only that no '.' or '?' remains. ExtensionOfFileName, ExtensionIgnoresQuery and ExtensionWithoutDot give its value.

## Findings

| source | as written | input that shows it | evidently intended | confidence | as-written member | corrected member |
|---|---|---|---|---|---|---|
| src/Components/About/CommitteeDetails.jsx:14-20 | the first render reads the cache, but the effect returns at once on a full cache without copying it into state | instance A mounts and issues the request; instance B renders while it is in flight, so B is loading; the request succeeds; B's effect now sees a full cache and returns, so B keeps `loading` true and subscribes to nothing | on a full cache the effect sets the data from the cache and ends loading | not executed | SchoolCache.StuckLoadingTrace | SchoolCache.EffectSynced |

=== FILE: carousel.dfy ===
/**
 * Index arithmetic of the home-page sliders: the wrap-around offset and modal
 * handlers over a track that repeats its items twice (Home/Notice.jsx,
 * Home/NewsList.jsx, Home/Photo.jsx, Home/VideoGallery.jsx), and the sentinel
 * carousel `[last, ...slides, first]` of Student/Uniform.jsx and Home/Ab.jsx.
 */
module Carousel {
  import opened JsCore

  // ---------------------------------------------------------------------------
  // Wrap-around offsets over a list of `len` items

  /** `o === 0 ? len - 1 : o - 1`. */
  function WrapPrev(o: int, len: int): (r: int)
    ensures 0 <= o < len ==> 0 <= r < len && r == (o - 1 + len) % len
  {
    if o == 0 then len - 1 else o - 1
  }

  /** `o === len - 1 ? 0 : o + 1`. */
  function WrapNext(o: int, len: int): (r: int)
    ensures 0 <= o < len ==> 0 <= r < len && r == (o + 1) % len
  {
    if o == len - 1 then 0 else o + 1
  }

  /** Within range, one step back undoes one step forward and the other way round. */
  lemma WrapInverse(o: int, len: int)
    requires 0 <= o < len
    ensures WrapPrev(WrapNext(o, len), len) == o
    ensures WrapNext(WrapPrev(o, len), len) == o
  {
  }

  /**
   * On an empty list the unguarded handlers leave the range: `prev` from 0 gives -1
   * and `next` from 0 gives 1.
   */
  lemma UnguardedOnEmpty()
    ensures WrapPrev(0, 0) == -1 && WrapNext(0, 0) == 1
  {
  }

  /** Home/Photo.jsx's handlers: a no-op on an empty list, otherwise a wrap-around step. */
  function GuardedPrev(o: int, len: int): (r: int)
    ensures len == 0 ==> r == o
    ensures 0 <= o < len ==> 0 <= r < len && r == (o - 1 + len) % len
  {
    if len == 0 then o else WrapPrev(o, len)
  }

  function GuardedNext(o: int, len: int): (r: int)
    ensures len == 0 ==> r == o
    ensures 0 <= o < len ==> 0 <= r < len && r == (o + 1) % len
  {
    if len == 0 then o else WrapNext(o, len)
  }

  /** `[...items, ...items]`: the track that scrolls without a visible seam. */
  function Doubled<T>(items: seq<T>): (r: seq<T>)
    ensures |r| == 2 * |items|
    ensures forall i :: 0 <= i < |items| ==> r[i] == items[i] && r[|items| + i] == items[i]
  {
    items + items
  }

  /** Clicking card `idx` of the track opens modal `idx % len`; a no-op without items. */
  function OpenCard(idx: nat, len: nat): (r: Option<nat>)
    ensures r.None? <==> len == 0
    ensures r.Some? ==> r.value < len
  {
    if len == 0 then None else Some(idx % len)
  }

  /** The card clicked in either copy of the track is the item the modal opens. */
  lemma OpenCardShowsClicked<T>(items: seq<T>, idx: nat)
    requires idx < |Doubled(items)|
    ensures OpenCard(idx, |items|).Some?
    ensures Doubled(items)[idx] == items[OpenCard(idx, |items|).value]
  {
    var n := |items|;
    if idx >= n {
      assert idx % n == idx - n;
    }
  }

  // ---------------------------------------------------------------------------
  // The sentinel carousel

  /** `[slides[n - 1], ...slides, slides[0]]`. */
  function Extended<T>(slides: seq<T>): (r: seq<T>)
    requires |slides| > 0
    ensures |r| == |slides| + 2
    ensures r[0] == slides[|slides| - 1] && r[|slides| + 1] == slides[0]
    ensures forall i :: 0 <= i < |slides| ==> r[i + 1] == slides[i]
  {
    [slides[|slides| - 1]] + slides + [slides[0]]
  }

  /** `(index - 1 + n) % n` with JavaScript's remainder. */
  function RealActive(index: int, n: int): (r: int)
    requires n > 0
    ensures index >= 1 - n ==> 0 <= r < n
  {
    JsRem(index - 1 + n, n)
  }

  /** At every position of the extended track, the highlighted dot names the slide shown. */
  lemma ActiveDotMatches<T>(slides: seq<T>, index: int)
    requires |slides| > 0 && 0 <= index <= |slides| + 1
    ensures Extended(slides)[index] == slides[RealActive(index, |slides|)]
  {
    var n := |slides|;
    if index == 0 {
      ModBelow(n - 1, n);
    } else if index == n + 1 {
      ModTwice(n);
    } else {
      ModOnce(index - 1 + n, n);
    }
  }

  lemma ModTwice(n: int)
    requires 0 < n
    ensures (2 * n) % n == 0
  {
  }

  /** The slider: the track position and whether the next move is animated. */
  datatype Slider = Slider(index: int, animated: bool)

  const Start := Slider(1, true)

  /**
   * `handleTransitionEnd`: landing on the trailing copy of the first slide jumps,
   * without animation, to the real first slide; landing on the leading copy of the
   * last slide jumps to the real last slide; any other position is kept.
   */
  function TransitionEnd(s: Slider, n: int): (r: Slider)
    ensures s.index == n + 1 ==> r == Slider(1, false)
    ensures s.index == 0 && n + 1 != 0 ==> r == Slider(n, false)
    ensures s.index != n + 1 && s.index != 0 ==> r == s
  {
    if s.index == n + 1 then Slider(1, false)
    else if s.index == 0 then Slider(n, false)
    else s
  }

  /** The two animation frames after a jump turn the animation back on. */
  function FramesElapsed(s: Slider): (r: Slider)
    ensures r.index == s.index && r.animated
  {
    s.(animated := true)
  }

  /** `goTo(i)`: position `i + 1`, animated. */
  function GoTo(i: int): (r: Slider)
    ensures r.animated
  {
    Slider(i + 1, true)
  }

  /** Pressing a dot makes that dot the active one. */
  lemma GoToActivates(i: int, n: int)
    requires 0 <= i < n
    ensures RealActive(GoTo(i).index, n) == i
  {
    assert (i + n) % n == i by { assert i + n == 1 * n + i; }
  }

  /** `next` and the timer's tick. */
  function Next(s: Slider): (r: Slider)
    ensures r.index == s.index + 1 && r.animated == s.animated
  {
    s.(index := s.index + 1)
  }

  function Prev(s: Slider): (r: Slider)
    ensures r.index == s.index - 1 && r.animated == s.animated
  {
    s.(index := s.index - 1)
  }

  /** A slider at rest shows a real slide. */
  predicate AtRest(s: Slider, n: int) {
    1 <= s.index <= n
  }

  lemma ModBelow(a: int, n: int)
    requires 0 <= a < n
    ensures a % n == a
  {
  }

  lemma ModOnce(a: int, n: int)
    requires n <= a < 2 * n
    ensures a % n == a - n
  {
    assert a == 1 * n + (a - n);
  }

  /** At rest, the active dot is the position less one. */
  lemma ActiveAtRest(i: int, n: int)
    requires n > 0 && 1 <= i <= n
    ensures RealActive(i, n) == i - 1
  {
    ModOnce(i - 1 + n, n);
  }

  /**
   * From rest, one `next` and the end of its transition come back to rest with the
   * following slide active, wrapping from the last slide to the first.
   */
  lemma NextThenSettle(s: Slider, n: int)
    requires n > 0 && AtRest(s, n)
    ensures AtRest(TransitionEnd(Next(s), n), n)
    ensures RealActive(TransitionEnd(Next(s), n).index, n) == (RealActive(s.index, n) + 1) % n
  {
    var i := s.index;
    ActiveAtRest(i, n);
    var t := TransitionEnd(Next(s), n);
    if i == n {
      ActiveAtRest(1, n);
      ModOnce(n, n);
    } else {
      ActiveAtRest(i + 1, n);
      ModBelow(i, n);
    }
  }

  /** The same for `prev`, wrapping from the first slide to the last. */
  lemma PrevThenSettle(s: Slider, n: int)
    requires n > 0 && AtRest(s, n)
    ensures AtRest(TransitionEnd(Prev(s), n), n)
    ensures RealActive(TransitionEnd(Prev(s), n).index, n) == (RealActive(s.index, n) - 1 + n) % n
  {
    var i := s.index;
    ActiveAtRest(i, n);
    var t := TransitionEnd(Prev(s), n);
    if i == 1 {
      ActiveAtRest(n, n);
      ModBelow(n - 1, n);
    } else {
      ActiveAtRest(i - 1, n);
      ModOnce(i - 2 + n, n);
    }
  }

  /**
   * Two moves before a transition ends can leave the track: from the last slide, two
   * `next`s reach position n + 2, past the extended track, and the end of the
   * transition does not bring it back.
   */
  lemma TwoMovesLeaveTrack(n: int)
    requires n > 0
    ensures Next(Next(Slider(n, true))).index == |Extended(seq(n, i => i))|
    ensures TransitionEnd(Next(Next(Slider(n, true))), n) == Slider(n + 2, true)
  {
  }

  // ---------------------------------------------------------------------------
  // The two carousels

  const UniformLabels := ["ICT Lab", "Library", "Play Ground"]
  const AbLabels := ["Building 1", "Building 2", "ICT Lab", "Library", "Play Ground"]

  /** Home/Ab.jsx: seven positions, and the two sentinels jump to positions 1 and 5. */
  lemma AbCarousel()
    ensures |Extended(AbLabels)| == 7
    ensures Extended(AbLabels)[0] == "Play Ground" && Extended(AbLabels)[6] == "Building 1"
    ensures TransitionEnd(Slider(6, true), 5) == Slider(1, false)
    ensures TransitionEnd(Slider(0, true), 5) == Slider(5, false)
    ensures AtRest(Start, 5) && RealActive(Start.index, 5) == 0
  {
  }

  /** Student/Uniform.jsx: five positions over three slides. */
  lemma UniformCarousel()
    ensures |Extended(UniformLabels)| == 5
    ensures Extended(UniformLabels)[0] == "Play Ground" && Extended(UniformLabels)[4] == "ICT Lab"
    ensures TransitionEnd(Slider(4, true), 3) == Slider(1, false)
    ensures TransitionEnd(Slider(0, true), 3) == Slider(3, false)
  {
  }
}

=== FILE: contact_page.dfy ===
/**
 * The contact page (Contact/Contact.jsx): three cards built from the school record
 * with a fallback text for each missing value, and a map that is embedded only when
 * both coordinates are present.
 */
module ContactPage {
  import opened JsCore

  /** An entry of `contract_phones`: the number is read from `phone`, else from `number`. */
  datatype PhoneEntry = PhoneEntry(phone: Text, number: Text)

  /**
   * The fields of the school record the page reads. A list entry that is null is
   * `None`; so is a missing `email` field of an email entry.
   */
  datatype School = School(
    address: Text,
    emails: Option<seq<Text>>,
    phones: Option<seq<Option<PhoneEntry>>>,
    latitude: Val,
    longitude: Val,
    name: Text)

  /** `list?.[0]`: nothing for a missing or empty list. */
  function First<T>(list: Option<seq<T>>): (r: Option<T>)
    ensures r.None? <==> list.None? || list.value == []
    ensures r.Some? ==> r.value == list.value[0]
  {
    if list.Some? && list.value != [] then Some(list.value[0]) else None
  }

  datatype Card = Card(caption: string, value: string, image: string)

  function AddressText(s: Option<School>): (r: string)
    ensures s.Some? && TextTruthy(s.value.address) ==> r == s.value.address.value
    ensures s.None? || !TextTruthy(s.value.address) ==> r == "Address not available"
  {
    OrElse(if s.Some? then s.value.address else None, "Address not available")
  }

  /** The first email entry's address; later entries are never shown. */
  function EmailText(s: Option<School>): (r: string)
    ensures s.Some? && First(s.value.emails).Some? && TextTruthy(First(s.value.emails).value) ==>
              r == First(s.value.emails).value.value
    ensures s.None? || First(s.value.emails).None? || !TextTruthy(First(s.value.emails).value) ==>
              r == "Email not available"
  {
    var e := if s.Some? then First(s.value.emails) else None;
    OrElse(if e.Some? then e.value else None, "Email not available")
  }

  /** The first phone entry's `phone`, else its `number`, else the fallback text. */
  function PhoneText(s: Option<School>): (r: string)
    ensures var p := if s.Some? then First(s.value.phones) else None;
            if p.Some? && p.value.Some? && TextTruthy(p.value.value.phone) then r == p.value.value.phone.value
            else if p.Some? && p.value.Some? && TextTruthy(p.value.value.number) then r == p.value.value.number.value
            else r == "Phone not available"
  {
    var p := if s.Some? then First(s.value.phones) else None;
    var entry := if p.Some? then p.value else None;
    OrElse(if entry.Some? then entry.value.phone else None,
           OrElse(if entry.Some? then entry.value.number else None, "Phone not available"))
  }

  /** `contactCards`: always the same three cards, in the same order. */
  function Cards(s: Option<School>): (r: seq<Card>)
    ensures |r| == 3
    ensures r[0].caption == "Location" && r[1].caption == "Email Address:" && r[2].caption == "Phone:"
    ensures r[0].value == AddressText(s) && r[1].value == EmailText(s) && r[2].value == PhoneText(s)
  {
    [ Card("Location", AddressText(s), "/Images/11.jpg"),
      Card("Email Address:", EmailText(s), "/Images/9.jpg"),
      Card("Phone:", PhoneText(s), "/Images/10.jpg") ]
  }

  /** Without a school record every card shows its fallback text. */
  lemma NoSchoolAllFallbacks()
    ensures Cards(None) == [ Card("Location", "Address not available", "/Images/11.jpg"),
                             Card("Email Address:", "Email not available", "/Images/9.jpg"),
                             Card("Phone:", "Phone not available", "/Images/10.jpg") ]
  {
  }

  /** The map is embedded iff both coordinates are truthy. */
  predicate ShowsMap(s: Option<School>) {
    s.Some? && Truthy(s.value.latitude) && Truthy(s.value.longitude)
  }

  /** A school on the equator or the prime meridian, with coordinate 0, or with an empty latitude, gets the placeholder instead of a map. */
  lemma ZeroCoordinateHidesMap(s: School)
    requires s.latitude == Num(0) || s.longitude == Num(0) || s.latitude == Str("")
    ensures !ShowsMap(Some(s))
    ensures !ContactScreen(false, None, Some(s)).hasMap
  {
  }

  datatype ContactView = ContactLoading | ContactFailed(message: string) | ContactShown(cards: seq<Card>, hasMap: bool)

  /** The loader, else only the error, else the cards and the map or its placeholder. */
  function ContactScreen(loading: bool, error: Text, s: Option<School>): (r: ContactView)
    ensures loading <==> r.ContactLoading?
    ensures !loading && TextTruthy(error) <==> r.ContactFailed?
    ensures r.ContactFailed? ==> r.message == error.value
    ensures r.ContactShown? ==> r.cards == Cards(s) && (r.hasMap <==> ShowsMap(s))
  {
    if loading then ContactLoading
    else if TextTruthy(error) then ContactFailed(error.value)
    else ContactShown(Cards(s), ShowsMap(s))
  }
}

=== FILE: detail_pages.dfy ===
/**
 * The detail pages reached by a route id: governing-body members, teachers, staff,
 * events, news, notices and achievements. Each page looks its record up in a list of
 * the cached school data, picks one of four screens, and maps the record's JSON
 * fields to the text it shows.
 */
module DetailPages {
  import opened JsCore
  import opened Strings
  import opened Seqs
  import opened Downloads

  // ---------------------------------------------------------------------------
  // Lookup by route id

  /** The three ways the pages compare a record's `id` with the route parameter. */
  datatype IdMatch =
    | NumberToNumber  // `Number(x.id) === Number(id)`: committee, teacher, staff
    | StrictNumber    // `x.id === Number(id)`: events, notices
    | StringToString  // `String(x.id) === String(id)`: news, achievements

  predicate IdMatches(how: IdMatch, id: Val, route: string) {
    match how
    case NumberToNumber => NumberEq(ToNumber(id), NumberOfString(route))
    case StrictNumber => StrictEqNumber(id, NumberOfString(route))
    case StringToString => ToStr(id) == route
  }

  /** `(list ?? []).find(x => <match>)`: the first record whose id matches the route. */
  function LookUp<R>(list: Option<seq<R>>, idOf: R -> Val, how: IdMatch, route: string): (r: Option<R>)
    ensures r.None? <==> forall j :: 0 <= j < |list.GetOr([])| ==> !IdMatches(how, idOf(list.GetOr([])[j]), route)
    ensures r.Some? ==> exists i :: 0 <= i < |list.GetOr([])| && list.GetOr([])[i] == r.value
                                    && IdMatches(how, idOf(r.value), route)
                                    && forall j :: 0 <= j < i ==> !IdMatches(how, idOf(list.GetOr([])[j]), route)
  {
    Find(list.GetOr([]), x => IdMatches(how, idOf(x), route))
  }

  /** Numeric comparison accepts the number and its decimal text alike. */
  lemma NumberMatchesBothForms(i: int)
    ensures IdMatches(NumberToNumber, Num(i), IntToString(i))
    ensures IdMatches(NumberToNumber, Str(IntToString(i)), IntToString(i))
  {
    NumberOfPrintedInt(i);
  }

  /** Strict comparison accepts a numeric id and never a string id. */
  lemma StrictMatchesOnlyNumbers(i: int, s: string, route: string)
    ensures IdMatches(StrictNumber, Num(i), IntToString(i))
    ensures !IdMatches(StrictNumber, Str(s), route)
  {
    NumberOfPrintedInt(i);
  }

  /** String comparison accepts the number and its decimal text alike. */
  lemma StringMatchesBothForms(i: int)
    ensures IdMatches(StringToString, Num(i), IntToString(i))
    ensures IdMatches(StringToString, Str(IntToString(i)), IntToString(i))
  {
  }

  /** The comparisons differ: the text "07" is record 7 numerically but not as a string. */
  lemma LeadingZeroDiffers()
    ensures IdMatches(NumberToNumber, Str("07"), "7")
    ensures !IdMatches(StringToString, Str("07"), "7")
    ensures !IdMatches(StrictNumber, Str("7"), "7")
  {
    var z, s := "07", "7";
    assert AllDigits(z) && AllDigits(s);
    assert z[..1] == "0" && z[..1][..0] == [] && s[..0] == [];
    assert DigitsValue(z) == 7 && DigitsValue(s) == 7;
    assert NumberOfString(z) == Some(7);
    assert NumberOfString(s) == Some(7);
  }

  /** A route that is not a number (NaN) matches nothing under either numeric comparison. */
  lemma NaNRouteMatchesNothing(id: Val, route: string)
    requires NumberOfString(route).None?
    ensures !IdMatches(NumberToNumber, id, route) && !IdMatches(StrictNumber, id, route)
  {
  }

  /**
   * A committee route such as "abc" is NaN, so once loading is over without an error
   * the page shows "Governing Body not found", whatever the list holds.
   */
  lemma StrayCharRouteNotFound<R>(list: Option<seq<R>>, idOf: R -> Val, route: string, i: nat)
    requires i < |route| && !IsJsSpace(route[i]) && !IsDigit(route[i])
    requires route[i] != '-' && route[i] != '+'
    ensures LookUp(list, idOf, NumberToNumber, route).None?
    ensures DetailScreen(CommitteePage, false, None, LookUp(list, idOf, NumberToNumber, route))
            == NotFound("Governing Body not found", None)
  {
    StrayCharIsNaN(route, i);
    forall j | 0 <= j < |list.GetOr([])|
      ensures !IdMatches(NumberToNumber, idOf(list.GetOr([])[j]), route)
    {
      NaNRouteMatchesNothing(idOf(list.GetOr([])[j]), route);
    }
  }

  // ---------------------------------------------------------------------------
  // People: committee members, teachers and staff

  /**
   * A person record of the API. `periods` holds the `start_date` of each entry of
   * `memberships` (committee) or `tenures` (teachers and staff).
   */
  datatype Person = Person(
    id: Val, photo: Text, name: Text, designationTitle: Text, mpoIndex: Text,
    periods: seq<Text>, fatherName: Text, motherName: Text, email: Text, phone: Text,
    nationalId: Text, qualification: Text, experience: Text, interest: Text,
    presentAddress: Text, permanentAddress: Text)

  /** The fields the profile page shows. */
  datatype Profile = Profile(
    photo: Text, name: Text, role: string, mpoIndexNo: string, joiningDate: string,
    fathersName: string, mothersName: string, email: string, contactNo: string,
    nationalIdNo: string, qualificationHtml: string, experience: string,
    interestHtml: string, presentAddressHtml: string, permanentAddressHtml: string)

  const Dash := "—"

  /** `shown` is `field ?? d`: only a missing field is replaced. */
  predicate KeepsOrDefaults(shown: string, field: Text, d: string) {
    (field.Some? ==> shown == field.value) && (field.None? ==> shown == d)
  }

  /** `shown` is `field || d`: a missing or empty field is replaced. */
  predicate ReplacesFalsy(shown: string, field: Text, d: string) {
    (TextTruthy(field) ==> shown == field.value) && (!TextTruthy(field) ==> shown == d)
  }

  /** `periods?.[0]?.start_date`. */
  function FirstStart(periods: seq<Text>): (r: Text)
    ensures periods == [] ==> r.None?
    ensures periods != [] ==> r == periods[0]
  {
    if periods == [] then None else periods[0]
  }

  /** The scalar fields every profile maps with `?? "—"`. */
  predicate ScalarsDefaulted(r: Profile, m: Person) {
    && r.photo == m.photo && r.name == m.name
    && KeepsOrDefaults(r.mpoIndexNo, m.mpoIndex, Dash)
    && KeepsOrDefaults(r.joiningDate, FirstStart(m.periods), Dash)
    && KeepsOrDefaults(r.fathersName, m.fatherName, Dash)
    && KeepsOrDefaults(r.mothersName, m.motherName, Dash)
    && KeepsOrDefaults(r.email, m.email, Dash)
    && KeepsOrDefaults(r.contactNo, m.phone, Dash)
    && KeepsOrDefaults(r.nationalIdNo, m.nationalId, Dash)
    && KeepsOrDefaults(r.experience, m.experience, Dash)
  }

  /**
   * The governing-body member page: the role falls back to "Member" when falsy, and the
   * four HTML fields fall back to "" when falsy.
   */
  function CommitteeProfile(m: Person): (r: Profile)
    ensures ScalarsDefaulted(r, m)
    ensures ReplacesFalsy(r.role, m.designationTitle, "Member")
    ensures ReplacesFalsy(r.qualificationHtml, m.qualification, "")
    ensures ReplacesFalsy(r.interestHtml, m.interest, "")
    ensures ReplacesFalsy(r.presentAddressHtml, m.presentAddress, "")
    ensures ReplacesFalsy(r.permanentAddressHtml, m.permanentAddress, "")
  {
    Profile(m.photo, m.name, OrElse(m.designationTitle, "Member"), Nullish(m.mpoIndex, Dash),
            Nullish(FirstStart(m.periods), Dash), Nullish(m.fatherName, Dash),
            Nullish(m.motherName, Dash), Nullish(m.email, Dash), Nullish(m.phone, Dash),
            Nullish(m.nationalId, Dash), OrElse(m.qualification, ""), Nullish(m.experience, Dash),
            OrElse(m.interest, ""), OrElse(m.presentAddress, ""), OrElse(m.permanentAddress, ""))
  }

  /**
   * The teacher and staff pages: the role falls back to `roleDefault` when falsy, and
   * every other field, the HTML ones included, falls back to "—" only when missing.
   */
  function StaffProfile(m: Person, roleDefault: string): (r: Profile)
    ensures ScalarsDefaulted(r, m)
    ensures ReplacesFalsy(r.role, m.designationTitle, roleDefault)
    ensures KeepsOrDefaults(r.qualificationHtml, m.qualification, Dash)
    ensures KeepsOrDefaults(r.interestHtml, m.interest, Dash)
    ensures KeepsOrDefaults(r.presentAddressHtml, m.presentAddress, Dash)
    ensures KeepsOrDefaults(r.permanentAddressHtml, m.permanentAddress, Dash)
  {
    Profile(m.photo, m.name, OrElse(m.designationTitle, roleDefault), Nullish(m.mpoIndex, Dash),
            Nullish(FirstStart(m.periods), Dash), Nullish(m.fatherName, Dash),
            Nullish(m.motherName, Dash), Nullish(m.email, Dash), Nullish(m.phone, Dash),
            Nullish(m.nationalId, Dash), Nullish(m.qualification, Dash), Nullish(m.experience, Dash),
            Nullish(m.interest, Dash), Nullish(m.presentAddress, Dash), Nullish(m.permanentAddress, Dash))
  }

  /**
   * The two mappings agree on every scalar field and differ on the HTML fields exactly
   * when the field is missing: "" on the committee page, "—" on the others.
   */
  lemma ProfilesAgreeOnScalars(m: Person, roleDefault: string)
    ensures var c := CommitteeProfile(m);
            var t := StaffProfile(m, roleDefault);
            c.(role := "", qualificationHtml := "", interestHtml := "", presentAddressHtml := "",
               permanentAddressHtml := "")
            == t.(role := "", qualificationHtml := "", interestHtml := "", presentAddressHtml := "",
                  permanentAddressHtml := "")
    ensures m.qualification.Some? ==> CommitteeProfile(m).qualificationHtml == StaffProfile(m, roleDefault).qualificationHtml
    ensures m.qualification.None? ==> CommitteeProfile(m).qualificationHtml == "" && StaffProfile(m, roleDefault).qualificationHtml == Dash
  {
  }

  /** An empty title gives the default role, while an empty index number stays empty. */
  lemma EmptyStringDefaulting(m: Person)
    requires m.designationTitle == Some("") && m.mpoIndex == Some("")
    ensures CommitteeProfile(m).role == "Member" && CommitteeProfile(m).mpoIndexNo == ""
    ensures StaffProfile(m, "Teacher").role == "Teacher" && StaffProfile(m, "Teacher").mpoIndexNo == ""
  {
  }

  /** The contact row: teachers and staff show the number after "+88", the committee page does not. */
  function ContactRow(p: Profile, countryCode: bool): (r: string)
    ensures countryCode ==> r == "+88" + p.contactNo
    ensures !countryCode ==> r == p.contactNo
  {
    if countryCode then "+88" + p.contactNo else p.contactNo
  }

  /** A teacher with no phone on record shows "+88—". */
  lemma MissingPhoneRow(m: Person)
    requires m.phone.None?
    ensures ContactRow(StaffProfile(m, "Teacher"), true) == "+88" + Dash
  {
  }

  // ---------------------------------------------------------------------------
  // Screens

  /** The detail pages in the site. */
  datatype Page = CommitteePage | TeacherPage | StaffPage | EventPage | NewsPage | NoticePage
                | AchievementPage

  /** The "not found" screen's text and the link it offers back, if any. */
  function NotFoundText(p: Page): (r: (string, Option<string>))
    ensures p == CommitteePage ==> r == ("Governing Body not found", None)
    ensures p == TeacherPage ==> r == ("Teacher not found", None)
    ensures p == StaffPage ==> r == ("Staff not found", None)
    ensures p == EventPage ==> r == ("Events not found!", Some("/events"))
    ensures p == NewsPage || p == NoticePage ==> r == ("News not found!", Some("/news"))
    ensures p == AchievementPage ==> r == ("Achievement not found!", Some("/achievements"))
  {
    match p
    case CommitteePage => ("Governing Body not found", None)
    case TeacherPage => ("Teacher not found", None)
    case StaffPage => ("Staff not found", None)
    case EventPage => ("Events not found!", Some("/events"))
    case NewsPage => ("News not found!", Some("/news"))
    case NoticePage => ("News not found!", Some("/news"))
    case AchievementPage => ("Achievement not found!", Some("/achievements"))
  }

  datatype Screen<T> =
    | Loading
    | Failed(message: string)
    | NotFound(text: string, back: Option<string>)
    | Shown(item: T, shimmer: bool)

  /**
   * Every page but the news page: the loader first, then the error text, then the
   * not-found screen, then the record.
   */
  function DetailScreen<T>(p: Page, loading: bool, error: Text, found: Option<T>): (r: Screen<T>)
    requires p != NewsPage
    ensures r.Loading? <==> loading
    ensures r.Failed? <==> !loading && TextTruthy(error)
    ensures r.Failed? ==> r.message == error.value
    ensures r.NotFound? <==> !loading && !TextTruthy(error) && found.None?
    ensures r.NotFound? ==> (r.text, r.back) == NotFoundText(p)
    ensures r.Shown? ==> found == Some(r.item) && !r.shimmer
  {
    if loading then Loading
    else if TextTruthy(error) then Failed(error.value)
    else if found.None? then NotFound(NotFoundText(p).0, NotFoundText(p).1)
    else Shown(found.value, false)
  }

  /**
   * The news page: the error text first; the not-found screen only once loading has
   * finished; otherwise the page, behind the skeleton while loading.
   */
  function NewsScreen<T>(loading: bool, error: Text, found: Option<T>): (r: Screen<Option<T>>)
    ensures !r.Loading?
    ensures r.Failed? <==> TextTruthy(error)
    ensures r.NotFound? <==> !TextTruthy(error) && !loading && found.None?
    ensures r.NotFound? ==> (r.text, r.back) == NotFoundText(NewsPage)
    ensures r.Shown? ==> r.item == found && r.shimmer == loading
  {
    if TextTruthy(error) then Failed(error.value)
    else if found.None? && !loading then NotFound(NotFoundText(NewsPage).0, NotFoundText(NewsPage).1)
    else Shown(found, loading)
  }

  /** Only the news page shows an error that arrives while the loader is up. */
  lemma ErrorPrecedenceDiffers<T>(msg: string, found: Option<T>)
    requires msg != ""
    ensures DetailScreen(NoticePage, true, Some(msg), found) == Loading
    ensures NewsScreen(true, Some(msg), found) == Failed(msg)
  {
  }

  // ---------------------------------------------------------------------------
  // Content and downloads

  /** `String(field ?? "").replace(/\n/g, "<br />")`, the HTML body of a record. */
  function BodyHtml(field: Text): (r: string)
    ensures '\n' !in r
    ensures field.None? ==> r == ""
    ensures field.Some? && '\n' !in field.value ==> r == field.value
  {
    NewlinesToBr(Nullish(field, ""))
  }

  /** A line break in the record becomes one "<br />" between the converted lines. */
  lemma BodyHtmlLines(a: string, b: string)
    ensures BodyHtml(Some(a + "\n" + b)) == BodyHtml(Some(a)) + "<br />" + BodyHtml(Some(b))
  {
    NewlinesToBrAppend(a + "\n", b);
    NewlinesToBrAppend(a, "\n");
    assert NewlinesToBr("\n") == "<br />" by { assert "\n"[1..] == ""; }
  }

  /** The news and achievement pages offer the download button only for a record with a file. */
  function ShowsDownloadButton(p: Page, file: Text): (r: bool)
    ensures p == NoticePage ==> r
    ensures p == NewsPage || p == AchievementPage ==> (r <==> TextTruthy(file))
  {
    p == NoticePage || TextTruthy(file)
  }

  /** The download of a record's file: the name is the last '/'-segment, or "file". */
  function RecordDownload(file: Text): (r: Action)
    ensures r.NoOp? <==> !TextTruthy(file)
    ensures r.Save? ==> r.name != "" && '/' !in r.name
  {
    Download(file, "file")
  }

  /** The notice page's button is shown without a file, and pressing it then does nothing. */
  lemma NoticeButtonWithoutFile()
    ensures ShowsDownloadButton(NoticePage, None) && RecordDownload(None) == NoOp
  {
  }
}

=== FILE: documents.dfy ===
/**
 * The document pages: the file-kind test of the exam schedule page
 * (Student/Schedule.jsx), and the academic calendar (Academic/Calender.jsx) with its
 * recognition of the two date formats the API sends and its list of published
 * entries.
 */
module Documents {
  import opened JsCore
  import opened Strings
  import opened Seqs
  import opened Downloads

  // ---------------------------------------------------------------------------
  // getFileKind

  datatype FileKind = ImageFile | PdfFile | UnknownFile

  const ImageExtensions := ["png", "jpg", "jpeg", "webp", "gif", "bmp", "svg"]

  /**
   * `url.split("?")[0].split(".").pop().toLowerCase()`: the text after the last '.'
   * of the part before the first '?', lower-cased. A URL with no '.' gives its whole
   * part before the query.
   */
  function Extension(url: string): (r: string)
    ensures '.' !in r && '?' !in r
  {
    var b := BeforeFirst(url, '?');
    var e := AfterLast(b, '.');
    AbsentFromSuffix(b, |b| - |e|, '?');
    LowerKeepsPunctuation(e);
    Lower(e)
  }

  lemma AbsentFromSuffix(b: string, k: nat, c: char)
    requires k <= |b| && c !in b
    ensures c !in b[k..]
  {
    forall i | 0 <= i < |b[k..]| ensures b[k..][i] != c {
      assert b[k..][i] == b[k + i];
    }
  }

  /** Lower-casing moves no character to or from '.' or '?'. */
  lemma LowerKeepsPunctuation(e: string)
    ensures ('.' in Lower(e) <==> '.' in e) && ('?' in Lower(e) <==> '?' in e)
  {
    forall k | 0 <= k < |e|
      ensures (Lower(e)[k] == '.' <==> e[k] == '.') && (Lower(e)[k] == '?' <==> e[k] == '?')
    {
    }
  }

  /** The seven image extensions give "image", "pdf" gives "pdf", anything else "unknown". */
  function GetFileKind(url: string): (r: FileKind)
    ensures r == ImageFile <==> Extension(url) in ImageExtensions
    ensures r == PdfFile <==> Extension(url) == "pdf"
    ensures r == UnknownFile <==> Extension(url) !in ImageExtensions && Extension(url) != "pdf"
  {
    var ext := Extension(url);
    if ext in ImageExtensions then ImageFile
    else if ext == "pdf" then PdfFile
    else UnknownFile
  }

  /** The text before the first `c` of `x + [c] + y` is `x`, whatever `y` holds. */
  lemma {:induction false} BeforeFirstOfPrefix(x: string, c: char, y: string)
    requires c !in x
    ensures BeforeFirst(x + [c] + y, c) == x
    decreases |x|
  {
    var s := x + [c] + y;
    if x != [] {
      assert s[0] == x[0];
      assert s[1..] == x[1..] + [c] + y;
      assert c !in x[1..] by { assert forall j :: 0 <= j < |x[1..]| ==> x[1..][j] == x[j + 1]; }
      BeforeFirstOfPrefix(x[1..], c, y);
      assert [x[0]] + x[1..] == x;
    } else {
      assert s[0] == c;
    }
  }

  /** A file `base.ext` is classified by its extension alone, in any letter case. */
  lemma ExtensionOfFileName(base: string, ext: string)
    requires '?' !in base && '?' !in ext && '.' !in ext
    ensures Extension(base + "." + ext) == Lower(ext)
  {
    var name := base + ['.'] + ext;
    assert '?' !in name;
    BeforeFirstAbsent(name, '?');
    AfterLastOfSuffix(base, '.', ext);
    assert base + "." + ext == name;
  }

  lemma {:induction false} BeforeFirstAbsent(s: string, c: char)
    requires c !in s
    ensures BeforeFirst(s, c) == s
    decreases |s|
  {
    if s != [] {
      assert c !in s[1..] by { assert forall j :: 0 <= j < |s[1..]| ==> s[1..][j] == s[j + 1]; }
      BeforeFirstAbsent(s[1..], c);
      assert [s[0]] + s[1..] == s;
    }
  }

  /** The query is ignored, even when it holds a '.'. */
  lemma ExtensionIgnoresQuery(name: string, query: string)
    requires '?' !in name
    ensures Extension(name + "?" + query) == Extension(name)
  {
    assert name + "?" + query == name + ['?'] + query;
    BeforeFirstOfPrefix(name, '?', query);
    BeforeFirstAbsent(name, '?');
  }

  /** A URL without a '.' is classified by all of its text before the query. */
  lemma ExtensionWithoutDot(url: string)
    requires '.' !in url && '?' !in url
    ensures Extension(url) == Lower(url)
  {
    assert forall k :: 0 <= k < |url| ==> url[k] != '?' && url[k] != '.';
    var b := BeforeFirst(url, '?');
    assert b == url;
    var e := AfterLast(b, '.');
    assert e == url;
  }

  /** The default empty URL, and any file without an extension in the lists, is "unknown". */
  lemma EmptyUrlIsUnknown()
    ensures GetFileKind("") == UnknownFile
  {
    assert BeforeFirst("", '?') == "" && AfterLast("", '.') == "";
    assert Extension("") == Lower("") == "";
  }

  /** Upper-case extensions are recognised: "scan.PDF?dl=1" is a PDF. */
  lemma UpperCasePdf(base: string, query: string)
    requires '?' !in base
    ensures GetFileKind(base + ".PDF?" + query) == PdfFile
  {
    var name := base + "." + "PDF";
    ExtensionOfFileName(base, "PDF");
    assert name == base + ['.'] + "PDF";
    assert '?' !in name;
    ExtensionIgnoresQuery(name, query);
    assert base + ".PDF?" + query == name + "?" + query;
    assert Lower("PDF") == "pdf";
  }

  // ---------------------------------------------------------------------------
  // The exam schedule list

  /** An entry of `exam_schedules`; `title` is the raw JSON value, printed by a template literal. */
  datatype ExamSchedule = ExamSchedule(title: Val, publishDate: Text, file: Text)

  /**
   * "Download File" on a schedule: saved under its last path segment, else under
   * `${title}.pdf`, the title printed as `String` prints it.
   */
  function DownloadSchedule(e: ExamSchedule): (r: Action)
    ensures r.NoOp? <==> !TextTruthy(e.file)
    ensures r.Save? ==> r.url == e.file.value
    ensures r.Save? && AfterLast(e.file.value, '/') == "" ==> r.name == ToStr(e.title) + ".pdf"
    ensures r.Save? && AfterLast(e.file.value, '/') != "" ==> r.name == AfterLast(e.file.value, '/')
  {
    Download(e.file, ToStr(e.title) + ".pdf")
  }

  /** A schedule whose file URL ends in '/' is saved as its title with ".pdf". */
  lemma DirectoryUrlSavedUnderTitle(e: ExamSchedule, dir: string)
    requires e.file == Some(dir + "/")
    ensures DownloadSchedule(e) == Save(dir + "/", ToStr(e.title) + ".pdf")
  {
    DownloadNameOfDirectory(dir, ToStr(e.title) + ".pdf");
  }

  /** Without a usable name in the URL, a null title saves "null.pdf" and a missing one "undefined.pdf". */
  lemma UntitledDirectoryDownload(e: ExamSchedule, dir: string)
    requires e.file == Some(dir + "/")
    ensures e.title == Null ==> DownloadSchedule(e) == Save(dir + "/", "null.pdf")
    ensures e.title == Undefined ==> DownloadSchedule(e) == Save(dir + "/", "undefined.pdf")
  {
    DirectoryUrlSavedUnderTitle(e, dir);
  }

  // ---------------------------------------------------------------------------
  // parseAPIDate

  /** `/^\d{4}-\d{2}-\d{2}$/`. */
  predicate IsoShape(t: string) {
    |t| == 10 && AllDigits(t[..4]) && t[4] == '-' && AllDigits(t[5..7]) && t[7] == '-' && AllDigits(t[8..])
  }

  /** `/^\d{2}-\d{2}-\d{4}$/`. */
  predicate DmyShape(t: string) {
    |t| == 10 && AllDigits(t[..2]) && t[2] == '-' && AllDigits(t[3..5]) && t[5] == '-' && AllDigits(t[6..])
  }

  /** What reaches the `Date` constructor: three numbers `(year, monthIndex, day)`, or a text. */
  datatype DateArg = Ymd(year: int, monthIndex: int, day: int) | Native(text: string)

  /** `new Date(y, m - 1, d)`, which is an invalid date when a component is NaN. */
  function FromParts(y: Option<int>, m: Option<int>, d: Option<int>): (r: Option<DateArg>)
    ensures r.Some? <==> y.Some? && m.Some? && d.Some?
    ensures r.Some? ==> r.value == Ymd(y.value, m.value - 1, d.value)
  {
    if y.Some? && m.Some? && d.Some? then Some(Ymd(y.value, m.value - 1, d.value)) else None
  }

  lemma DigitsHaveNoDash(x: string)
    requires AllDigits(x)
    ensures '-' !in x
  {
    forall k | 0 <= k < |x| ensures x[k] != '-' {
      assert IsDigit(x[k]);
    }
  }

  /** Splitting at a first separator gives the text before it, then the rest's parts. */
  lemma {:induction false} SplitAtFirst(x: string, c: char, y: string)
    requires c !in x
    ensures Split(x + [c] + y, c) == [x] + Split(y, c)
    decreases |x|
  {
    var s := x + [c] + y;
    if x == [] {
      assert s[0] == c && s[1..] == y;
    } else {
      assert s[0] == x[0] && s[0] != c;
      assert s[1..] == x[1..] + [c] + y;
      assert c !in x[1..] by { assert forall j :: 0 <= j < |x[1..]| ==> x[1..][j] == x[j + 1]; }
      SplitAtFirst(x[1..], c, y);
      assert [x[0]] + x[1..] == x;
    }
  }

  /** Splitting a text of the shape `a-b-c` at '-' gives its three digit groups. */
  lemma SplitThreeGroups(t: string, i: int, j: int)
    requires 0 <= i < j < |t| && t[i] == '-' && t[j] == '-'
    requires AllDigits(t[..i]) && AllDigits(t[i + 1..j]) && AllDigits(t[j + 1..])
    ensures Split(t, '-') == [t[..i], t[i + 1..j], t[j + 1..]]
  {
    var a, b, c := t[..i], t[i + 1..j], t[j + 1..];
    DigitsHaveNoDash(a);
    DigitsHaveNoDash(b);
    DigitsHaveNoDash(c);
    var rest := t[i + 1..];
    assert rest == b + ['-'] + c by {
      assert rest == t[i + 1..j] + t[j..];
      assert t[j..] == ['-'] + t[j + 1..];
    }
    assert t == a + ['-'] + rest by {
      assert t == t[..i] + t[i..];
      assert t[i..] == ['-'] + t[i + 1..];
    }
    SplitAtFirst(a, '-', rest);
    SplitAtFirst(b, '-', c);
    SplitNoSeparator(c, '-');
    assert Split(t, '-') == [a] + ([b] + [c]);
  }

  /** The numbers of the three groups of `a-b-c`, as `Number` reads them. */
  lemma GroupNumbers(t: string, i: int, j: int)
    requires 0 <= i < j < |t| && t[i] == '-' && t[j] == '-'
    requires 0 < i && i + 1 < j && j + 1 < |t|
    requires AllDigits(t[..i]) && AllDigits(t[i + 1..j]) && AllDigits(t[j + 1..])
    ensures |Split(t, '-')| == 3
    ensures NumberOfString(Split(t, '-')[0]) == Some(DigitsValue(t[..i]))
    ensures NumberOfString(Split(t, '-')[1]) == Some(DigitsValue(t[i + 1..j]))
    ensures NumberOfString(Split(t, '-')[2]) == Some(DigitsValue(t[j + 1..]))
  {
    SplitThreeGroups(t, i, j);
  }

  /**
   * `parseAPIDate` after the argument has been found truthy and trimmed. The numbers
   * `str.split("-").map(Number)` yields for the two shapes are the digit groups, as
   * `GroupNumbers` shows, and none of them is NaN, so `new Date` receives them as they are.
   */
  function ParseTrimmed(t: string, nativeValid: string -> bool): (r: Option<DateArg>)
    ensures IsoShape(t) ==> r == Some(Ymd(DigitsValue(t[..4]), DigitsValue(t[5..7]) - 1, DigitsValue(t[8..])))
    ensures DmyShape(t) ==> r == Some(Ymd(DigitsValue(t[6..]), DigitsValue(t[3..5]) - 1, DigitsValue(t[..2])))
    ensures !IsoShape(t) && !DmyShape(t) ==> (r.Some? <==> nativeValid(t)) && (r.Some? ==> r.value == Native(t))
  {
    ShapesExclusive(t);
    if IsoShape(t) then FromParts(Some(DigitsValue(t[..4])), Some(DigitsValue(t[5..7])), Some(DigitsValue(t[8..])))
    else if DmyShape(t) then FromParts(Some(DigitsValue(t[6..])), Some(DigitsValue(t[3..5])), Some(DigitsValue(t[..2])))
    else if nativeValid(t) then Some(Native(t))
    else None
  }

  /**
   * `parseAPIDate(s)`: nothing for a falsy argument; otherwise the trimmed text in
   * the form "YYYY-MM-DD" or "DD-MM-YYYY" gives its numbers, and any other text goes
   * to the built-in parser, whose verdict `nativeValid` is a parameter of the model.
   */
  function ParseApiDate(s: Text, nativeValid: string -> bool): (r: Option<DateArg>)
    ensures !TextTruthy(s) ==> r.None?
    ensures TextTruthy(s) ==> r == ParseTrimmed(Trim(s.value), nativeValid)
  {
    if !TextTruthy(s) then None else ParseTrimmed(Trim(s.value), nativeValid)
  }

  /** No text has both shapes, so the order of the two tests does not matter. */
  lemma ShapesExclusive(t: string)
    ensures !(IsoShape(t) && DmyShape(t))
  {
    if IsoShape(t) {
      assert IsDigit(t[..4][2]);
    }
  }

  /** `n` printed with exactly `w` digits, zero-padded on the left. */
  function Fixed(n: nat, w: nat): (r: string)
    ensures |r| == w && AllDigits(r)
  {
    if w == 0 then "" else Fixed(n / 10, w - 1) + [DigitChar(n % 10)]
  }

  function Pow10(w: nat): (r: nat)
    ensures r >= 1
  {
    if w == 0 then 1 else 10 * Pow10(w - 1)
  }

  /** Reading a zero-padded number back gives the number, when it fits in `w` digits. */
  lemma {:induction false} FixedValue(n: nat, w: nat)
    requires n < Pow10(w)
    ensures DigitsValue(Fixed(n, w)) == n
  {
    if w > 0 {
      var s := Fixed(n, w);
      assert n / 10 < Pow10(w - 1);
      FixedValue(n / 10, w - 1);
      assert s[..|s| - 1] == Fixed(n / 10, w - 1);
    }
  }

  /** `String(n).padStart(w, "0")` for the API's date fields. */
  function IsoText(y: nat, m: nat, d: nat): string {
    Fixed(y, 4) + "-" + Fixed(m, 2) + "-" + Fixed(d, 2)
  }

  function DmyText(y: nat, m: nat, d: nat): string {
    Fixed(d, 2) + "-" + Fixed(m, 2) + "-" + Fixed(y, 4)
  }

  /** Trimming only looks at the ends: a text that starts and ends with a non-space is kept. */
  lemma TrimKeeps(t: string)
    requires t != [] && !IsJsSpace(t[0]) && !IsJsSpace(t[|t| - 1])
    ensures Trim(t) == t
  {
  }

  /** Once the text is non-empty and trimmed, `parseAPIDate` reads it as it is. */
  lemma ParseOfTrimmed(t: string, nativeValid: string -> bool)
    requires Trim(t) == t && t != []
    ensures ParseApiDate(Some(t), nativeValid) == ParseTrimmed(t, nativeValid)
  {
  }

  lemma IsoTextTrimmed(y: nat, m: nat, d: nat)
    requires y < 10000 && m < 100 && d < 100
    ensures IsoText(y, m, d) != [] && Trim(IsoText(y, m, d)) == IsoText(y, m, d)
  {
    var t := IsoText(y, m, d);
    assert t[0] == Fixed(y, 4)[0] && t[9] == Fixed(d, 2)[1];
    assert IsDigit(t[0]) && IsDigit(t[9]);
    TrimKeeps(t);
  }

  lemma DmyTextTrimmed(y: nat, m: nat, d: nat)
    requires y < 10000 && m < 100 && d < 100
    ensures DmyText(y, m, d) != [] && Trim(DmyText(y, m, d)) == DmyText(y, m, d)
  {
    var t := DmyText(y, m, d);
    assert t[0] == Fixed(d, 2)[0] && t[9] == Fixed(y, 4)[3];
    assert IsDigit(t[0]) && IsDigit(t[9]);
    TrimKeeps(t);
  }

  lemma IsoTextParsed(y: nat, m: nat, d: nat, nativeValid: string -> bool)
    requires y < 10000 && m < 100 && d < 100
    ensures ParseTrimmed(IsoText(y, m, d), nativeValid) == Some(Ymd(y, m - 1, d))
  {
    var t := IsoText(y, m, d);
    assert t[..4] == Fixed(y, 4) && t[5..7] == Fixed(m, 2) && t[8..] == Fixed(d, 2);
    FixedValue(y, 4);
    FixedValue(m, 2);
    FixedValue(d, 2);
  }

  lemma DmyTextParsed(y: nat, m: nat, d: nat, nativeValid: string -> bool)
    requires y < 10000 && m < 100 && d < 100
    ensures ParseTrimmed(DmyText(y, m, d), nativeValid) == Some(Ymd(y, m - 1, d))
  {
    var t := DmyText(y, m, d);
    assert t[..2] == Fixed(d, 2) && t[3..5] == Fixed(m, 2) && t[6..] == Fixed(y, 4);
    FixedValue(y, 4);
    FixedValue(m, 2);
    FixedValue(d, 2);
  }

  /** A date the API writes as "YYYY-MM-DD" is read back as (year, month - 1, day). */
  lemma IsoRoundTrip(y: nat, m: nat, d: nat, nativeValid: string -> bool)
    requires y < 10000 && m < 100 && d < 100
    ensures ParseApiDate(Some(IsoText(y, m, d)), nativeValid) == Some(Ymd(y, m - 1, d))
  {
    IsoTextTrimmed(y, m, d);
    ParseOfTrimmed(IsoText(y, m, d), nativeValid);
    IsoTextParsed(y, m, d, nativeValid);
  }

  /** A date written as "DD-MM-YYYY" is read back the same way. */
  lemma DmyRoundTrip(y: nat, m: nat, d: nat, nativeValid: string -> bool)
    requires y < 10000 && m < 100 && d < 100
    ensures ParseApiDate(Some(DmyText(y, m, d)), nativeValid) == Some(Ymd(y, m - 1, d))
  {
    DmyTextTrimmed(y, m, d);
    ParseOfTrimmed(DmyText(y, m, d), nativeValid);
    DmyTextParsed(y, m, d, nativeValid);
  }

  /** `formatDateDisplay(s)`: the empty text when there is no date, else the formatted date. */
  function FormatDateDisplay(s: Text, nativeValid: string -> bool, show: DateArg -> string): (r: string)
    ensures ParseApiDate(s, nativeValid).None? ==> r == ""
    ensures ParseApiDate(s, nativeValid).Some? ==> r == show(ParseApiDate(s, nativeValid).value)
  {
    match ParseApiDate(s, nativeValid)
    case None => ""
    case Some(d) => show(d)
  }

  /** A missing or empty date shows nothing; an API date is always shown. */
  lemma DisplayOfApiDates(y: nat, m: nat, d: nat, nativeValid: string -> bool, show: DateArg -> string)
    requires y < 10000 && m < 100 && d < 100
    ensures FormatDateDisplay(None, nativeValid, show) == ""
    ensures FormatDateDisplay(Some(""), nativeValid, show) == ""
    ensures FormatDateDisplay(Some(IsoText(y, m, d)), nativeValid, show) == show(Ymd(y, m - 1, d))
  {
    IsoRoundTrip(y, m, d, nativeValid);
  }

  // ---------------------------------------------------------------------------
  // The calendar list

  /** An entry of `academic_calendars`; `isPublished` is the raw JSON value. */
  datatype CalendarEntry = CalendarEntry(title: Text, publishDate: Text, file: Text, description: Text, isPublished: Val)

  datatype CalendarCard = CalendarCard(title: Text, date: Text, file: Text, content: string)

  const DefaultDescription := "Academic schedule and events for the year."

  /** Only an explicit `false` hides an entry; a missing flag, null or 0 do not. */
  predicate Listed(c: CalendarEntry) {
    c.isPublished != Bool(false)
  }

  function CardOf(c: CalendarEntry): (r: CalendarCard)
    ensures r.title == c.title && r.date == c.publishDate && r.file == c.file
    ensures TextTruthy(c.description) ==> r.content == c.description.value
    ensures !TextTruthy(c.description) ==> r.content == DefaultDescription
  {
    CalendarCard(c.title, c.publishDate, c.file, OrElse(c.description, DefaultDescription))
  }

  /** The entries of `list` that are listed, in order; a missing list has none. */
  function ListedEntries(list: Option<seq<CalendarEntry>>): (r: seq<CalendarEntry>)
    ensures |r| <= |list.GetOr([])|
    ensures forall i :: 0 <= i < |r| ==> r[i] in list.GetOr([]) && Listed(r[i])
    ensures forall j :: 0 <= j < |list.GetOr([])| && Listed(list.GetOr([])[j]) ==> list.GetOr([])[j] in r
    ensures multiset(r) <= multiset(list.GetOr([]))
  {
    FilterSubMultiset(list.GetOr([]), Listed);
    Filter(list.GetOr([]), Listed)
  }

  /** One entry is kept exactly when it is listed. */
  lemma ListedEntriesSingle(c: CalendarEntry)
    ensures ListedEntries(Some([c])) == if Listed(c) then [c] else []
  {
    FilterSingle(c, Listed);
  }

  /**
   * The listed entries of two lists in turn are those of the first followed by those
   * of the second: with `ListedEntriesSingle`, the order and repetitions of the list.
   */
  lemma ListedEntriesAppend(a: seq<CalendarEntry>, b: seq<CalendarEntry>)
    ensures ListedEntries(Some(a + b)) == ListedEntries(Some(a)) + ListedEntries(Some(b))
  {
    FilterAppend(a, b, Listed);
  }

  /** One card per listed entry, in the same order. */
  function Calendar(list: Option<seq<CalendarEntry>>): (r: seq<CalendarCard>)
    ensures |r| == |ListedEntries(list)|
    ensures forall i :: 0 <= i < |r| ==> r[i] == CardOf(ListedEntries(list)[i])
  {
    var kept := ListedEntries(list);
    seq(|kept|, i requires 0 <= i < |kept| => CardOf(kept[i]))
  }

  /** Every listed entry gets a card; an entry marked unpublished gets none of its own. */
  lemma CalendarShowsListed(list: seq<CalendarEntry>, j: int)
    requires 0 <= j < |list|
    ensures Listed(list[j]) ==> CardOf(list[j]) in Calendar(Some(list))
    ensures forall i :: 0 <= i < |Calendar(Some(list))| ==> Listed(ListedEntries(Some(list))[i])
  {
    var kept := ListedEntries(Some(list));
    if Listed(list[j]) {
      assert list[j] in kept;
      var i :| 0 <= i < |kept| && kept[i] == list[j];
      assert Calendar(Some(list))[i] == CardOf(list[j]);
    }
  }

  /** The text of a card's description as the page renders it: each "\n" becomes "<br />". */
  function ContentHtml(card: CalendarCard): (r: string)
    ensures '\n' !in r
  {
    NewlinesToBr(card.content)
  }

  /** An entry without a description shows the default sentence, which has no line break. */
  lemma DefaultContentShown(c: CalendarEntry)
    requires !TextTruthy(c.description)
    ensures ContentHtml(CardOf(c)) == DefaultDescription
  {
    assert '\n' !in DefaultDescription;
  }
}

=== FILE: downloads.dfy ===
/**
 * The download and read actions of the document pages: the file is saved under the
 * last '/'-segment of its URL (or a fallback name when that segment is empty), and
 * both actions do nothing for an empty or missing URL.
 */
module Downloads {
  import opened JsCore
  import opened Strings

  /** `url.split("/").pop() || fallback`. */
  function DownloadName(url: string, fallback: string): (r: string)
    ensures '/' !in AfterLast(url, '/') && (AfterLast(url, '/') != "" ==> r == AfterLast(url, '/'))
    ensures AfterLast(url, '/') == "" ==> r == fallback
  {
    OrElse(Some(AfterLast(url, '/')), fallback)
  }

  /** The text after the last separator of `x + [c] + y` is `y`, whatever `x` holds. */
  lemma {:induction false} AfterLastOfSuffix(x: string, c: char, y: string)
    requires c !in y
    ensures AfterLast(x + [c] + y, c) == y
    decreases |y|
  {
    var s := x + [c] + y;
    if y != [] {
      var y' := y[..|y| - 1];
      assert s[..|s| - 1] == x + [c] + y';
      assert c !in y';
      AfterLastOfSuffix(x, c, y');
      assert y' + [y[|y| - 1]] == y;
    }
  }

  /** A URL naming a file in some directory is saved under the file's name. */
  lemma DownloadNameIsFileName(dir: string, name: string, fallback: string)
    requires name != "" && '/' !in name
    ensures DownloadName(dir + "/" + name, fallback) == name
  {
    AfterLastOfSuffix(dir, '/', name);
  }

  /** A URL ending in '/' is saved under the fallback name. */
  lemma DownloadNameOfDirectory(dir: string, fallback: string)
    ensures DownloadName(dir + "/", fallback) == fallback
  {
    AfterLastOfSuffix(dir, '/', "");
    assert dir + "/" == dir + ['/'] + "";
  }

  /** What pressing "Download File" does. */
  datatype Action = NoOp | Save(url: string, name: string)

  /**
   * `handleDownload(url, fallbackName)`: nothing for a falsy URL, otherwise the file
   * is fetched and saved under `DownloadName`.
   */
  function Download(url: Text, fallback: string): (r: Action)
    ensures r.NoOp? <==> !TextTruthy(url)
    ensures r.Save? ==> r.url == url.value && r.name == DownloadName(url.value, fallback)
  {
    if TextTruthy(url) then Save(url.value, DownloadName(url.value, fallback)) else NoOp
  }

  /** What pressing "Read" does: open the URL in a new tab, unless it is falsy. */
  datatype ReadAction = Stay | OpenTab(url: string)

  function Read(url: Text): (r: ReadAction)
    ensures r.Stay? <==> !TextTruthy(url)
    ensures r.OpenTab? ==> r.url == url.value
  {
    if TextTruthy(url) then OpenTab(url.value) else Stay
  }
}

=== FILE: galleries.dfy ===
/**
 * The media galleries: the extension tests `/\.mp4(\?.*)?$/i` and
 * `/\.(jpe?g|png)(\?.*)?$/i`, the flattening of the events' galleries into photo and
 * video lists (Others/VideoGallery.jsx, Others/Gallery.jsx, Home/Photo.jsx), the
 * eight-per-page pagination with its modals, and the event page's gallery preview
 * and lightbox (Others/EventsDetails.jsx).
 */
module Galleries {
  import opened JsCore
  import opened Strings
  import opened Seqs

  // ---------------------------------------------------------------------------
  // The extension regexes

  /** `(\?.*)?$`: nothing, or a '?' and then anything up to the end except a line break. */
  predicate QueryTail(t: string) {
    t == [] || (t[0] == '?' && NoLineTerminator(t[1..]))
  }

  /** The regex matches with `ext` (such as ".mp4") starting at position `i`. */
  predicate MatchesAt(s: string, i: int, ext: string) {
    0 <= i && i + |ext| <= |s| && Lower(s[i..i + |ext|]) == ext && QueryTail(s[i + |ext|..])
  }

  /** The regex `\.(e1|e2|...)(\?.*)?$` with the `i` flag, read as a statement about `s`. */
  ghost predicate RegexMatches(s: string, exts: seq<string>) {
    exists i, k :: 0 <= k < |exts| && MatchesAt(s, i, exts[k])
  }

  /** `t` ends in `ext`, in any letter case. */
  predicate EndsWithExt(t: string, ext: string) {
    |ext| <= |t| && Lower(t[|t| - |ext|..]) == ext
  }

  predicate EndsWithAny(t: string, exts: seq<string>) {
    exists k :: 0 <= k < |exts| && EndsWithExt(t, exts[k])
  }

  /**
   * Looks, from position `q` leftwards, for a '?' that ends one of the extensions;
   * a line break stops the search, since no query may contain one.
   */
  function ScanQuery(s: string, exts: seq<string>, q: int): (r: bool)
    requires q < |s|
    decreases q + 1
  {
    if q < 0 then false
    else if IsLineTerminator(s[q]) then false
    else if s[q] == '?' && EndsWithAny(s[..q], exts) then true
    else ScanQuery(s, exts, q - 1)
  }

  /** The test the galleries apply: an extension at the very end, or before a query. */
  function MediaMatches(s: string, exts: seq<string>): (r: bool)
    ensures r <==> RegexMatches(s, exts)
  {
    ScanQueryFinds(s, exts, |s| - 1);
    RegexCases(s, exts);
    EndsWithAny(s, exts) || ScanQuery(s, exts, |s| - 1)
  }

  /** What `ScanQuery` finds: a '?' at or before `q`, with a clean tail, ending an extension. */
  ghost predicate QueryBefore(s: string, exts: seq<string>, q: int)
    requires q < |s|
  {
    exists p :: 0 <= p <= q && s[p] == '?' && NoLineTerminator(s[p + 1..]) && EndsWithAny(s[..p], exts)
  }

  lemma {:induction false} ScanQueryFinds(s: string, exts: seq<string>, q: int)
    requires -1 <= q < |s| && NoLineTerminator(s[q + 1..])
    ensures ScanQuery(s, exts, q) <==> QueryBefore(s, exts, q)
    decreases q + 1
  {
    if q >= 0 {
      if IsLineTerminator(s[q]) {
        forall p | 0 <= p <= q && s[p] == '?'
          ensures !NoLineTerminator(s[p + 1..])
        {
          assert s[p + 1..][q - p - 1] == s[q];
        }
      } else if s[q] == '?' && EndsWithAny(s[..q], exts) {
        assert 0 <= q <= q && s[q] == '?' && NoLineTerminator(s[q + 1..]) && EndsWithAny(s[..q], exts);
      } else {
        assert NoLineTerminator(s[q..]) by {
          forall j | 0 <= j < |s[q..]|
            ensures !IsLineTerminator(s[q..][j])
          {
            if j > 0 {
              assert s[q..][j] == s[q + 1..][j - 1];
            }
          }
        }
        ScanQueryFinds(s, exts, q - 1);
        if QueryBefore(s, exts, q) {
          var p :| 0 <= p <= q && s[p] == '?' && NoLineTerminator(s[p + 1..]) && EndsWithAny(s[..p], exts);
          assert QueryBefore(s, exts, q - 1);
        }
      }
    }
  }

  /** A match either ends the text or stops at a '?' whose tail is clean. */
  lemma RegexCases(s: string, exts: seq<string>)
    ensures RegexMatches(s, exts) <==> EndsWithAny(s, exts) || QueryBefore(s, exts, |s| - 1)
  {
    if RegexMatches(s, exts) {
      var i, k :| 0 <= k < |exts| && MatchesAt(s, i, exts[k]);
      MatchIsEndOrQuery(s, i, exts, k);
    }
    if EndsWithAny(s, exts) {
      var k :| 0 <= k < |exts| && EndsWithExt(s, exts[k]);
      assert MatchesAt(s, |s| - |exts[k]|, exts[k]);
    }
    if QueryBefore(s, exts, |s| - 1) {
      var p :| 0 <= p <= |s| - 1 && s[p] == '?' && NoLineTerminator(s[p + 1..]) && EndsWithAny(s[..p], exts);
      var k :| 0 <= k < |exts| && EndsWithExt(s[..p], exts[k]);
      QueryIsMatch(s, p, exts, k);
    }
  }

  lemma MatchIsEndOrQuery(s: string, i: int, exts: seq<string>, k: int)
    requires 0 <= k < |exts| && MatchesAt(s, i, exts[k])
    ensures EndsWithAny(s, exts) || QueryBefore(s, exts, |s| - 1)
  {
    var p := i + |exts[k]|;
    if p == |s| {
      assert EndsWithExt(s, exts[k]);
    } else {
      assert s[p] == s[p..][0] == '?';
      assert s[p + 1..] == s[p..][1..];
      assert s[..p][|s[..p]| - |exts[k]|..] == s[i..p];
      assert EndsWithExt(s[..p], exts[k]);
    }
  }

  lemma QueryIsMatch(s: string, p: int, exts: seq<string>, k: int)
    requires 0 <= p < |s| && s[p] == '?' && NoLineTerminator(s[p + 1..])
    requires 0 <= k < |exts| && EndsWithExt(s[..p], exts[k])
    ensures RegexMatches(s, exts)
  {
    var i := p - |exts[k]|;
    assert s[..p][|s[..p]| - |exts[k]|..] == s[i..p];
    assert s[p..][1..] == s[p + 1..];
    assert MatchesAt(s, i, exts[k]);
  }

  const VideoExts := [".mp4"]
  const ImageExts := [".jpg", ".jpeg", ".png"]

  /** `isMp4(url)` / `isVideo(url)`; a missing URL tests the empty text. */
  function IsMp4(url: Text): (r: bool)
    ensures r <==> RegexMatches(url.GetOr(""), VideoExts)
  {
    MediaMatches(url.GetOr(""), VideoExts)
  }

  /** `isImage(url)` of Others/Gallery.jsx. */
  function IsImage(url: Text): (r: bool)
    ensures r <==> RegexMatches(url.GetOr(""), ImageExts)
  {
    MediaMatches(url.GetOr(""), ImageExts)
  }

  /** The tests ignore letter case. */
  lemma UpperCaseClip()
    ensures IsMp4(Some("clip.MP4"))
  {
    var s := "clip.MP4";
    assert Lower(s[4..8]) == ".mp4";
    assert MatchesAt(s, 4, VideoExts[0]);
  }

  /** A query after the extension is allowed. */
  lemma ClipWithQuery()
    ensures IsMp4(Some("clip.mp4?t=10"))
  {
    var t := "clip.mp4?t=10";
    assert Lower(t[4..8]) == ".mp4";
    assert QueryTail(t[8..]) by { assert t[8..][1..] == "t=10"; }
    assert MatchesAt(t, 4, VideoExts[0]);
  }

  /** The tests are not exclusive: a query may itself end in another extension. */
  lemma VideoAndImage()
    ensures IsMp4(Some("a.mp4?x.jpg")) && IsImage(Some("a.mp4?x.jpg"))
  {
    var w := "a.mp4?x.jpg";
    assert Lower(w[1..5]) == ".mp4";
    assert QueryTail(w[5..]) by { assert w[5..][1..] == "x.jpg"; }
    assert MatchesAt(w, 1, VideoExts[0]);
    assert Lower(w[7..11]) == ".jpg" && w[11..] == "";
    assert MatchesAt(w, 7, ImageExts[0]);
  }

  // ---------------------------------------------------------------------------
  // Flattening the events' galleries

  /** A gallery entry; a null entry is `None` in the list. */
  datatype GalleryItem = GalleryItem(media: Text, caption: Text)

  /** An event; `galleries` is `None` when missing or null. */
  datatype Event = Event(title: Text, galleries: Option<seq<Option<GalleryItem>>>)

  function MediaOf(g: Option<GalleryItem>): Text {
    if g.Some? then g.value.media else None
  }

  function CaptionOf(g: Option<GalleryItem>): Text {
    if g.Some? then g.value.caption else None
  }

  /** `a || b || d`. */
  function FirstTruthy(a: Text, b: Text, d: string): (r: string)
    ensures TextTruthy(a) ==> r == a.value
    ensures !TextTruthy(a) && TextTruthy(b) ==> r == b.value
    ensures !TextTruthy(a) && !TextTruthy(b) ==> r == d
  {
    OrElse(a, OrElse(b, d))
  }

  /** A card of Others/VideoGallery.jsx or Others/Gallery.jsx. */
  datatype Media = Media(src: string, name: string, occasion: string)

  /** The entries of one event whose media passes the test, in order. */
  function Kept(e: Event, exts: seq<string>): (r: seq<Option<GalleryItem>>)
    ensures forall j :: 0 <= j < |r| ==> r[j] in e.galleries.GetOr([]) && MediaMatches(MediaOf(r[j]).GetOr(""), exts)
    ensures forall j :: 0 <= j < |e.galleries.GetOr([])| && MediaMatches(MediaOf(e.galleries.GetOr([])[j]).GetOr(""), exts) ==>
              e.galleries.GetOr([])[j] in r
    ensures multiset(r) <= multiset(e.galleries.GetOr([]))
  {
    var keep := (g: Option<GalleryItem>) => MediaMatches(MediaOf(g).GetOr(""), exts);
    FilterSubMultiset(e.galleries.GetOr([]), keep);
    Filter(e.galleries.GetOr([]), keep)
  }

  /** An event with one gallery entry keeps it exactly when its media passes the test. */
  lemma KeptSingle(e: Event, g: Option<GalleryItem>, exts: seq<string>)
    requires e.galleries == Some([g])
    ensures Kept(e, exts) == if MediaMatches(MediaOf(g).GetOr(""), exts) then [g] else []
  {
    FilterSingle(g, (g: Option<GalleryItem>) => MediaMatches(MediaOf(g).GetOr(""), exts));
  }

  /**
   * Splitting an event's gallery in two splits what it keeps the same way: with
   * `KeptSingle`, the gallery's order and repetitions are kept.
   */
  lemma KeptAppend(e: Event, a: seq<Option<GalleryItem>>, b: seq<Option<GalleryItem>>, exts: seq<string>)
    requires e.galleries == Some(a + b)
    ensures Kept(e, exts) == Kept(e.(galleries := Some(a)), exts) + Kept(e.(galleries := Some(b)), exts)
  {
    FilterAppend(a, b, (g: Option<GalleryItem>) => MediaMatches(MediaOf(g).GetOr(""), exts));
  }

  /** The cards one event contributes. */
  function EventMedia(e: Event, exts: seq<string>, fallbackName: string): (r: seq<Media>)
    ensures |r| == |Kept(e, exts)|
    ensures forall j :: 0 <= j < |r| ==> r[j] == MediaCard(e, Kept(e, exts)[j], fallbackName)
  {
    var kept := Kept(e, exts);
    seq(|kept|, j requires 0 <= j < |kept| => MediaCard(e, kept[j], fallbackName))
  }

  /** `{ src: g.media, name: g.caption || event.title || fallback, occation: g.caption || event.title || "" }`. */
  function MediaCard(e: Event, g: Option<GalleryItem>, fallbackName: string): (r: Media)
    ensures r.src == MediaOf(g).GetOr("")
    ensures TextTruthy(CaptionOf(g)) ==> r.name == CaptionOf(g).value && r.occasion == r.name
    ensures !TextTruthy(CaptionOf(g)) && TextTruthy(e.title) ==> r.name == e.title.value && r.occasion == r.name
    ensures !TextTruthy(CaptionOf(g)) && !TextTruthy(e.title) ==> r.name == fallbackName && r.occasion == ""
  {
    Media(MediaOf(g).GetOr(""), FirstTruthy(CaptionOf(g), e.title, fallbackName), FirstTruthy(CaptionOf(g), e.title, ""))
  }

  /**
   * `events.flatMap(event => (event?.galleries ?? []).filter(...).map(...))`: every
   * card's source passes the test, and with a non-empty default every card is named.
   */
  function AllMedia(events: seq<Event>, exts: seq<string>, fallbackName: string): (r: seq<Media>)
    ensures forall j :: 0 <= j < |r| ==> MediaMatches(r[j].src, exts)
    ensures fallbackName != "" ==> forall j :: 0 <= j < |r| ==> r[j].name != ""
    decreases |events|
  {
    if events == [] then []
    else
      var first := EventMedia(events[0], exts, fallbackName);
      assert forall j :: 0 <= j < |first| ==> MediaMatches(first[j].src, exts) by {
        forall j | 0 <= j < |first| ensures MediaMatches(first[j].src, exts) {
          assert Kept(events[0], exts)[j] in Kept(events[0], exts);
        }
      }
      first + AllMedia(events[1..], exts, fallbackName)
  }

  /** Event order is kept: the cards of a list of events are those of its parts, in turn. */
  lemma {:induction false} AllMediaAppend(a: seq<Event>, b: seq<Event>, exts: seq<string>, fallbackName: string)
    ensures AllMedia(a + b, exts, fallbackName) == AllMedia(a, exts, fallbackName) + AllMedia(b, exts, fallbackName)
    decreases |a|
  {
    if a == [] {
      assert a + b == b;
    } else {
      assert (a + b)[0] == a[0] && (a + b)[1..] == a[1..] + b;
      AllMediaAppend(a[1..], b, exts, fallbackName);
    }
  }

  /** Every card comes from a matching gallery entry of one of the events. */
  lemma {:induction false} AllMediaFromEvents(events: seq<Event>, exts: seq<string>, fallbackName: string, m: Media)
    requires m in AllMedia(events, exts, fallbackName)
    ensures exists e, g :: e in events && g in e.galleries.GetOr([]) && m == MediaCard(e, g, fallbackName) && MediaMatches(MediaOf(g).GetOr(""), exts)
    decreases |events|
  {
    var first := EventMedia(events[0], exts, fallbackName);
    if m in first {
      var j :| 0 <= j < |first| && first[j] == m;
      var g := Kept(events[0], exts)[j];
      assert g in events[0].galleries.GetOr([]) && MediaMatches(MediaOf(g).GetOr(""), exts);
      assert events[0] in events;
    } else {
      AllMediaFromEvents(events[1..], exts, fallbackName, m);
      var e, g :| e in events[1..] && g in e.galleries.GetOr([]) && m == MediaCard(e, g, fallbackName) && MediaMatches(MediaOf(g).GetOr(""), exts);
      assert e in events;
    }
  }

  /** Others/VideoGallery.jsx's list: the `.mp4` entries, named "Video" when nothing else names them. */
  function Videos(events: Option<seq<Event>>): (r: seq<Media>)
    ensures events.None? ==> r == []
    ensures forall j :: 0 <= j < |r| ==> IsMp4(Some(r[j].src)) && r[j].name != ""
  {
    AllMedia(events.GetOr([]), VideoExts, "Video")
  }

  /** Others/Gallery.jsx's `Photos`: the `.jpg`, `.jpeg` and `.png` entries, named "Photo" by default. */
  function Photos(events: Option<seq<Event>>): (r: seq<Media>)
    ensures events.None? ==> r == []
    ensures forall j :: 0 <= j < |r| ==> IsImage(Some(r[j].src)) && r[j].name != ""
  {
    AllMedia(events.GetOr([]), ImageExts, "Photo")
  }

  /** A single event with one clip contributes exactly that clip, named by its caption or the title. */
  lemma OneClip(title: Text, item: GalleryItem)
    requires IsMp4(item.media)
    ensures Videos(Some([Event(title, Some([Some(item)]))])) ==
            [Media(item.media.GetOr(""), FirstTruthy(item.caption, title, "Video"), FirstTruthy(item.caption, title, ""))]
  {
    var e := Event(title, Some([Some(item)]));
    var gs := [Some(item)];
    assert Kept(e, VideoExts) == gs by {
      assert gs[1..] == [];
      assert Filter(gs[1..], (g: Option<GalleryItem>) => MediaMatches(MediaOf(g).GetOr(""), VideoExts)) == [];
    }
    assert EventMedia(e, VideoExts, "Video") == [MediaCard(e, Some(item), "Video")];
    assert [e][1..] == [];
    assert AllMedia([e], VideoExts, "Video") == EventMedia(e, VideoExts, "Video") + AllMedia([], VideoExts, "Video");
  }

  /** A card of Home/Photo.jsx: every entry, with no extension test. */
  datatype HomePhoto = HomePhoto(img: string, name: string, occasion: string)

  /** The photo of one entry: its media or "", named by caption, title or "Photo", its occasion the caption or "". */
  function HomePhotoOf(e: Event, g: Option<GalleryItem>): (r: HomePhoto)
    ensures r.img == MediaOf(g).GetOr("")
    ensures TextTruthy(CaptionOf(g)) ==> r.name == CaptionOf(g).value && r.occasion == r.name
    ensures !TextTruthy(CaptionOf(g)) && TextTruthy(e.title) ==> r.name == e.title.value && r.occasion == ""
    ensures !TextTruthy(CaptionOf(g)) && !TextTruthy(e.title) ==> r.name == "Photo" && r.occasion == ""
  {
    HomePhoto(OrElse(MediaOf(g), ""), FirstTruthy(CaptionOf(g), e.title, "Photo"), OrElse(CaptionOf(g), ""))
  }

  /** The nested loop of Home/Photo.jsx; a missing list of events or of galleries adds nothing. */
  function HomePhotos(events: Option<seq<Event>>): (r: seq<HomePhoto>)
    ensures |r| == GalleryCount(events.GetOr([]))
  {
    HomePhotosOf(events.GetOr([]))
  }

  function GalleryCount(events: seq<Event>): nat
    decreases |events|
  {
    if events == [] then 0 else |events[0].galleries.GetOr([])| + GalleryCount(events[1..])
  }

  function HomePhotosOf(events: seq<Event>): (r: seq<HomePhoto>)
    ensures |r| == GalleryCount(events)
    decreases |events|
  {
    if events == [] then []
    else
      var e := events[0];
      var gs := e.galleries.GetOr([]);
      seq(|gs|, j requires 0 <= j < |gs| => HomePhotoOf(e, gs[j])) + HomePhotosOf(events[1..])
  }

  /** The home page takes every entry, so it never shows fewer cards than the gallery page. */
  lemma {:induction false} HomeShowsAtLeastGallery(events: seq<Event>)
    ensures |Photos(Some(events))| <= |HomePhotos(Some(events))|
    decreases |events|
  {
    if events != [] {
      HomeShowsAtLeastGallery(events[1..]);
      assert AllMedia(events, ImageExts, "Photo") == EventMedia(events[0], ImageExts, "Photo") + AllMedia(events[1..], ImageExts, "Photo");
    }
  }

  // ---------------------------------------------------------------------------
  // Eight cards a page

  const PerPage := 8

  /** `Math.ceil(n / 8)`. */
  function TotalPages(n: nat): (r: nat)
    ensures (r - 1) * PerPage < n <= r * PerPage || (n == 0 && r == 0)
  {
    (n + PerPage - 1) / PerPage
  }

  /** `items.slice((page - 1) * 8, page * 8)`; the page number is always at least 1. */
  function PageItems<T>(items: seq<T>, page: nat): (r: seq<T>)
    requires page >= 1
    ensures |r| == Max(0, Min(page * PerPage, |items|) - Min((page - 1) * PerPage, |items|))
    ensures forall i :: 0 <= i < |r| ==> r[i] == items[(page - 1) * PerPage + i]
  {
    Slice(items, (page - 1) * PerPage, page * PerPage)
  }

  /** Every item is on exactly one page: item `j` is card `j % 8` of page `j / 8 + 1`. */
  lemma ItemOnItsPage<T>(items: seq<T>, j: nat)
    requires j < |items|
    ensures 1 <= j / PerPage + 1 <= TotalPages(|items|)
    ensures j % PerPage < |PageItems(items, j / PerPage + 1)|
    ensures PageItems(items, j / PerPage + 1)[j % PerPage] == items[j]
  {
    var p := j / PerPage + 1;
    assert j == (p - 1) * PerPage + j % PerPage;
  }

  /** "Previous": one page back, not below the first. */
  function PrevPage(page: int): (r: int)
    ensures r == if page - 1 >= 1 then page - 1 else 1
  {
    Max(page - 1, 1)
  }

  /** "Next": one page on, not past the last. */
  function NextPage(page: int, total: int): (r: int)
    ensures r == if page + 1 <= total then page + 1 else total
  {
    Min(page + 1, total)
  }

  /** Starting inside `[1, total]`, both buttons and the numbered buttons stay inside it. */
  lemma PagesStayInRange(page: int, total: int, i: int)
    requires 1 <= page <= total && 0 <= i < total
    ensures 1 <= PrevPage(page) <= total && 1 <= NextPage(page, total) <= total
    ensures 1 <= i + 1 <= total
  {
  }

  /** Which pagination controls are rendered. */
  datatype Controls = Controls(shown: bool, previous: bool, next: bool, numbers: seq<int>)

  function PageControls(page: int, total: nat): (r: Controls)
    ensures r.shown <==> total > 1
    ensures r.shown ==> (r.previous <==> page > 1) && (r.next <==> page < total)
    ensures r.shown ==> |r.numbers| == total && forall i :: 0 <= i < total ==> r.numbers[i] == i + 1
  {
    if total > 1 then Controls(true, page > 1, page < total, seq(total, i => i + 1))
    else Controls(false, false, false, [])
  }

  // ---------------------------------------------------------------------------
  // The modals and the lightbox

  /** `prev > 0 ? prev - 1 : prev`. */
  function ClampPrev(i: int): (r: int)
    ensures i > 0 ==> r == i - 1
    ensures i <= 0 ==> r == i
  {
    if i > 0 then i - 1 else i
  }

  /** `prev < len - 1 ? prev + 1 : prev`. */
  function ClampNext(i: int, len: int): (r: int)
    ensures i < len - 1 ==> r == i + 1
    ensures i >= len - 1 ==> r == i
  {
    if i < len - 1 then i + 1 else i
  }

  /** Clamped steps never leave `[0, len)` and never wrap. */
  lemma ClampedStaysInRange(i: int, len: int)
    requires 0 <= i < len
    ensures 0 <= ClampPrev(i) < len && 0 <= ClampNext(i, len) < len
    ensures i == 0 ==> ClampPrev(i) == 0
    ensures i == len - 1 ==> ClampNext(i, len) == len - 1
  {
  }

  datatype Modal = Closed | Open(index: int)

  datatype Key = ArrowLeft | ArrowRight | Escape | OtherKey

  /** Others/Gallery.jsx: opening card `i` of page `p` selects photo `(p - 1) * 8 + i`. */
  function OpenPhoto(page: nat, i: nat): (r: Modal)
    requires page >= 1
    ensures r.Open? && r.index == (page - 1) * PerPage + i
  {
    Open((page - 1) * PerPage + i)
  }

  /** The photo the modal shows is the card that was clicked. */
  lemma OpenPhotoShowsCard<T>(photos: seq<T>, page: nat, i: nat)
    requires page >= 1 && i < |PageItems(photos, page)|
    ensures 0 <= OpenPhoto(page, i).index < |photos|
    ensures photos[OpenPhoto(page, i).index] == PageItems(photos, page)[i]
  {
  }

  /** The gallery modal's key handler; no handler is installed while the modal is closed. */
  function OnKey(m: Modal, k: Key, len: int): (r: Modal)
    ensures m.Closed? ==> r == Closed
    ensures m.Open? && k == ArrowLeft ==> r == Open(ClampPrev(m.index))
    ensures m.Open? && k == ArrowRight ==> r == Open(ClampNext(m.index, len))
    ensures m.Open? && k == Escape ==> r == Closed
    ensures m.Open? && k == OtherKey ==> r == m
  {
    match m
    case Closed => Closed
    case Open(i) =>
      match k
      case ArrowLeft => Open(ClampPrev(i))
      case ArrowRight => Open(ClampNext(i, len))
      case Escape => Closed
      case OtherKey => m
  }

  /** Any sequence of keys keeps an open modal on a photo that exists. */
  lemma {:induction false} KeysStayInRange(m: Modal, keys: seq<Key>, len: int)
    requires m.Open? ==> 0 <= m.index < len
    ensures var r := OnKeys(m, keys, len); r.Open? ==> 0 <= r.index < len
    decreases |keys|
  {
    if keys != [] {
      var m' := OnKey(m, keys[0], len);
      if m.Open? {
        ClampedStaysInRange(m.index, len);
      }
      KeysStayInRange(m', keys[1..], len);
    }
  }

  function OnKeys(m: Modal, keys: seq<Key>, len: int): Modal
    decreases |keys|
  {
    if keys == [] then m else OnKeys(OnKey(m, keys[0], len), keys[1..], len)
  }

  /**
   * Others/VideoGallery.jsx: the modal index is relative to the page and its steps
   * are bounded by the page's length, so the modal never leaves the page it was
   * opened on and always shows one of its cards.
   */
  lemma VideoModalStaysOnPage<T>(videos: seq<T>, page: nat, i: int)
    requires page >= 1 && 0 <= i < |PageItems(videos, page)|
    ensures var n := |PageItems(videos, page)|;
            0 <= ClampPrev(i) < n && 0 <= ClampNext(i, n) < n
    ensures PageItems(videos, page)[ClampNext(i, |PageItems(videos, page)|)] ==
            videos[(page - 1) * PerPage + ClampNext(i, |PageItems(videos, page)|)]
  {
    ClampedStaysInRange(i, |PageItems(videos, page)|);
  }

  // ---------------------------------------------------------------------------
  // Others/EventsDetails.jsx

  /** `showAll ? gallery : gallery.slice(0, 5)`. */
  function VisibleGallery<T>(gallery: seq<T>, showAll: bool): (r: seq<T>)
    ensures showAll ==> r == gallery
    ensures !showAll ==> r == Take(gallery, 5)
  {
    if showAll then gallery else Take(gallery, 5)
  }

  /** "see more" is offered only when something is hidden. */
  predicate SeeMore<T>(gallery: seq<T>, showAll: bool) {
    |gallery| > 5 && !showAll
  }

  lemma SeeMoreIffHidden<T>(gallery: seq<T>, showAll: bool)
    ensures SeeMore(gallery, showAll) <==> |VisibleGallery(gallery, showAll)| < |gallery|
  {
  }

  /**
   * The lightbox indexes the whole gallery: a card opened from the preview shows
   * itself, and `next` from the last previewed card reaches one the preview hides.
   */
  lemma LightboxBeyondPreview<T>(gallery: seq<T>, idx: nat)
    requires idx < |VisibleGallery(gallery, false)|
    ensures gallery[idx] == VisibleGallery(gallery, false)[idx]
    ensures |gallery| > 5 && idx == 4 ==> ClampNext(idx, |gallery|) == 5 && 5 >= |VisibleGallery(gallery, false)|
  {
  }
}

=== FILE: home_feeds.dfy ===
/**
 * The home page's feeds: the notice and news tickers with ordinal day numbers
 * (Home/Notice.jsx, Home/NewsList.jsx), the news slider (Home/News.jsx) and the
 * scrolling notice marquee (Home/Notices.jsx).
 */
module HomeFeeds {
  import opened JsCore
  import opened Seqs
  import Carousel

  // ---------------------------------------------------------------------------
  // getOrdinal

  const Suffixes := ["th", "st", "nd", "rd"]

  /** `s[k]`: `undefined` outside the array. */
  function SuffixAt(k: int): Text {
    if 0 <= k < |Suffixes| then Some(Suffixes[k]) else None
  }

  /** `s[(v - 20) % 10] || s[v] || s[0]` with `v = n % 100`, both remainders JavaScript's. */
  function OrdinalSuffix(n: int): string {
    var v := JsRem(n, 100);
    OrElse(SuffixAt(JsRem(v - 20, 10)), OrElse(SuffixAt(v), Suffixes[0]))
  }

  /**
   * `getOrdinal(n)`: the number followed by its suffix. A non-negative number gets
   * the English suffix; a negative one always gets "th".
   */
  function Ordinal(n: int): (r: string)
    ensures n >= 0 ==> r == NatToDecimal(n) + EnglishSuffix(n)
    ensures n < 0 ==> r == "-" + NatToDecimal(-n) + "th"
  {
    if n >= 0 then
      OrdinalRule(n);
      ToStr(Num(n)) + OrdinalSuffix(n)
    else
      NegativeOrdinal(n);
      ToStr(Num(n)) + OrdinalSuffix(n)
  }

  /** The English rule: "st", "nd", "rd" after a last digit 1, 2, 3, except in 11, 12, 13. */
  function EnglishSuffix(n: nat): string {
    if n % 100 in {11, 12, 13} then "th"
    else if n % 10 == 1 then "st"
    else if n % 10 == 2 then "nd"
    else if n % 10 == 3 then "rd"
    else "th"
  }

  lemma LastDigitOfLastTwo(n: nat)
    ensures (n % 100) % 10 == n % 10
  {
    var q := n / 100;
    assert n == 100 * q + n % 100;
    assert n == 10 * (10 * q + (n % 100) / 10) + (n % 100) % 10;
  }

  /** For every non-negative day number the lookup chain follows the English rule. */
  lemma OrdinalRule(n: nat)
    ensures OrdinalSuffix(n) == EnglishSuffix(n)
  {
    var v := n % 100;
    LastDigitOfLastTwo(n);
    assert JsRem(n, 100) == v;
    if v >= 20 {
      var w := v - 20;
      assert JsRem(w, 10) == v % 10 by {
        assert v == 20 + w;
        assert w % 10 == v % 10 by { assert v == 10 * 2 + w; }
      }
    } else if v == 10 || v == 0 {
      assert JsRem(v - 20, 10) == 0;
    } else {
      assert -10 < JsRem(v - 20, 10) < 0;
    }
  }

  /** Negative numbers always get "th", since both remainders are then negative or zero. */
  lemma NegativeOrdinal(n: int)
    requires n < 0
    ensures OrdinalSuffix(n) == "th"
  {
  }

  // ---------------------------------------------------------------------------
  // latestFive, loopItems, prev/next

  /** An item of `notices` or `news` with the extra field `date = created_at`. */
  datatype Dated<T> = Dated(item: T, date: Text)

  /**
   * `latestFive`: the first five items when there are at least five, otherwise all,
   * in the API's order; a missing list counts as empty.
   */
  function LatestFive<T>(list: Option<seq<T>>, createdAt: T -> Text): (r: seq<Dated<T>>)
    ensures |r| == Min(5, |list.GetOr([])|)
    ensures forall i :: 0 <= i < |r| ==> r[i] == Dated(list.GetOr([])[i], createdAt(list.GetOr([])[i]))
  {
    var all := list.GetOr([]);
    var dated := seq(|all|, i requires 0 <= i < |all| => Dated(all[i], createdAt(all[i])));
    if |dated| >= 5 then dated[..5] else dated
  }

  /** Dropping the added dates gives back the first `min(5, n)` items. */
  lemma LatestFiveIsPrefix<T>(list: Option<seq<T>>, createdAt: T -> Text)
    ensures var r := LatestFive(list, createdAt);
            seq(|r|, i requires 0 <= i < |r| => r[i].item) == Take(list.GetOr([]), 5)
  {
  }

  /** The ticker's state: the feed and the offset of the track. */
  datatype Ticker<T> = Ticker(items: seq<Dated<T>>, offset: int)

  function TickerTrack<T>(t: Ticker<T>): (r: seq<Dated<T>>)
    ensures |r| == 2 * |t.items|
  {
    Carousel.Doubled(t.items)
  }

  function TickerPrev<T>(t: Ticker<T>): Ticker<T> {
    t.(offset := Carousel.WrapPrev(t.offset, |t.items|))
  }

  function TickerNext<T>(t: Ticker<T>): Ticker<T> {
    t.(offset := Carousel.WrapNext(t.offset, |t.items|))
  }

  /** With a non-empty feed, the offset stays in range and prev undoes next. */
  lemma TickerWraps<T>(t: Ticker<T>)
    requires 0 <= t.offset < |t.items|
    ensures 0 <= TickerNext(t).offset < |t.items| && 0 <= TickerPrev(t).offset < |t.items|
    ensures TickerPrev(TickerNext(t)) == t && TickerNext(TickerPrev(t)) == t
  {
    Carousel.WrapInverse(t.offset, |t.items|);
  }

  // ---------------------------------------------------------------------------
  // News.jsx

  /** `getSlidesToShow(width)`; a falsy width (0) gives 4. */
  function SlidesToShow(width: int): (r: int)
    ensures 1 <= r <= 4
    ensures width == 0 ==> r == 4
  {
    if width == 0 then 4
    else if width <= 639 then 1
    else if width <= 767 then 2
    else if width <= 1024 then 3
    else 4
  }

  /** For positive widths, a wider window never shows fewer cards. */
  lemma SlidesToShowMonotone(a: int, b: int)
    requires 0 < a <= b
    ensures SlidesToShow(a) <= SlidesToShow(b)
  {
  }

  /** The breakpoints: the largest width of each count. */
  lemma SlidesToShowBreakpoints()
    ensures SlidesToShow(639) == 1 && SlidesToShow(640) == 2
    ensures SlidesToShow(767) == 2 && SlidesToShow(768) == 3
    ensures SlidesToShow(1024) == 3 && SlidesToShow(1025) == 4
  {
  }

  /** What the news section shows under its heading. */
  datatype NewsSection<T> = NewsSection(slides: seq<T>, placeholder: bool, viewAll: bool)

  /**
   * The first six news items go into the slider, or the placeholder when there are
   * none; "View all News" is offered when there are more than four items in all.
   */
  function NewsSectionOf<T>(news: Option<seq<T>>): (r: NewsSection<T>)
    ensures r.slides == Take(news.GetOr([]), 6)
    ensures r.placeholder <==> news.GetOr([]) == []
    ensures r.viewAll <==> |news.GetOr([])| > 4
  {
    var all := news.GetOr([]);
    var shown := Take(all, 6);
    NewsSection(shown, |shown| == 0, |all| > 4)
  }

  /** With five or six items, every item is in the slider and the link is offered too. */
  lemma ViewAllWithoutHiddenItems<T>(news: seq<T>)
    requires 5 <= |news| <= 6
    ensures NewsSectionOf(Some(news)).slides == news && NewsSectionOf(Some(news)).viewAll
  {
  }

  // ---------------------------------------------------------------------------
  // Notices.jsx

  datatype RawNotice = RawNotice(id: Val, title: Text, file: Text, createdAt: Text)

  /** The shape the marquee renders. */
  datatype Notice = Notice(id: Val, title: string, file: string, createdAt: string)

  function Normalise(n: RawNotice): (r: Notice)
    ensures r.id == n.id
    ensures TextTruthy(n.title) ==> r.title == Trim(n.title.value)
    ensures !TextTruthy(n.title) ==> r.title == ""
    ensures TextTruthy(n.file) ==> r.file == n.file.value
    ensures !TextTruthy(n.file) ==> r.file == ""
    ensures TextTruthy(n.createdAt) ==> r.createdAt == n.createdAt.value
    ensures !TextTruthy(n.createdAt) ==> r.createdAt == ""
  {
    var title := if TextTruthy(n.title) then Trim(n.title.value) else "";
    var file := OrElse(n.file, "");
    var createdAt := OrElse(n.createdAt, "");
    Notice(n.id, title, file, createdAt)
  }

  function NormaliseAll(list: seq<RawNotice>): (r: seq<Notice>)
    ensures |r| == |list| && forall i :: 0 <= i < |list| ==> r[i] == Normalise(list[i])
  {
    seq(|list|, i requires 0 <= i < |list| => Normalise(list[i]))
  }

  /**
   * The newest-first sort key, for a time stamp function `stamp` that stands for
   * `new Date(created_at)` on the dates the API sends.
   */
  function NewestFirst(stamp: string -> int): Notice -> int {
    (n: Notice) => -stamp(n.createdAt)
  }

  /** `displayNotices`: normalised, sorted newest first, and cut to six. */
  function DisplayNotices(list: Option<seq<RawNotice>>, stamp: string -> int): (r: seq<Notice>)
    ensures |r| == Min(6, |list.GetOr([])|)
    ensures forall i :: 0 <= i < |r| ==> r[i] in NormaliseAll(list.GetOr([]))
    ensures forall i, j :: 0 <= i < j < |r| ==> stamp(r[i].createdAt) >= stamp(r[j].createdAt)
    ensures multiset(r) <= multiset(NormaliseAll(list.GetOr([])))
    ensures r == Take(SortBy(NormaliseAll(list.GetOr([])), NewestFirst(stamp)), 6)
  {
    var all := NormaliseAll(list.GetOr([]));
    var sorted := SortBy(all, NewestFirst(stamp));
    SortedPrefix(all, stamp, 6);
    var r := Take(sorted, 6);
    TakeSubMultiset(sorted, 6);
    assert forall i :: 0 <= i < |r| ==> r[i] in all;
    r
  }

  /** A prefix of the newest-first order is newest first and drawn from the list. */
  lemma SortedPrefix(all: seq<Notice>, stamp: string -> int, k: nat)
    ensures forall i :: 0 <= i < |Take(SortBy(all, NewestFirst(stamp)), k)| ==>
              Take(SortBy(all, NewestFirst(stamp)), k)[i] in all
    ensures forall i, j :: 0 <= i < j < |Take(SortBy(all, NewestFirst(stamp)), k)| ==>
              stamp(Take(SortBy(all, NewestFirst(stamp)), k)[i].createdAt) >=
              stamp(Take(SortBy(all, NewestFirst(stamp)), k)[j].createdAt)
  {
    var key := NewestFirst(stamp);
    var sorted := SortBy(all, key);
    var r := Take(sorted, k);
    forall i | 0 <= i < |r|
      ensures r[i] in all
    {
      assert r[i] == sorted[i];
      assert sorted[i] in multiset(sorted);
    }
    forall i, j | 0 <= i < j < |r|
      ensures stamp(r[i].createdAt) >= stamp(r[j].createdAt)
    {
      assert r[i] == sorted[i] && r[j] == sorted[j];
      assert key(sorted[i]) <= key(sorted[j]);
    }
  }

  /** No notice left out of the marquee is newer than one shown. */
  lemma DroppedAreOlder(list: Option<seq<RawNotice>>, stamp: string -> int, x: Notice)
    requires x in NormaliseAll(list.GetOr([])) && x !in DisplayNotices(list, stamp)
    ensures forall i :: 0 <= i < |DisplayNotices(list, stamp)| ==>
              stamp(DisplayNotices(list, stamp)[i].createdAt) >= stamp(x.createdAt)
  {
    var all := NormaliseAll(list.GetOr([]));
    var key := NewestFirst(stamp);
    var sorted := SortBy(all, key);
    var r := DisplayNotices(list, stamp);
    assert r == Take(sorted, 6);
    assert x in multiset(sorted);
    var j :| 0 <= j < |sorted| && sorted[j] == x;
    forall i | 0 <= i < |r|
      ensures sorted[i] != x
    {
      assert r[i] == sorted[i];
    }
    forall i | 0 <= i < |r|
      ensures stamp(r[i].createdAt) >= stamp(x.createdAt)
    {
      assert r[i] == sorted[i];
      assert key(sorted[i]) <= key(sorted[j]);
    }
  }

  /**
   * The marquee's duration in seconds: the width of one pass plus the viewport, at
   * 100 pixels a second, kept within 12 and 120; a zero viewport width counts as 1.
   */
  function DurationSec(trackWidth: real, viewport: real): (r: real)
    ensures 12.0 <= r <= 120.0
    ensures var v := if viewport == 0.0 then 1.0 else viewport;
            var raw := (trackWidth / 2.0 + v) / 100.0;
            (12.0 <= raw <= 120.0 ==> r == raw) && (raw < 12.0 ==> r == 12.0) && (raw > 120.0 ==> r == 120.0)
  {
    var v := if viewport == 0.0 then 1.0 else viewport;
    var raw := (trackWidth / 2.0 + v) / 100.0;
    var lower := if raw >= 12.0 then raw else 12.0;
    if lower <= 120.0 then lower else 120.0
  }

  /** A piece of the marquee track. */
  datatype Piece<T> = Bullet | Item(item: T)

  /** Every item preceded by a bullet. */
  function Bulleted<T>(items: seq<T>): (r: seq<Piece<T>>)
    ensures |r| == 2 * |items|
    decreases |items|
  {
    if items == [] then [] else [Bullet, Item(items[0])] + Bulleted(items[1..])
  }

  /** One pass of `renderItem`: the first item gets a bullet only when forced. */
  function Pass<T>(items: seq<T>, forceLeadingBullet: bool): seq<Piece<T>> {
    if items == [] then []
    else (if forceLeadingBullet then [Bullet] else []) + [Item(items[0])] + Bulleted(items[1..])
  }

  /** The track: a bullet after the label, then the two passes. */
  function Track<T>(items: seq<T>): seq<Piece<T>> {
    [Bullet] + Pass(items, false) + Pass(items, true)
  }

  lemma {:induction false} BulletedShape<T>(items: seq<T>)
    ensures forall k :: 0 <= k < |items| ==> Bulleted(items)[2 * k] == Bullet && Bulleted(items)[2 * k + 1] == Item(items[k])
    decreases |items|
  {
    if items != [] {
      BulletedShape(items[1..]);
      var r := Bulleted(items);
      forall k | 0 < k < |items|
        ensures r[2 * k] == Bullet && r[2 * k + 1] == Item(items[k])
      {
        assert r[2 * k] == Bulleted(items[1..])[2 * (k - 1)];
        assert r[2 * k + 1] == Bulleted(items[1..])[2 * (k - 1) + 1];
      }
    }
  }

  lemma {:induction false} BulletedAppend<T>(a: seq<T>, b: seq<T>)
    ensures Bulleted(a + b) == Bulleted(a) + Bulleted(b)
    decreases |a|
  {
    if a == [] {
      assert a + b == b;
    } else {
      assert (a + b)[0] == a[0] && (a + b)[1..] == a[1..] + b;
      BulletedAppend(a[1..], b);
    }
  }

  /** The leading bullet and the first pass together put a bullet before every item. */
  lemma TrackIsBulletedLoop<T>(items: seq<T>)
    requires items != []
    ensures Track(items) == Bulleted(Carousel.Doubled(items))
  {
    assert Pass(items, true) == Bulleted(items);
    assert [Bullet] + Pass(items, false) == Bulleted(items) by {
      assert Pass(items, false) == [Item(items[0])] + Bulleted(items[1..]);
    }
    BulletedAppend(items, items);
  }

  /**
   * Both passes together: the pieces alternate bullet, item, so every item of either
   * pass, including the first of the second, follows exactly one bullet.
   */
  lemma TrackAlternates<T>(items: seq<T>)
    requires items != []
    ensures |Track(items)| == 4 * |items|
    ensures forall k :: 0 <= k < 2 * |items| ==>
              Track(items)[2 * k] == Bullet && Track(items)[2 * k + 1] == Item(items[k % |items|])
  {
    var loop := Carousel.Doubled(items);
    TrackIsBulletedLoop(items);
    BulletedShape(loop);
    forall k | 0 <= k < 2 * |items|
      ensures loop[k] == items[k % |items|]
    {
      Carousel.OpenCardShowsClicked(items, k);
    }
  }

  datatype MarqueeView = MarqueeLoading | MarqueeFailed(message: string) | MarqueeEmpty | Marquee(track: seq<Piece<Notice>>)

  /** The loading line, else the error, else the empty message, else the track. */
  function MarqueeScreen(loading: bool, error: Text, notices: seq<Notice>): (r: MarqueeView)
    ensures loading <==> r.MarqueeLoading?
    ensures !loading && TextTruthy(error) <==> r.MarqueeFailed?
    ensures r.MarqueeEmpty? <==> !loading && !TextTruthy(error) && notices == []
    ensures r.Marquee? ==> r.track == Track(notices) && |r.track| == 4 * |notices|
  {
    if loading then MarqueeLoading
    else if TextTruthy(error) then MarqueeFailed(error.value)
    else if notices == [] then MarqueeEmpty
    else
      TrackAlternates(notices);
      Marquee(Track(notices))
  }
}

=== FILE: js_core.dfy ===
/**
 * The small part of JavaScript's value semantics that the site's components rely on:
 * truthiness, the `??` and `||` defaulting operators, `Number(...)` and `String(...)`
 * conversions of record ids, strict equality, and the truncating remainder `%`.
 */
module JsCore {

  datatype Option<+T> = None | Some(value: T) {
    function GetOr(default: T): T {
      match this
      case Some(v) => v
      case None => default
    }
  }

  /** An optional text field of a JSON record: `None` stands for null or undefined. */
  type Text = Option<string>

  /** A scalar JSON value, as found in `id` and coordinate fields. */
  datatype Val = Undefined | Null | Num(n: int) | Str(s: string) | Bool(b: bool)

  predicate Truthy(v: Val) {
    match v
    case Undefined => false
    case Null => false
    case Num(n) => n != 0
    case Str(s) => s != ""
    case Bool(b) => b
  }

  /** The falsy values are exactly undefined, null, 0, "" and false. */
  lemma FalsyValues(v: Val)
    ensures !Truthy(v) <==> v == Undefined || v == Null || v == Num(0) || v == Str("") || v == Bool(false)
  {
  }

  predicate TextTruthy(t: Text) {
    t.Some? && t.value != ""
  }

  /** `t ?? d` on a text field: only null and undefined are replaced. */
  function Nullish(t: Text, d: string): (r: string)
    ensures t.Some? ==> r == t.value
    ensures t.None? ==> r == d
  {
    t.GetOr(d)
  }

  /** `t || d` on a text field: every falsy value, the empty string included, is replaced. */
  function OrElse(t: Text, d: string): (r: string)
    ensures TextTruthy(t) ==> r == t.value
    ensures !TextTruthy(t) ==> r == d
  {
    if TextTruthy(t) then t.value else d
  }

  /** `a || b` where both sides are optional text fields. */
  function OrText(a: Text, b: Text): (r: Text)
    ensures TextTruthy(a) ==> r == a
    ensures !TextTruthy(a) ==> r == b
  {
    if TextTruthy(a) then a else b
  }

  // ---------------------------------------------------------------------------
  // Decimal digits

  predicate IsDigit(c: char) {
    '0' <= c <= '9'
  }

  predicate AllDigits(s: string) {
    forall i :: 0 <= i < |s| ==> IsDigit(s[i])
  }

  function DigitValue(c: char): nat
    requires IsDigit(c)
  {
    c as int - '0' as int
  }

  function DigitChar(d: nat): (c: char)
    requires d < 10
    ensures IsDigit(c) && DigitValue(c) == d
  {
    ('0' as int + d) as char
  }

  /** The value of a string of decimal digits, most significant first. */
  function DigitsValue(s: string): nat
    requires AllDigits(s)
    decreases |s|
  {
    if s == [] then 0 else DigitsValue(s[..|s| - 1]) * 10 + DigitValue(s[|s| - 1])
  }

  /** The decimal text of a natural number, as JavaScript prints it. */
  function NatToDecimal(n: nat): (s: string)
    ensures |s| > 0 && AllDigits(s)
    ensures |s| > 1 ==> s[0] != '0'
    decreases n
  {
    if n < 10 then [DigitChar(n)] else NatToDecimal(n / 10) + [DigitChar(n % 10)]
  }

  /** The decimal text of an integer, with a leading '-' when negative. */
  function IntToString(i: int): (s: string)
    ensures |s| > 0
    ensures i >= 0 ==> AllDigits(s)
    ensures i < 0 ==> s[0] == '-' && AllDigits(s[1..])
  {
    if i < 0 then "-" + NatToDecimal(-i) else NatToDecimal(i)
  }

  /** Reading the decimal text back gives the number it was printed from. */
  lemma {:induction false} DecimalRoundTrip(n: nat)
    ensures DigitsValue(NatToDecimal(n)) == n
    decreases n
  {
    var s := NatToDecimal(n);
    if n >= 10 {
      DecimalRoundTrip(n / 10);
      assert s[..|s| - 1] == NatToDecimal(n / 10);
    }
  }

  // ---------------------------------------------------------------------------
  // Whitespace (the set used by String.prototype.trim and the regex class \s)

  predicate IsJsSpace(c: char) {
    c == ' ' || c == '\t' || c == '\n' || c == '\r' || c == '\U{000B}' || c == '\U{000C}'
    || c == '\U{00A0}' || c == '\U{1680}' || ('\U{2000}' <= c <= '\U{200A}')
    || c == '\U{2028}' || c == '\U{2029}' || c == '\U{202F}' || c == '\U{205F}'
    || c == '\U{3000}' || c == '\U{FEFF}'
  }

  function TrimStart(s: string): (r: string)
    ensures |r| <= |s| && r == s[|s| - |r|..]
    ensures r == [] || !IsJsSpace(r[0])
    ensures forall i :: 0 <= i < |s| - |r| ==> IsJsSpace(s[i])
  {
    if s != [] && IsJsSpace(s[0]) then
      var r := TrimStart(s[1..]);
      assert s[1..][|s| - 1 - |r|..] == s[|s| - |r|..];
      assert forall i :: 1 <= i < |s| - |r| ==> s[i] == s[1..][i - 1];
      r
    else s
  }

  function TrimEnd(s: string): (r: string)
    ensures |r| <= |s| && r == s[..|r|]
    ensures r == [] || !IsJsSpace(r[|r| - 1])
    ensures forall i :: |r| <= i < |s| ==> IsJsSpace(s[i])
  {
    if s != [] && IsJsSpace(s[|s| - 1]) then TrimEnd(s[..|s| - 1]) else s
  }

  /** `s.trim()`: leading and trailing whitespace removed, the middle untouched. */
  function Trim(s: string): (r: string)
    ensures r == [] || (!IsJsSpace(r[0]) && !IsJsSpace(r[|r| - 1]))
    ensures (forall i :: 0 <= i < |s| ==> !IsJsSpace(s[i])) ==> r == s
  {
    TrimEnd(TrimStart(s))
  }

  /** `s.trim()` is the slice of `s` left between its leading and its trailing whitespace. */
  lemma TrimIsSlice(s: string) returns (k: nat)
    ensures k + |Trim(s)| <= |s| && Trim(s) == s[k..k + |Trim(s)|]
    ensures forall i :: 0 <= i < k ==> IsJsSpace(s[i])
    ensures forall i :: k + |Trim(s)| <= i < |s| ==> IsJsSpace(s[i])
  {
    var u := TrimStart(s);
    k := |s| - |u|;
    var r := TrimEnd(u);
    assert Trim(s) == r;
    assert u == s[k..];
    assert r == s[k..k + |r|] by {
      assert r == u[..|r|];
      forall j | 0 <= j < |r|
        ensures r[j] == s[k + j]
      {
        assert r[j] == u[j];
      }
    }
    forall i | k + |r| <= i < |s|
      ensures IsJsSpace(s[i])
    {
      assert s[i] == u[i - k];
    }
  }

  predicate AllSpace(s: string) {
    forall i :: 0 <= i < |s| ==> IsJsSpace(s[i])
  }

  lemma SpaceAppend(x: string, y: string)
    requires AllSpace(x) && AllSpace(y)
    ensures AllSpace(x + y)
  {
    forall i | 0 <= i < |x + y|
      ensures IsJsSpace((x + y)[i])
    {
      if i >= |x| { assert (x + y)[i] == y[i - |x|]; }
    }
  }

  /** A text is its leading whitespace, then its trimmed form, then its trailing whitespace. */
  lemma TrimSplit(s: string) returns (pre: string, post: string)
    ensures s == pre + Trim(s) + post
    ensures AllSpace(pre) && AllSpace(post)
  {
    var k := TrimIsSlice(s);
    var e := k + |Trim(s)|;
    pre, post := s[..k], s[e..];
    CutInThree(s, k, e);
    assert AllSpace(pre) by {
      forall i | 0 <= i < |pre|
        ensures IsJsSpace(pre[i])
      {
        assert pre[i] == s[i];
      }
    }
    assert AllSpace(post) by {
      forall i | 0 <= i < |post|
        ensures IsJsSpace(post[i])
      {
        assert post[i] == s[e + i];
      }
    }
  }

  lemma CutInThree(s: string, k: nat, e: nat)
    requires k <= e <= |s|
    ensures s == s[..k] + s[k..e] + s[e..]
  {
    assert s[..e] == s[..k] + s[k..e];
    assert s == s[..e] + s[e..];
  }

  /** Whitespace around a text that starts and ends with a non-space is exactly what `trim()` removes. */
  lemma TrimOfPadded(a: string, m: string, b: string)
    requires AllSpace(a) && AllSpace(b)
    requires m == [] || (!IsJsSpace(m[0]) && !IsJsSpace(m[|m| - 1]))
    ensures Trim(a + m + b) == m
  {
    if m == [] {
      assert a + m + b == a + b;
      SpaceAppend(a, b);
      TrimStartPadded(a + b, []);
      assert a + b + [] == a + b;
    } else {
      assert a + m + b == a + (m + b);
      TrimStartPadded(a, m + b);
      TrimEndPadded(m, b);
    }
  }

  /** Extra whitespace on either side does not change what `trim()` gives. */
  lemma TrimIgnoresPadding(a: string, s: string, b: string)
    requires AllSpace(a) && AllSpace(b)
    ensures Trim(a + s + b) == Trim(s)
  {
    var pre, post := TrimSplit(s);
    var m := Trim(s);
    SpaceAppend(a, pre);
    SpaceAppend(post, b);
    Regroup(a, pre, m, post, b);
    TrimOfPadded(a + pre, m, post + b);
  }

  lemma Regroup(a: string, p: string, m: string, q: string, b: string)
    ensures a + (p + m + q) + b == (a + p) + m + (q + b)
  {
  }

  lemma {:induction false} TrimStartPadded(a: string, x: string)
    requires AllSpace(a)
    requires x == [] || !IsJsSpace(x[0])
    ensures TrimStart(a + x) == x
    decreases |a|
  {
    if a == [] {
      assert a + x == x;
    } else {
      assert (a + x)[0] == a[0];
      assert (a + x)[1..] == a[1..] + x;
      TrimStartPadded(a[1..], x);
    }
  }

  lemma {:induction false} TrimEndPadded(y: string, b: string)
    requires AllSpace(b)
    requires y == [] || !IsJsSpace(y[|y| - 1])
    ensures TrimEnd(y + b) == y
    decreases |b|
  {
    if b == [] {
      assert y + b == y;
    } else {
      var n := |y + b|;
      assert (y + b)[n - 1] == b[|b| - 1];
      assert (y + b)[..n - 1] == y + b[..|b| - 1];
      TrimEndPadded(y, b[..|b| - 1]);
    }
  }

  // ---------------------------------------------------------------------------
  // Number(...) and String(...)

  /**
   * `Number(t)` of a string, for the forms record ids take: surrounding whitespace is
   * ignored, the empty string is 0, an optional sign followed by decimal digits is that
   * integer, and everything else is NaN (`None`).
   */
  function NumberOfString(s: string): (r: Option<int>)
    ensures AllDigits(s) && s != [] ==> r == Some(DigitsValue(s))
  {
    var t := Trim(s);
    if t == [] then Some(0)
    else if AllDigits(t) then Some(DigitsValue(t))
    else if |t| > 1 && (t[0] == '-' || t[0] == '+') && AllDigits(t[1..]) then
      var m: int := DigitsValue(t[1..]);
      Some(if t[0] == '-' then -m else m)
    else None
  }

  /** A text of whitespace only, the empty text included, is the number 0. */
  lemma BlankIsZero(s: string)
    requires AllSpace(s)
    ensures NumberOfString(s) == Some(0)
  {
    TrimOfPadded(s, [], []);
    assert s + [] + [] == s;
  }

  /** Whitespace around a text does not change the number it denotes. */
  lemma NumberIgnoresPadding(a: string, s: string, b: string)
    requires AllSpace(a) && AllSpace(b)
    ensures NumberOfString(a + s + b) == NumberOfString(s)
  {
    TrimIgnoresPadding(a, s, b);
    NumberOfSameTrim(a + s + b, s);
  }

  /** `Number(s)` reads only the trimmed text. */
  lemma NumberOfSameTrim(x: string, y: string)
    requires Trim(x) == Trim(y)
    ensures NumberOfString(x) == NumberOfString(y)
  {
  }

  /**
   * A character that is neither whitespace, a digit nor a sign makes the text NaN,
   * wherever it stands: "abc", "7a" and "1.5" are not numbers.
   */
  lemma StrayCharIsNaN(s: string, i: nat)
    requires i < |s| && !IsJsSpace(s[i]) && !IsDigit(s[i]) && s[i] != '-' && s[i] != '+'
    ensures NumberOfString(s) == None
  {
    var k := TrimIsSlice(s);
    var t := Trim(s);
    assert k <= i < k + |t|;
    assert t[i - k] == s[i];
    assert !AllDigits(t);
    if |t| > 1 && i - k >= 1 {
      assert t[1..][i - k - 1] == s[i];
    }
  }

  /** `Number(v)`; `None` is NaN. */
  function ToNumber(v: Val): (r: Option<int>)
    ensures v.Num? ==> r == Some(v.n)
    ensures v.Undefined? ==> r == None
    ensures v.Null? ==> r == Some(0)
    ensures v.Str? ==> r == NumberOfString(v.s)
    ensures v.Bool? ==> r == Some(if v.b then 1 else 0)
  {
    match v
    case Undefined => None
    case Null => Some(0)
    case Num(n) => Some(n)
    case Str(s) => NumberOfString(s)
    case Bool(b) => Some(if b then 1 else 0)
  }

  /**
   * `String(v)`, as a template literal also prints it: "undefined" and "null" for the
   * two missing values, the decimal text of a number, a string unchanged, and
   * "true" or "false".
   */
  function ToStr(v: Val): (r: string)
    ensures v == Undefined ==> r == "undefined"
    ensures v == Null ==> r == "null"
    ensures v.Num? && v.n >= 0 ==> r == NatToDecimal(v.n)
    ensures v.Num? && v.n < 0 ==> r == "-" + NatToDecimal(-v.n)
    ensures v.Str? ==> r == v.s
    ensures v.Bool? ==> r == (if v.b then "true" else "false")
  {
    match v
    case Undefined => "undefined"
    case Null => "null"
    case Num(n) => IntToString(n)
    case Str(s) => s
    case Bool(b) => if b then "true" else "false"
  }

  /** Printing a number and converting the text back with `Number` gives the number. */
  lemma NumberOfPrintedInt(i: int)
    ensures ToNumber(Str(ToStr(Num(i)))) == Some(i)
  {
    assert ToNumber(Str(ToStr(Num(i)))) == NumberOfString(IntToString(i));
    if i < 0 {
      NumberOfNegativeDecimal(i);
    } else {
      NumberOfDecimal(i);
    }
  }

  lemma NumberOfDecimal(i: int)
    requires i >= 0
    ensures NumberOfString(IntToString(i)) == Some(i)
  {
    assert IntToString(i) == NatToDecimal(i);
    DecimalRoundTrip(i);
  }

  lemma NumberOfNegativeDecimal(i: int)
    requires i < 0
    ensures NumberOfString(IntToString(i)) == Some(i)
  {
    var d := NatToDecimal(-i);
    var m: int := DigitsValue(d);
    assert m == -i by { DecimalRoundTrip(-i); }
    assert NumberOfString("-" + d) == Some(-m) by { NumberOfNegative(d); }
    assert IntToString(i) == "-" + d;
  }

  /** A '-' followed by decimal digits is the negated value of the digits. */
  lemma NumberOfNegative(d: string)
    requires d != [] && AllDigits(d)
    ensures var m: int := DigitsValue(d); NumberOfString("-" + d) == Some(-m)
  {
    var s := "-" + d;
    assert |s| > 1 && s[0] == '-' && s[1..] == d;
    assert !AllDigits(s) by { assert !IsDigit(s[0]); }
    assert Trim(s) == s by {
      NegativeHasNoSpace(d);
      TrimOfNoSpace(s);
    }
  }

  lemma NegativeHasNoSpace(d: string)
    requires AllDigits(d)
    ensures forall k :: 0 <= k < |"-" + d| ==> !IsJsSpace(("-" + d)[k])
  {
    var s := "-" + d;
    DigitsHaveNoSpace(d);
    forall k | 0 < k < |s| ensures !IsJsSpace(s[k]) {
      assert s[k] == d[k - 1];
    }
  }

  lemma DigitsHaveNoSpace(d: string)
    requires AllDigits(d)
    ensures forall k :: 0 <= k < |d| ==> !IsJsSpace(d[k])
  {
    forall k | 0 <= k < |d|
      ensures !IsJsSpace(d[k])
    {
      assert IsDigit(d[k]);
    }
  }

  lemma TrimOfNoSpace(s: string)
    requires forall k :: 0 <= k < |s| ==> !IsJsSpace(s[k])
    ensures Trim(s) == s
  {
  }

  /** `Number(a) === Number(b)`: NaN equals nothing, not even NaN. */
  predicate NumberEq(a: Option<int>, b: Option<int>) {
    a.Some? && b.Some? && a.value == b.value
  }

  /** `v === n` where `n` is the result of a `Number(...)` call. */
  predicate StrictEqNumber(v: Val, n: Option<int>) {
    v.Num? && n.Some? && v.n == n.value
  }

  // ---------------------------------------------------------------------------
  // Arithmetic

  /** JavaScript's `a % b`: the remainder takes the sign of the dividend. */
  function JsRem(a: int, b: int): (r: int)
    requires b > 0
    ensures a >= 0 ==> 0 <= r < b && r == a % b
    ensures a < 0 ==> -b < r <= 0
    ensures (a - r) % b == 0
  {
    if a >= 0 then
      assert a - a % b == b * (a / b);
      MultipleRem(b, a / b);
      a % b
    else
      NegatedRem(a, b);
      -((-a) % b)
  }

  lemma NegatedRem(a: int, b: int)
    requires b > 0
    ensures (a + (-a) % b) % b == 0
  {
    var q := (-a) / b;
    assert -a == b * q + (-a) % b;
    assert a + (-a) % b == b * -q;
    MultipleRem(b, -q);
  }

  /** A multiple of `b` leaves no remainder. */
  lemma MultipleRem(b: int, q: int)
    requires b > 0
    ensures (b * q) % b == 0
  {
    var d := (b * q) / b;
    var m := (b * q) % b;
    assert m == b * (q - d);
    assert q - d >= 1 ==> b * (q - d) >= b;
    assert q - d <= -1 ==> b * (q - d) <= -b;
  }

  function Min(a: int, b: int): int {
    if a <= b then a else b
  }

  function Max(a: int, b: int): int {
    if a >= b then a else b
  }
}

=== FILE: latest_entry.dfy ===
/**
 * The tuition-fee and routine pages show one entry of a list: the published entry
 * with the highest id, or, when nothing is published, the entry with the highest id
 * overall. The entry's HTML table is parsed by the browser, so the model sees only
 * how many body rows it has.
 */
module LatestEntry {
  import opened JsCore
  import opened Seqs

  /** An entry of `tuition_fees` or `routines`; `id` is `None` when missing or null. */
  datatype Entry = Entry(id: Option<int>, isPublished: Val, title: Text, description: Text)

  /** `x?.id || 0`. */
  function IdOrZero(x: Entry): int {
    x.id.GetOr(0)
  }

  /** The sort key of `(a, b) => (b?.id || 0) - (a?.id || 0)`: a higher id sorts first. */
  function NewestFirst(x: Entry): int {
    -IdOrZero(x)
  }

  function IsPublished(x: Entry): bool {
    Truthy(x.isPublished)
  }

  /** The published entries when there are any, otherwise the whole list. */
  function Pool(list: seq<Entry>): (r: seq<Entry>)
    ensures (exists i :: 0 <= i < |list| && IsPublished(list[i])) ==>
              |r| > 0 && forall j :: 0 <= j < |r| ==> IsPublished(r[j]) && r[j] in list
    ensures (forall i :: 0 <= i < |list| ==> !IsPublished(list[i])) ==> r == list
    ensures forall i :: 0 <= i < |list| && IsPublished(list[i]) ==> list[i] in r
    ensures (exists i :: 0 <= i < |list| && IsPublished(list[i])) ==> r == Filter(list, IsPublished)
    ensures multiset(r) <= multiset(list)
  {
    var published := Filter(list, IsPublished);
    FilterSubMultiset(list, IsPublished);
    if |published| > 0 then
      assert published[0] in list && IsPublished(published[0]);
      published
    else list
  }

  /** Every entry before position `i` has a smaller id. */
  predicate FirstOfItsId(pool: seq<Entry>, i: nat)
    requires i < |pool|
  {
    forall j :: 0 <= j < i ==> IdOrZero(pool[j]) < IdOrZero(pool[i])
  }

  /**
   * `feeEntry`: nothing for a missing, non-array or empty list; otherwise the first
   * entry of the pool sorted by descending id.
   */
  function Latest(list: Option<seq<Entry>>): (r: Option<Entry>)
    ensures r.None? <==> list.GetOr([]) == []
    ensures r.Some? ==> r.value in list.value
    ensures r.Some? && (exists i :: 0 <= i < |list.value| && IsPublished(list.value[i])) ==>
              IsPublished(r.value)
    ensures r.Some? ==> forall j :: 0 <= j < |Pool(list.value)| ==>
              IdOrZero(Pool(list.value)[j]) <= IdOrZero(r.value)
    ensures r.Some? ==> exists i :: 0 <= i < |Pool(list.value)| && Pool(list.value)[i] == r.value && FirstOfItsId(Pool(list.value), i)
  {
    var l := list.GetOr([]);
    if l == [] then None
    else
      var pool := Pool(l);
      var sorted := SortBy(pool, NewestFirst);
      SortByHead(pool, NewestFirst);
      var k := FirstMinIndex(pool, NewestFirst);
      assert pool[k] in multiset(pool);
      assert sorted[0] == pool[k] && FirstOfItsId(pool, k);
      Some(sorted[0])
  }

  /** With one published entry among drafts, that entry is chosen whatever the drafts' ids. */
  lemma OnlyPublishedWins(drafts: seq<Entry>, e: Entry)
    requires IsPublished(e) && forall i :: 0 <= i < |drafts| ==> !IsPublished(drafts[i])
    ensures Latest(Some(drafts + [e])) == Some(e)
  {
    var l := drafts + [e];
    assert l[|drafts|] == e;
    var pool := Pool(l);
    forall j | 0 <= j < |pool|
      ensures pool[j] == e
    {
      assert pool[j] in l;
      var m :| 0 <= m < |l| && l[m] == pool[j];
      if m < |drafts| {
        assert l[m] == drafts[m];
      }
    }
  }

  /** Among published entries with equal ids, the one listed first is chosen. */
  lemma TieGoesToFirstListed(a: Entry, b: Entry)
    requires IsPublished(a) && IsPublished(b) && IdOrZero(a) == IdOrZero(b) && a != b
    ensures Latest(Some([a, b])) == Some(a)
  {
    var pool := Pool([a, b]);
    assert pool == [a, b] by {
      assert Filter([a, b], IsPublished) == [a] + Filter([b], IsPublished) by { assert [a, b][1..] == [b]; }
      assert Filter([b], IsPublished) == [b] + Filter([], IsPublished) by { assert [b][1..] == []; }
    }
  }

  /** `feeEntry?.title || fallback`. */
  function Title(entry: Option<Entry>, fallback: string): (r: string)
    ensures entry.Some? && TextTruthy(entry.value.title) ==> r == entry.value.title.value
    ensures entry.None? || !TextTruthy(entry.value.title) ==> r == fallback
  {
    if entry.Some? then OrElse(entry.value.title, fallback) else fallback
  }

  // ---------------------------------------------------------------------------
  // The three pages' screens

  datatype Body = Skeleton | Failed(message: string) | NoData(text: string) | Rows(count: nat)

  /** What a page shows: the heading (when it is rendered) and the body under it. */
  datatype FeeScreen = FeeScreen(heading: Option<string>, body: Body)

  const NoDataText := "No tuition fee data available."

  /** Student/TuitionFee.jsx: the loader, else the error, else the table, even with no rows. */
  function TuitionFeeScreen(loading: bool, error: Text, entry: Option<Entry>, rows: nat): (r: FeeScreen)
    ensures loading ==> r == FeeScreen(None, Skeleton)
    ensures !loading && TextTruthy(error) ==> r == FeeScreen(None, Failed(error.value))
    ensures !loading && !TextTruthy(error) ==> r == FeeScreen(Some(Title(entry, "Tuition Fees")), Rows(rows))
  {
    if loading then FeeScreen(None, Skeleton)
    else if TextTruthy(error) then FeeScreen(None, Failed(error.value))
    else FeeScreen(Some(Title(entry, "Tuition Fees")), Rows(rows))
  }

  /**
   * Others/Schedule.jsx: the loader alone; otherwise the heading over the error, the
   * empty message or the table, in that order.
   */
  function RoutineScreen(loading: bool, error: Text, entry: Option<Entry>, rows: nat): (r: FeeScreen)
    ensures loading <==> r.heading.None?
    ensures loading ==> r.body == Skeleton
    ensures !loading ==> r.heading == Some(Title(entry, "School Schedule"))
    ensures !loading && TextTruthy(error) ==> r.body == Failed(error.value)
    ensures !loading && !TextTruthy(error) && rows == 0 ==> r.body == NoData(NoDataText)
    ensures !loading && !TextTruthy(error) && rows > 0 ==> r.body == Rows(rows)
  {
    if loading then FeeScreen(None, Skeleton)
    else FeeScreen(Some(Title(entry, "School Schedule")), SchedulesBody(false, error, rows))
  }

  /** The body both schedule pages render under the heading. */
  function SchedulesBody(loading: bool, error: Text, rows: nat): (r: Body)
    ensures loading <==> r == Skeleton
    ensures !loading && TextTruthy(error) <==> r.Failed?
    ensures r.Failed? ==> r.message == error.value
    ensures r.NoData? <==> !loading && !TextTruthy(error) && rows == 0
    ensures r.Rows? ==> r.count == rows && rows > 0
  {
    if loading then Skeleton
    else if TextTruthy(error) then Failed(error.value)
    else if rows == 0 then NoData(NoDataText)
    else Rows(rows)
  }

  /** Academic/Schedule.jsx: the heading always, over the loader, error, empty message or table. */
  function TuitionScheduleScreen(loading: bool, error: Text, entry: Option<Entry>, rows: nat): (r: FeeScreen)
    ensures r.heading == Some(Title(entry, "Tuition Fees"))
    ensures r.body == SchedulesBody(loading, error, rows)
  {
    FeeScreen(Some(Title(entry, "Tuition Fees")), SchedulesBody(loading, error, rows))
  }

  /** Once loaded without error, the three pages show the same table of rows. */
  lemma PagesAgreeOnRows(entry: Option<Entry>, rows: nat, error: Text)
    requires rows > 0 && !TextTruthy(error)
    ensures TuitionFeeScreen(false, error, entry, rows).body == Rows(rows)
    ensures RoutineScreen(false, error, entry, rows).body == Rows(rows)
    ensures TuitionScheduleScreen(false, error, entry, rows).body == Rows(rows)
  {
  }

  /** With no rows, only the schedule pages say so; the fee page shows an empty table. */
  lemma EmptyTableDiffers(entry: Option<Entry>)
    ensures TuitionFeeScreen(false, None, entry, 0).body == Rows(0)
    ensures RoutineScreen(false, None, entry, 0).body == NoData(NoDataText)
    ensures TuitionScheduleScreen(false, None, entry, 0).body == NoData(NoDataText)
  {
  }
}

=== FILE: leadership.dfy ===
/**
 * The leadership messages: the home page's slider of chairman and principal messages
 * (Home/Hero1.jsx) and the principal's page (About/Principal.jsx). Both read the
 * `leaderships` list, but they recognise a principal differently: the slider looks for
 * the word anywhere in the role, the page wants the role to be exactly "principal".
 */
module Leadership {
  import opened JsCore
  import opened Strings
  import opened Seqs
  import DetailPages

  /** An entry of `leaderships`; a missing `role` is `None`. */
  datatype Leader = Leader(id: Val, name: Text, role: Text, photo: Text, message: Text)

  /**
   * The role lower-cased, with a missing role read as "". For string roles the
   * components' `role || ""` and the default parameter `role = ""` agree.
   */
  function LowerRole(role: Text): string {
    Lower(role.GetOr(""))
  }

  /** `roleTitle(role)`: "principal" is looked for first, then "chairman". */
  function RoleTitle(role: Text): (r: string)
    ensures r == "Principal" <==> OccursIn("principal", LowerRole(role))
    ensures r == "Chairman" <==> !OccursIn("principal", LowerRole(role)) && OccursIn("chairman", LowerRole(role))
    ensures r == "Leadership" <==> !OccursIn("principal", LowerRole(role)) && !OccursIn("chairman", LowerRole(role))
  {
    var s := LowerRole(role);
    if Contains(s, "principal") then "Principal"
    else if Contains(s, "chairman") then "Chairman"
    else "Leadership"
  }

  /** `/principal|chairman/i.test(p?.role || "")`. */
  function IsLeaderRole(role: Text): (r: bool)
    ensures r <==> OccursIn("principal", LowerRole(role)) || OccursIn("chairman", LowerRole(role))
  {
    var s := LowerRole(role);
    Contains(s, "principal") || Contains(s, "chairman")
  }

  /** `roleWeight(role)`: chairman first, then principal, then everyone else. */
  function RoleWeight(role: Text): (w: int)
    ensures 0 <= w <= 2
    ensures w == 0 <==> OccursIn("chairman", LowerRole(role))
    ensures w == 1 <==> !OccursIn("chairman", LowerRole(role)) && OccursIn("principal", LowerRole(role))
  {
    var s := LowerRole(role);
    if Contains(s, "chairman") then 0
    else if Contains(s, "principal") then 1
    else 2
  }

  function Weight(l: Leader): int {
    RoleWeight(l.role)
  }

  /** An entry whose role names a chairman or a principal. */
  predicate LeaderEntry(x: Leader) {
    IsLeaderRole(x.role)
  }

  /**
   * The entries the slider keeps: the leader roles, in their order, when there are
   * any; otherwise all. Either way no leader role is dropped.
   */
  function Chosen(list: Option<seq<Leader>>): (r: seq<Leader>)
    ensures (exists i :: 0 <= i < |list.GetOr([])| && IsLeaderRole(list.GetOr([])[i].role)) ==>
              |r| > 0 && forall j :: 0 <= j < |r| ==> IsLeaderRole(r[j].role) && r[j] in list.GetOr([])
    ensures (exists i :: 0 <= i < |list.GetOr([])| && IsLeaderRole(list.GetOr([])[i].role)) ==>
              r == Filter(list.GetOr([]), LeaderEntry)
    ensures (forall i :: 0 <= i < |list.GetOr([])| ==> !IsLeaderRole(list.GetOr([])[i].role)) ==>
              r == list.GetOr([])
    ensures forall i :: 0 <= i < |list.GetOr([])| && IsLeaderRole(list.GetOr([])[i].role) ==> list.GetOr([])[i] in r
    ensures multiset(r) <= multiset(list.GetOr([]))
  {
    var l := list.GetOr([]);
    var filtered := Filter(l, LeaderEntry);
    FilterSubMultiset(l, LeaderEntry);
    if |filtered| > 0 then
      assert filtered[0] in l && IsLeaderRole(filtered[0].role);
      filtered
    else l
  }

  /** `leaders`: the chosen entries sorted by weight; a non-array value gives no slides. */
  function Leaders(list: Option<seq<Leader>>): (r: seq<Leader>)
    ensures list.None? ==> r == []
    ensures multiset(r) == multiset(Chosen(list))
    ensures SortedBy(r, Weight)
  {
    SortBy(Chosen(list), Weight)
  }

  /** Leaders of equal weight keep the order they have in the API list. */
  lemma LeadersStable(list: Option<seq<Leader>>, w: int)
    ensures WithKey(Leaders(list), Weight, w) == WithKey(Chosen(list), Weight, w)
  {
    SortByStable(Chosen(list), Weight, w);
  }

  /** The slide's anchor: the role lower-cased, each run of whitespace replaced by '-'. */
  function Slug(role: Text): (r: string)
    ensures forall i :: 0 <= i < |r| ==> !IsJsSpace(r[i])
  {
    SpaceRunsToDash(LowerRole(role))
  }

  /** Lower-casing neither creates nor removes whitespace. */
  lemma LowerKeepsSpaces(s: string)
    ensures forall i :: 0 <= i < |s| ==> (IsJsSpace(Lower(s)[i]) <==> IsJsSpace(s[i]))
  {
  }

  /** Two words separated by whitespace become the lower-cased words joined by '-'. */
  lemma SlugOfTwoWords(a: string, gap: string, b: string)
    requires a != [] && b != []
    requires forall i :: 0 <= i < |a| ==> !IsJsSpace(a[i])
    requires forall i :: 0 <= i < |b| ==> !IsJsSpace(b[i])
    requires gap != [] && forall i :: 0 <= i < |gap| ==> IsJsSpace(gap[i])
    ensures Slug(Some(a + gap + b)) == Lower(a) + "-" + Lower(b)
  {
    LowerAppend(a + gap, b);
    LowerAppend(a, gap);
    DashOfLoweredWords(a, gap, b);
  }

  lemma DashOfLoweredWords(a: string, gap: string, b: string)
    requires forall i :: 0 <= i < |a| ==> !IsJsSpace(a[i])
    requires forall i :: 0 <= i < |b| ==> !IsJsSpace(b[i])
    requires gap != [] && forall i :: 0 <= i < |gap| ==> IsJsSpace(gap[i])
    ensures SpaceRunsToDash(Lower(a) + Lower(gap) + Lower(b)) == Lower(a) + "-" + Lower(b)
  {
    LowerKeepsSpaces(a);
    LowerKeepsSpaces(gap);
    LowerKeepsSpaces(b);
    SpaceRunsToDashWords(Lower(a), Lower(gap), Lower(b));
    SpaceRunsToDashNoSpace(Lower(b));
  }

  /** The message shown under the title, with line breaks as `<br />`. */
  function MessageHtml(l: Leader): (r: string)
    ensures '\n' !in r
    ensures l.message.None? ==> r == ""
  {
    DetailPages.BodyHtml(l.message)
  }

  /** The message paragraph is rendered only for a non-empty message. */
  predicate ShowsMessage(l: Leader) {
    TextTruthy(l.message)
  }

  /** One slide of the home slider. */
  datatype Slide = Slide(leader: Leader, heading: string, link: string, message: Option<string>)

  function SlideOf(l: Leader): (r: Slide)
    ensures r.heading == "Message from " + RoleTitle(l.role) + ","
    ensures r.link == "/" + Slug(l.role)
    ensures r.message.Some? <==> TextTruthy(l.message)
    ensures r.message.Some? ==> r.message.value == MessageHtml(l)
  {
    Slide(l, "Message from " + RoleTitle(l.role) + ",", "/" + Slug(l.role),
          if TextTruthy(l.message) then Some(MessageHtml(l)) else None)
  }

  datatype HeroView = HeroLoading | HeroFailed(message: string) | Slides(slides: seq<Slide>)

  /** The slider: the loader, else the error, else one slide per chosen leader in sorted order. */
  function HeroScreen(loading: bool, error: Text, leaderships: Option<seq<Leader>>): (r: HeroView)
    ensures loading <==> r.HeroLoading?
    ensures !loading && TextTruthy(error) <==> r.HeroFailed?
    ensures r.HeroFailed? ==> r.message == error.value
    ensures r.Slides? ==> |r.slides| == |Leaders(leaderships)|
    ensures r.Slides? ==> forall i :: 0 <= i < |r.slides| ==> r.slides[i] == SlideOf(Leaders(leaderships)[i])
  {
    if loading then HeroLoading
    else if TextTruthy(error) then HeroFailed(error.value)
    else
      var ls := Leaders(leaderships);
      Slides(seq(|ls|, i requires 0 <= i < |ls| => SlideOf(ls[i])))
  }

  /** When a chairman is listed, the first slide is a chairman's. */
  lemma ChairmanFirst(leaderships: Option<seq<Leader>>, k: nat)
    requires k < |leaderships.GetOr([])| && OccursIn("chairman", LowerRole(leaderships.GetOr([])[k].role))
    ensures |Leaders(leaderships)| > 0 && Weight(Leaders(leaderships)[0]) == 0
  {
    var l := leaderships.GetOr([]);
    var c := l[k];
    assert RoleWeight(c.role) == 0;
    var ch := Chosen(leaderships);
    assert c in ch by {
      var f := Filter(l, (x: Leader) => IsLeaderRole(x.role));
      assert c in f;
    }
    var ls := Leaders(leaderships);
    assert c in multiset(ls);
    var j :| 0 <= j < |ls| && ls[j] == c;
    if Weight(ls[0]) != 0 {
      assert SortedBy(ls, Weight);
    }
  }

  // ---------------------------------------------------------------------------
  // About/Principal.jsx

  /** `String(p?.role || '').toLowerCase() === 'principal'`. */
  predicate IsPrincipal(l: Leader) {
    LowerRole(l.role) == "principal"
  }

  /** The first leadership whose role is exactly "principal" in any letter case, or null. */
  function PrincipalOf(list: Option<seq<Leader>>): (r: Option<Leader>)
    ensures r.None? <==> forall j :: 0 <= j < |list.GetOr([])| ==> !IsPrincipal(list.GetOr([])[j])
    ensures r.Some? ==> IsPrincipal(r.value) && r.value in list.GetOr([])
    ensures r.Some? ==>
              exists i :: 0 <= i < |list.GetOr([])| && list.GetOr([])[i] == r.value &&
                          forall j :: 0 <= j < i ==> !IsPrincipal(list.GetOr([])[j])
  {
    Find(list.GetOr([]), IsPrincipal)
  }

  datatype PrincipalView =
    | PrincipalLoading
    | PrincipalFailed(message: string)
    | PrincipalPage(name: Text, photo: Text, html: string)

  /**
   * The principal's page: the loader, else the error, else the page filled from the
   * principal; without a principal the page is still shown, with nothing in it.
   */
  function PrincipalScreen(loading: bool, error: Text, leaderships: Option<seq<Leader>>): (r: PrincipalView)
    ensures loading <==> r.PrincipalLoading?
    ensures !loading && TextTruthy(error) <==> r.PrincipalFailed?
    ensures r.PrincipalFailed? ==> r.message == error.value
    ensures r.PrincipalPage? && PrincipalOf(leaderships).Some? ==>
              var p := PrincipalOf(leaderships).value;
              r.name == p.name && r.photo == p.photo && r.html == MessageHtml(p)
    ensures r.PrincipalPage? && PrincipalOf(leaderships).None? ==> r == PrincipalPage(None, None, "")
  {
    if loading then PrincipalLoading
    else if TextTruthy(error) then PrincipalFailed(error.value)
    else match PrincipalOf(leaderships)
      case Some(p) => PrincipalPage(p.name, p.photo, MessageHtml(p))
      case None => PrincipalPage(None, None, "")
  }

  /** Listing only a "Vice Principal" leaves the principal's page empty but gives the slider a slide. */
  lemma OnlyVicePrincipal(l: Leader, x: string, w: string)
    requires x != [] && Lower(w) == "principal" && l.role == Some(x + w)
    ensures PrincipalScreen(false, None, Some([l])) == PrincipalPage(None, None, "")
    ensures HeroScreen(false, None, Some([l])).slides == [SlideOf(l)]
  {
    PrefixedPrincipalDiffers(l, x, w);
    assert Leaders(Some([l])) == [l] by {
      assert multiset(Leaders(Some([l]))) == multiset([l]) by {
        assert Chosen(Some([l])) == [l] by { assert [l][0] == l; }
      }
      var ls := Leaders(Some([l]));
      assert |ls| == 1 by { assert |multiset(ls)| == 1; }
      assert ls[0] in multiset(ls);
    }
  }

  /** Text without upper-case letters is its own lower case. */
  lemma LowerOfLower(s: string)
    requires forall i :: 0 <= i < |s| ==> !('A' <= s[i] <= 'Z')
    ensures Lower(s) == s
  {
  }

  /**
   * A role with text before a "principal" in any letter case, such as "Vice Principal",
   * is titled "Principal" on the home slider but is not the principal of the principal's page.
   */
  lemma PrefixedPrincipalDiffers(l: Leader, x: string, w: string)
    requires x != [] && Lower(w) == "principal" && l.role == Some(x + w)
    ensures RoleTitle(l.role) == "Principal" && IsLeaderRole(l.role)
    ensures !IsPrincipal(l)
  {
    LowerAppend(x, w);
    var s := Lower(x) + "principal";
    assert LowerRole(l.role) == s;
    assert OccursAt("principal", s, |x|) by { assert s[|x|..|x| + 9] == "principal"; }
  }

  /** A role that is "principal" in any letter case is the page's principal and is titled so. */
  lemma ExactPrincipal(l: Leader)
    requires Lower(l.role.GetOr("")) == "principal"
    ensures IsPrincipal(l) && RoleTitle(l.role) == "Principal"
  {
    assert OccursAt("principal", "principal", 0) by { assert "principal"[0..9] == "principal"; }
  }
}

=== FILE: navbar.dfy ===
/**
 * The navigation bar (Navbar.jsx): the colour theme with its stored choice and the
 * `dark` class on the document, the desktop menus opened by hovering, and the mobile
 * drawer whose dropdowns open one at a time. The browser's storage, the document's
 * class list and the operating system's colour preference are fields of the state.
 */
module Navbar {
  import opened JsCore

  // ---------------------------------------------------------------------------
  // Theme

  /** The values the theme menu offers, in its order. */
  const Options := ["light", "dark", "system"]

  /** `localStorage.getItem('theme') || 'system'`. */
  function InitialTheme(stored: Option<string>): (r: string)
    ensures TextTruthy(stored) ==> r == stored.value
    ensures !TextTruthy(stored) ==> r == "system"
  {
    OrElse(stored, "system")
  }

  datatype Icon = Sun | Moon | Monitor

  /** `getThemeIcon()`: any theme other than light and dark shows the monitor. */
  function ThemeIcon(theme: string): (r: Icon)
    ensures r == Sun <==> theme == "light"
    ensures r == Moon <==> theme == "dark"
    ensures r == Monitor <==> theme != "light" && theme != "dark"
  {
    if theme == "light" then Sun else if theme == "dark" then Moon else Monitor
  }

  /** What the theme effect reads and writes: the stored choice and the `dark` class. */
  datatype Env = Env(stored: Option<string>, dark: bool)

  /**
   * The effect that runs when the theme changes: "system" follows the operating
   * system and forgets the stored choice, "dark" and "light" set the class and store
   * themselves, and any other value touches nothing.
   */
  function ThemeEffect(theme: string, env: Env, osDark: bool): (r: Env)
    ensures theme == "system" ==> r == Env(None, osDark)
    ensures theme == "dark" ==> r == Env(Some("dark"), true)
    ensures theme == "light" ==> r == Env(Some("light"), false)
    ensures theme !in Options ==> r == env
  {
    if theme == "system" then Env(None, osDark)
    else if theme == "dark" then Env(Some("dark"), true)
    else if theme == "light" then Env(Some("light"), false)
    else env
  }

  /** Whatever the menu's choice, the next visit starts with the same theme. */
  lemma ChoiceSurvivesReload(theme: string, env: Env, osDark: bool)
    requires theme in Options
    ensures InitialTheme(ThemeEffect(theme, env, osDark).stored) == theme
  {
  }

  /** The page is dark for "dark", and for "system" exactly when the OS prefers dark. */
  lemma DarkClassOfChoice(theme: string, env: Env, osDark: bool)
    requires theme in Options
    ensures ThemeEffect(theme, env, osDark).dark <==> theme == "dark" || (theme == "system" && osDark)
  {
  }

  /** Running the effect again changes nothing. */
  lemma ThemeEffectIdempotent(theme: string, env: Env, osDark: bool)
    ensures ThemeEffect(theme, ThemeEffect(theme, env, osDark), osDark) == ThemeEffect(theme, env, osDark)
  {
  }

  // ---------------------------------------------------------------------------
  // The whole bar

  datatype Nav = Nav(
    theme: string,
    openMenu: Option<string>,     // the desktop menu under the mouse
    drawerOpen: bool,             // the mobile drawer
    openMobile: Option<string>,   // the open dropdown of the drawer
    env: Env,
    osDark: bool)

  /** The first render, and the effect that runs after it. */
  function Start(stored: Option<string>, dark: bool, osDark: bool): (r: Nav)
    ensures r.theme == InitialTheme(stored)
    ensures r.openMenu.None? && !r.drawerOpen && r.openMobile.None?
    ensures r.env == ThemeEffect(InitialTheme(stored), Env(stored, dark), osDark)
  {
    var theme := InitialTheme(stored);
    Nav(theme, None, false, None, ThemeEffect(theme, Env(stored, dark), osDark), osDark)
  }

  datatype Event =
    | Hover(key: string)          // the mouse enters a desktop menu
    | Leave                       // the mouse leaves it
    | OpenDrawer                  // the menu button
    | CloseDrawer                 // the close button
    | DrawerLink                  // Home, Contact or any dropdown entry of the drawer
    | Toggle(key: string)         // a dropdown header of the drawer
    | Select(name: string)        // an entry of the theme menu
    | OsChange(prefersDark: bool) // the operating system's preference changes

  /** `isOpen ? null : item.key`. */
  function ToggleDropdown(open: Option<string>, key: string): (r: Option<string>)
    ensures open == Some(key) ==> r.None?
    ensures open != Some(key) ==> r == Some(key)
  {
    if open == Some(key) then None else Some(key)
  }

  /**
   * One event. Selecting a theme re-runs the effect only when the value changes,
   * since the effect depends on `theme` alone; the OS preference reaches the class
   * only while the "system" theme listens to it.
   */
  function Step(n: Nav, e: Event): (r: Nav)
    ensures e.Select? && e.name == n.theme ==> r == n
    ensures e.Select? && e.name != n.theme ==> r == n.(theme := e.name, env := ThemeEffect(e.name, n.env, n.osDark))
    ensures !e.Select? ==> r.theme == n.theme
  {
    match e
    case Hover(key) => n.(openMenu := Some(key))
    case Leave => n.(openMenu := None)
    case OpenDrawer => n.(drawerOpen := true)
    case CloseDrawer => n.(drawerOpen := false)
    case DrawerLink => n.(drawerOpen := false)
    case Toggle(key) => n.(openMobile := ToggleDropdown(n.openMobile, key))
    case Select(name) =>
      if name == n.theme then n
      else n.(theme := name, env := ThemeEffect(name, n.env, n.osDark))
    case OsChange(d) =>
      if n.theme == "system" then n.(osDark := d, env := n.env.(dark := d))
      else n.(osDark := d)
  }

  /** The stored choice and the class agree with the theme. */
  predicate Consistent(n: Nav) {
    n.theme in Options ==> n.env == ThemeEffect(n.theme, n.env, n.osDark)
  }

  /** A first visit, or one after choosing from the menu, starts consistent. */
  lemma StartConsistent(stored: Option<string>, dark: bool, osDark: bool)
    ensures Consistent(Start(stored, dark, osDark))
  {
  }

  function Run(n: Nav, events: seq<Event>): Nav
    decreases |events|
  {
    if events == [] then n else Run(Step(n, events[0]), events[1..])
  }

  /** No sequence of events lets the class or the stored choice drift from a menu theme. */
  lemma {:induction false} RunConsistent(n: Nav, events: seq<Event>)
    requires Consistent(n)
    ensures Consistent(Run(n, events))
    decreases |events|
  {
    if events != [] {
      var m := Step(n, events[0]);
      assert Consistent(m) by {
        if events[0].Select? && events[0].name != n.theme && events[0].name in Options {
          ThemeEffectIdempotent(events[0].name, n.env, n.osDark);
        }
      }
      RunConsistent(m, events[1..]);
    }
  }

  /** The desktop menu under the mouse is the only one shown, and leaving closes it. */
  lemma HoverShowsOne(n: Nav, key: string, other: string)
    requires other != key
    ensures Step(n, Hover(key)).openMenu == Some(key)
    ensures Step(n, Hover(key)).openMenu != Some(other)
    ensures Step(Step(n, Hover(key)), Leave).openMenu.None?
  {
  }

  /**
   * Pressing the open dropdown closes it; pressing another opens that one alone.
   * Pressing the same header twice restores the state only when no other dropdown
   * was open before.
   */
  lemma ToggleTwice(open: Option<string>, key: string)
    ensures ToggleDropdown(ToggleDropdown(open, key), key) == open <==> open.None? || open == Some(key)
  {
  }

  /** Every link of the drawer closes it, and the open dropdown stays as it was. */
  lemma DrawerLinkCloses(n: Nav)
    ensures !Step(n, DrawerLink).drawerOpen
    ensures Step(n, DrawerLink).openMobile == n.openMobile
  {
  }

  /**
   * A stored value outside the menu, such as "blue", becomes the theme: the monitor
   * icon is shown as for "system", yet the effect neither follows the OS nor clears
   * the stored value.
   */
  lemma UnknownStoredTheme(dark: bool, osDark: bool)
    ensures Start(Some("blue"), dark, osDark).theme == "blue"
    ensures ThemeIcon(Start(Some("blue"), dark, osDark).theme) == Monitor
    ensures Start(Some("blue"), dark, osDark).env == Env(Some("blue"), dark)
  {
  }
}

=== FILE: school_cache.dfy ===
/**
 * The per-component school-data cache. Every data page keeps two module-level
 * variables, the cached JSON and the promise of the request in flight, and each
 * mounted instance of the page is a subscriber with its own `data`, `loading` and
 * `error` state.
 *
 * A mount and the effect that follows it are separate steps, because React renders
 * (and reads the cache into the initial state) before it runs the effect (which reads
 * the cache again). A request settles in one step: the cache update, the clearing of
 * the in-flight promise and the notification of every subscriber happen together.
 *
 * The request itself is abstract: it is named by the number of requests issued before
 * it, and its outcome is given to `Settle`.
 */
module SchoolCache {
  import opened JsCore

  /** What a request produced: the parsed JSON, or an error with its message. */
  datatype Outcome<D> = Ok(data: D) | Err(message: string)

  /** The three variants of the snippet found across the site. */
  datatype Policy<D> =
    | SingleFlight                   // About/CommitteeDetails.jsx and its copies
    | Independent                    // Others/EventsDetails.jsx: no shared promise
    | FallbackOnFailure(fallback: D) // Others/VideoGallery.jsx: a failure caches `[]`

  /** One mounted instance of a page. `waitingOn` names the request it subscribed to. */
  datatype Sub<D> = Sub(data: Option<D>, loading: bool, error: Option<string>,
                        waitingOn: Option<nat>, effectRan: bool)

  /**
   * `cache` and `inflight` are the two module variables (`inflight` is the request the
   * promise variable holds); `pending` is every request not yet settled; `fetches`
   * counts the requests issued.
   */
  datatype Sys<D> = Sys(cache: Option<D>, inflight: Option<nat>, pending: set<nat>,
                        subs: seq<Sub<D>>, fetches: nat)

  /** The state after a hard refresh. */
  function Init<D>(): Sys<D> {
    Sys(None, None, {}, [], 0)
  }

  /** The message a subscriber shows: `err.message || "Failed to load school data."`. */
  function ErrorText(message: string): (r: string)
    ensures message != "" ==> r == message
    ensures message == "" ==> r == "Failed to load school data."
  {
    OrElse(Some(message), "Failed to load school data.")
  }

  /** First render of a new instance: the state is initialised from the cache. */
  function Mount<D>(s: Sys<D>): (r: Sys<D>)
    ensures |r.subs| == |s.subs| + 1 && r.subs[..|s.subs|] == s.subs
    ensures r.subs[|s.subs|].data == s.cache && r.subs[|s.subs|].loading == s.cache.None?
    ensures r.subs[|s.subs|].error.None? && r.subs[|s.subs|].waitingOn.None?
    ensures !r.subs[|s.subs|].effectRan
    ensures r.(subs := s.subs) == s
  {
    s.(subs := s.subs + [Sub(s.cache, s.cache.None?, None, None, false)])
  }

  /** Issues a new request, returning its name. */
  function Start<D>(s: Sys<D>): (r: (nat, Sys<D>))
    ensures r.0 == s.fetches && r.0 !in s.pending ==> r.1.pending == s.pending + {r.0}
    ensures r.1.fetches == s.fetches + 1
  {
    (s.fetches, s.(pending := s.pending + {s.fetches}, fetches := s.fetches + 1))
  }

  /**
   * The mount effect of instance `k`, as written: return when the cache is full;
   * otherwise start a request (or, under single flight, reuse the one in flight) and
   * subscribe to it.
   */
  function Effect<D>(p: Policy<D>, s: Sys<D>, k: nat): (r: Sys<D>)
    requires k < |s.subs|
    ensures |r.subs| == |s.subs| && r.cache == s.cache
    ensures forall i :: 0 <= i < |s.subs| && i != k ==> r.subs[i] == s.subs[i]
  {
    var u := s.subs[k];
    if u.effectRan then s
    else if s.cache.Some? then s.(subs := s.subs[k := u.(effectRan := true)])
    else
      match p
      case Independent =>
        var (id, t) := Start(s);
        t.(subs := s.subs[k := u.(effectRan := true, waitingOn := Some(id))])
      case _ =>
        var (id, t) := if s.inflight.None? then
                         var (id, t) := Start(s); (id, t.(inflight := Some(id)))
                       else (s.inflight.value, s);
        t.(subs := s.subs[k := u.(effectRan := true, waitingOn := Some(id), loading := true,
                                  error := None)])
  }

  /** What settling request `id` does to one subscriber. */
  function Notify<D>(p: Policy<D>, u: Sub<D>, id: nat, o: Outcome<D>): (r: Sub<D>)
    ensures u.waitingOn != Some(id) ==> r == u
    ensures u.waitingOn == Some(id) ==> !r.loading && r.waitingOn.None? && r.effectRan == u.effectRan
    ensures u.waitingOn == Some(id) && o.Ok? ==> r.data == Some(o.data) && r.error == u.error
    ensures u.waitingOn == Some(id) && o.Err? && !p.FallbackOnFailure? ==>
              r.data == u.data && r.error == Some(ErrorText(o.message))
    ensures u.waitingOn == Some(id) && o.Err? && p.FallbackOnFailure? ==>
              r.data == Some(p.fallback) && r.error == u.error
  {
    if u.waitingOn != Some(id) then u
    else
      match o
      case Ok(d) => u.(data := Some(d), loading := false, waitingOn := None)
      case Err(m) =>
        if p.FallbackOnFailure? then u.(data := Some(p.fallback), loading := false, waitingOn := None)
        else u.(error := Some(ErrorText(m)), loading := false, waitingOn := None)
  }

  /** Request `id` settles with outcome `o`; a request that is not pending settles no more. */
  function Settle<D>(p: Policy<D>, s: Sys<D>, id: nat, o: Outcome<D>): (r: Sys<D>)
    ensures id !in s.pending ==> r == s
    ensures id in s.pending ==> r.pending == s.pending - {id} && r.fetches == s.fetches
    ensures id in s.pending ==> r.inflight == (if s.inflight == Some(id) then None else s.inflight)
    ensures |r.subs| == |s.subs|
    ensures id in s.pending ==> forall i :: 0 <= i < |s.subs| ==> r.subs[i] == Notify(p, s.subs[i], id, o)
  {
    if id !in s.pending then s
    else
      var cache := match o
                   case Ok(d) => Some(d)
                   case Err(_) => if p.FallbackOnFailure? then Some(p.fallback) else s.cache;
      Sys(cache,
          if s.inflight == Some(id) then None else s.inflight,
          s.pending - {id},
          seq(|s.subs|, i requires 0 <= i < |s.subs| => Notify(p, s.subs[i], id, o)),
          s.fetches)
  }

  // ---------------------------------------------------------------------------
  // One call at a time

  /** With the cache full, a new instance starts loaded and its effect starts nothing. */
  lemma FullCacheMount<D>(p: Policy<D>, s: Sys<D>)
    requires s.cache.Some?
    ensures var r := Effect(p, Mount(s), |s.subs|);
            r.subs[|s.subs|].data == s.cache && !r.subs[|s.subs|].loading
            && r.subs[|s.subs|].waitingOn.None?
            && r.fetches == s.fetches && r.pending == s.pending && r.inflight == s.inflight
  {
  }

  /**
   * Under single flight, an effect issues a request exactly when the cache is empty and
   * no request is in flight; otherwise it subscribes to the one in flight.
   */
  lemma SingleFlightEffect<D>(p: Policy<D>, s: Sys<D>, k: nat)
    requires !p.Independent? && k < |s.subs| && !s.subs[k].effectRan && s.cache.None?
    ensures var r := Effect(p, s, k);
            (s.inflight.None? ==> r.fetches == s.fetches + 1 && r.inflight == Some(s.fetches)
                                  && r.subs[k].waitingOn == Some(s.fetches))
            && (s.inflight.Some? ==> r.fetches == s.fetches && r.inflight == s.inflight
                                     && r.pending == s.pending
                                     && r.subs[k].waitingOn == s.inflight)
            && r.subs[k].loading && r.subs[k].error.None?
  {
  }

  /** Without sharing, every effect on an empty cache issues a request of its own. */
  lemma IndependentEffect<D>(s: Sys<D>, k: nat)
    requires k < |s.subs| && !s.subs[k].effectRan && s.cache.None?
    ensures var r := Effect(Independent, s, k);
            r.fetches == s.fetches + 1 && r.subs[k].waitingOn == Some(s.fetches)
            && r.inflight == s.inflight
  {
  }

  /**
   * Success stores the data in the cache and clears the promise, and every instance
   * that subscribed to the request receives the same data and stops loading.
   */
  lemma SucceedFillsCache<D>(p: Policy<D>, s: Sys<D>, id: nat, d: D)
    requires id in s.pending
    ensures var r := Settle(p, s, id, Ok(d));
            r.cache == Some(d) && r.inflight != Some(id) && id !in r.pending
            && forall i :: 0 <= i < |s.subs| && s.subs[i].waitingOn == Some(id)
                 ==> r.subs[i].data == r.cache && !r.subs[i].loading
  {
  }

  /**
   * Failure leaves the cache as it was and clears the promise; every subscriber stops
   * loading and shows the error text.
   */
  lemma FailLeavesCache<D>(p: Policy<D>, s: Sys<D>, id: nat, m: string)
    requires id in s.pending && !p.FallbackOnFailure?
    ensures var r := Settle(p, s, id, Err(m));
            r.cache == s.cache && r.inflight != Some(id)
            && forall i :: 0 <= i < |s.subs| && s.subs[i].waitingOn == Some(id)
                 ==> r.subs[i].error == Some(ErrorText(m)) && !r.subs[i].loading
  {
  }

  /** After a failed request, the next instance to mount issues a fresh request. */
  lemma RetryAfterFailure<D>(p: Policy<D>, s: Sys<D>, m: string)
    requires !p.FallbackOnFailure? && s.cache.None? && s.inflight.Some?
    requires s.pending == {s.inflight.value}
    ensures var t := Settle(p, s, s.inflight.value, Err(m));
            var r := Effect(p, Mount(t), |t.subs|);
            r.fetches == s.fetches + 1 && r.subs[|t.subs|].waitingOn == Some(s.fetches)
  {
  }

  /**
   * When a failure caches the fallback, the fallback is what every later instance shows,
   * and none of them issues a request again.
   */
  lemma FallbackNeverRetries<D>(fb: D, s: Sys<D>, id: nat, m: string)
    requires id in s.pending
    ensures var t := Settle(FallbackOnFailure(fb), s, id, Err(m));
            var r := Effect(FallbackOnFailure(fb), Mount(t), |t.subs|);
            t.cache == Some(fb) && r.fetches == s.fetches
            && r.subs[|t.subs|].data == Some(fb) && !r.subs[|t.subs|].loading
  {
  }

  // ---------------------------------------------------------------------------
  // Several instances mounting one after the other

  /** `n` instances mount, each running its effect before the next one renders. */
  function MountMany<D>(p: Policy<D>, s: Sys<D>, n: nat): (r: Sys<D>)
    ensures |r.subs| == |s.subs| + n
    decreases n
  {
    if n == 0 then s
    else
      var t := Mount(s);
      MountMany(p, Effect(p, t, |s.subs|), n - 1)
  }

  /** Under single flight, any number of instances mounting on an empty cache share one request. */
  lemma {:induction false} SingleFlightShares<D>(p: Policy<D>, s: Sys<D>, n: nat)
    requires !p.Independent? && s.cache.None? && s.inflight.None? && n > 0
    ensures MountMany(p, s, n).fetches == s.fetches + 1
    ensures MountMany(p, s, n).inflight == Some(s.fetches)
    decreases n
  {
    var t := Effect(p, Mount(s), |s.subs|);
    assert t.fetches == s.fetches + 1 && t.inflight == Some(s.fetches) && t.cache.None?;
    AttachedMountsShare(p, t, n - 1);
  }

  lemma {:induction false} AttachedMountsShare<D>(p: Policy<D>, s: Sys<D>, n: nat)
    requires !p.Independent? && s.cache.None? && s.inflight.Some?
    ensures MountMany(p, s, n).fetches == s.fetches
    ensures MountMany(p, s, n).inflight == s.inflight
    decreases n
  {
    if n > 0 {
      var t := Effect(p, Mount(s), |s.subs|);
      assert t.fetches == s.fetches && t.inflight == s.inflight && t.cache.None?;
      AttachedMountsShare(p, t, n - 1);
    }
  }

  /** Without sharing, `n` instances mounting on an empty cache issue `n` requests. */
  lemma {:induction false} IndependentRefetches<D>(s: Sys<D>, n: nat)
    requires s.cache.None?
    ensures MountMany(Independent, s, n).fetches == s.fetches + n
    decreases n
  {
    if n > 0 {
      var t := Effect(Independent, Mount(s), |s.subs|);
      assert t.fetches == s.fetches + 1 && t.cache.None?;
      IndependentRefetches(t, n - 1);
    }
  }

  // ---------------------------------------------------------------------------
  // Invariant of the shared-promise variants

  /**
   * Under single flight: at most one request is pending and it is the one the promise
   * variable holds; while it is pending the cache is empty; every subscriber waits on
   * it and shows the loader; every instance that holds data holds the cached data.
   */
  ghost predicate Consistent<D>(s: Sys<D>) {
    && s.pending == (if s.inflight.Some? then {s.inflight.value} else {})
    && (s.inflight.Some? ==> s.cache.None? && s.inflight.value < s.fetches)
    && (forall i :: 0 <= i < |s.subs| && s.subs[i].waitingOn.Some?
          ==> s.subs[i].waitingOn == s.inflight && s.subs[i].loading && s.subs[i].effectRan)
    && (forall i :: 0 <= i < |s.subs| && s.subs[i].data.Some? ==> s.subs[i].data == s.cache)
  }

  lemma InitConsistent<D>()
    ensures Consistent(Init<D>())
  {
  }

  lemma MountConsistent<D>(s: Sys<D>)
    requires Consistent(s)
    ensures Consistent(Mount(s))
  {
  }

  lemma EffectConsistent<D>(p: Policy<D>, s: Sys<D>, k: nat)
    requires !p.Independent? && Consistent(s) && k < |s.subs|
    ensures Consistent(Effect(p, s, k))
  {
  }

  lemma SettleConsistent<D>(p: Policy<D>, s: Sys<D>, id: nat, o: Outcome<D>)
    requires !p.Independent? && Consistent(s)
    ensures Consistent(Settle(p, s, id, o))
  {
  }

  // ---------------------------------------------------------------------------
  // The render/effect gap

  /**
   * Every instance whose effect has run and that still shows the loader is subscribed
   * to a pending request, so some settle step will end its loading.
   */
  ghost predicate Live<D>(s: Sys<D>) {
    && (forall i :: 0 <= i < |s.subs| && s.subs[i].effectRan && s.subs[i].loading
          ==> s.subs[i].waitingOn.Some?)
    && (forall i :: 0 <= i < |s.subs| && s.subs[i].waitingOn.Some?
          ==> s.subs[i].waitingOn.value in s.pending)
    && (s.inflight.Some? ==> s.inflight.value in s.pending)
  }

  /**
   * As written: A mounts and subscribes; B renders while the request is in flight; the
   * request succeeds before B's effect runs; B's effect sees the full cache and returns.
   * B is left showing the loader with no data and no subscription.
   */
  lemma StuckLoadingTrace(d: int)
    ensures var p: Policy<int> := SingleFlight;
            var s1 := Effect(p, Mount(Init<int>()), 0);
            var s2 := Mount(s1);
            var s3 := Settle(p, s2, 0, Ok(d));
            var s4 := Effect(p, s3, 1);
            s4.subs[1].loading && s4.subs[1].data.None? && s4.subs[1].waitingOn.None?
            && s4.subs[1].effectRan && s4.pending == {} && !Live(s4)
  {
    var p: Policy<int> := SingleFlight;
    var s4 := Effect(p, Settle(p, Mount(Effect(p, Mount(Init<int>()), 0)), 0, Ok(d)), 1);
    assert s4.subs[1].effectRan && s4.subs[1].loading && s4.subs[1].waitingOn.None?;
  }

  /** Nothing can end the loading of such an instance: no later step changes it. */
  lemma StuckStaysStuck<D>(p: Policy<D>, s: Sys<D>, k: nat, j: nat, id: nat, o: Outcome<D>)
    requires k < |s.subs| && s.subs[k].effectRan && s.subs[k].waitingOn.None?
    ensures Mount(s).subs[k] == s.subs[k]
    ensures j < |s.subs| ==> Effect(p, s, j).subs[k] == s.subs[k]
    ensures Settle(p, s, id, o).subs[k] == s.subs[k]
  {
  }

  /**
   * The effect as evidently intended: when the cache is full it also copies the cache
   * into the instance and ends its loading, so the gap cannot strand it.
   */
  function EffectSynced<D>(p: Policy<D>, s: Sys<D>, k: nat): (r: Sys<D>)
    requires k < |s.subs|
    ensures |r.subs| == |s.subs| && r.cache == s.cache
    ensures forall i :: 0 <= i < |s.subs| && i != k ==> r.subs[i] == s.subs[i]
    ensures !s.subs[k].effectRan && s.cache.Some? ==> r.subs[k].data == s.cache && !r.subs[k].loading
  {
    var u := s.subs[k];
    if !u.effectRan && s.cache.Some? then
      s.(subs := s.subs[k := u.(effectRan := true, data := s.cache, loading := false)])
    else Effect(p, s, k)
  }

  /** Outside the gap, the intended effect and the written one agree. */
  lemma EffectSyncedAgrees<D>(p: Policy<D>, s: Sys<D>, k: nat)
    requires k < |s.subs| && s.subs[k].data == s.cache && s.subs[k].loading == s.cache.None?
    ensures EffectSynced(p, s, k) == Effect(p, s, k)
  {
  }

  /** A step of the whole system, with the intended effect. */
  datatype Step<D> = MountStep | EffectStep(k: nat) | SettleStep(id: nat, o: Outcome<D>)

  function Apply<D>(p: Policy<D>, s: Sys<D>, st: Step<D>): (r: Sys<D>)
    ensures st.MountStep? ==> r == Mount(s)
    ensures st.SettleStep? ==> r == Settle(p, s, st.id, st.o)
    ensures st.EffectStep? && st.k < |s.subs| ==> r == EffectSynced(p, s, st.k)
    ensures st.EffectStep? && st.k >= |s.subs| ==> r == s
  {
    match st
    case MountStep => Mount(s)
    case EffectStep(k) => if k < |s.subs| then EffectSynced(p, s, k) else s
    case SettleStep(id, o) => Settle(p, s, id, o)
  }

  /** With the intended effect, every step keeps every loading instance live. */
  lemma LivePreserved<D>(p: Policy<D>, s: Sys<D>, st: Step<D>)
    requires Live(s)
    ensures Live(Apply(p, s, st))
  {
    match st
    case MountStep =>
    case EffectStep(k) =>
    case SettleStep(id, o) =>
      if id in s.pending {
        var r := Settle(p, s, id, o);
        forall i | 0 <= i < |r.subs| && r.subs[i].waitingOn.Some?
          ensures r.subs[i].waitingOn.value in r.pending
        {
          assert s.subs[i].waitingOn == r.subs[i].waitingOn;
        }
      }
  }

  /** Every run from a hard refresh with the intended effect keeps the system live. */
  function Run<D>(p: Policy<D>, s: Sys<D>, steps: seq<Step<D>>): Sys<D>
    decreases |steps|
  {
    if steps == [] then s else Run(p, Apply(p, s, steps[0]), steps[1..])
  }

  lemma {:induction false} RunLive<D>(p: Policy<D>, s: Sys<D>, steps: seq<Step<D>>)
    requires Live(s)
    ensures Live(Run(p, s, steps))
    decreases |steps|
  {
    if steps != [] {
      LivePreserved(p, s, steps[0]);
      RunLive(p, Apply(p, s, steps[0]), steps[1..]);
    }
  }

  lemma InitLive<D>()
    ensures Live(Init<D>())
  {
  }
}

=== FILE: seqs.dfy ===
/**
 * The array operations the components use on API lists: `find`, `filter`,
 * `slice(0, k)` and the stable `Array.prototype.sort` with a numeric comparator.
 */
module Seqs {
  import opened JsCore

  /** `s.findIndex(p)`; `None` stands for -1. */
  function FindIndex<T>(s: seq<T>, p: T -> bool): (r: Option<nat>)
    ensures r.Some? ==> r.value < |s| && p(s[r.value])
    ensures r.Some? ==> forall j :: 0 <= j < r.value ==> !p(s[j])
    ensures r.None? <==> forall j :: 0 <= j < |s| ==> !p(s[j])
    decreases |s|
  {
    if s == [] then None
    else if p(s[0]) then Some(0)
    else
      match FindIndex(s[1..], p)
      case None => None
      case Some(i) => Some(i + 1)
  }

  /** `s.find(p)`: the first element satisfying `p`, or undefined. */
  function Find<T>(s: seq<T>, p: T -> bool): (r: Option<T>)
    ensures r.None? <==> forall j :: 0 <= j < |s| ==> !p(s[j])
    ensures r.Some? ==> exists i :: 0 <= i < |s| && s[i] == r.value && p(s[i])
                                    && forall j :: 0 <= j < i ==> !p(s[j])
  {
    match FindIndex(s, p)
    case None => None
    case Some(i) => Some(s[i])
  }

  /** `s.filter(p)`. */
  function Filter<T>(s: seq<T>, p: T -> bool): (r: seq<T>)
    ensures |r| <= |s|
    ensures forall i :: 0 <= i < |r| ==> r[i] in s && p(r[i])
    ensures forall i :: 0 <= i < |s| && p(s[i]) ==> s[i] in r
    decreases |s|
  {
    if s == [] then []
    else (if p(s[0]) then [s[0]] else []) + Filter(s[1..], p)
  }

  /** A filtered list holds each element at most as often as the original. */
  lemma {:induction false} FilterSubMultiset<T>(s: seq<T>, p: T -> bool)
    ensures multiset(Filter(s, p)) <= multiset(s)
    decreases |s|
  {
    if s != [] {
      FilterSubMultiset(s[1..], p);
      assert s == [s[0]] + s[1..];
    }
  }

  /** Filtering one element keeps it exactly when it satisfies the predicate. */
  lemma FilterSingle<T>(x: T, p: T -> bool)
    ensures Filter([x], p) == if p(x) then [x] else []
  {
    assert [x][1..] == [];
  }

  /**
   * Filtering distributes over concatenation; with `FilterSingle` this pins the
   * result down completely, order and repetitions included.
   */
  lemma {:induction false} FilterAppend<T>(a: seq<T>, b: seq<T>, p: T -> bool)
    ensures Filter(a + b, p) == Filter(a, p) + Filter(b, p)
    decreases |a|
  {
    if a == [] {
      assert a + b == b;
    } else {
      assert (a + b)[1..] == a[1..] + b;
      FilterAppend(a[1..], b, p);
    }
  }

  /** `s.slice(0, k)` for a non-negative `k`. */
  function Take<T>(s: seq<T>, k: nat): (r: seq<T>)
    ensures |r| == Min(k, |s|)
    ensures r == s[..|r|]
  {
    if k >= |s| then s else s[..k]
  }

  /** A prefix holds each element at most as often as the whole list. */
  lemma TakeSubMultiset<T>(s: seq<T>, k: nat)
    ensures multiset(Take(s, k)) <= multiset(s)
  {
    var r := Take(s, k);
    assert s == r + s[|r|..];
  }

  /** `s.slice(a, b)` for non-negative bounds: both are clamped to the length. */
  function Slice<T>(s: seq<T>, a: nat, b: nat): (r: seq<T>)
    ensures |r| == Max(0, Min(b, |s|) - Min(a, |s|))
    ensures forall i :: 0 <= i < |r| ==> r[i] == s[a + i]
  {
    var lo := Min(a, |s|);
    var hi := Min(b, |s|);
    if lo >= hi then [] else s[lo..hi]
  }

  // ---------------------------------------------------------------------------
  // Stable sort by an integer key: `s.sort((a, b) => key(a) - key(b))`

  predicate SortedBy<T>(s: seq<T>, key: T -> int) {
    forall i, j :: 0 <= i < j < |s| ==> key(s[i]) <= key(s[j])
  }

  /** Places `x` before the first element whose key is not smaller than its own. */
  function Insert<T>(x: T, s: seq<T>, key: T -> int): (r: seq<T>)
    ensures |r| == |s| + 1
    ensures multiset(r) == multiset(s) + multiset{x}
    ensures r[0] == x || (s != [] && r[0] == s[0])
    decreases |s|
  {
    if s == [] || key(x) <= key(s[0]) then [x] + s
    else
      assert s == [s[0]] + s[1..];
      [s[0]] + Insert(x, s[1..], key)
  }

  lemma {:induction false} InsertSorted<T>(x: T, s: seq<T>, key: T -> int)
    requires SortedBy(s, key)
    ensures SortedBy(Insert(x, s, key), key)
    decreases |s|
  {
    if s != [] && key(x) > key(s[0]) {
      var t := Insert(x, s[1..], key);
      InsertSorted(x, s[1..], key);
      forall j | 0 <= j < |t|
        ensures key(s[0]) <= key(t[j])
      {
        assert t[j] in multiset(s[1..]) + multiset{x};
        if t[j] != x {
          assert t[j] in s[1..];
          var m :| 0 <= m < |s[1..]| && s[1..][m] == t[j];
          assert s[1..][m] == s[m + 1];
        }
      }
    }
  }

  /** The list sorted by ascending key, elements with equal keys kept in their order. */
  function SortBy<T>(s: seq<T>, key: T -> int): (r: seq<T>)
    ensures |r| == |s|
    ensures multiset(r) == multiset(s)
    ensures SortedBy(r, key)
    decreases |s|
  {
    if s == [] then []
    else
      var t := SortBy(s[1..], key);
      InsertSorted(s[0], t, key);
      assert s == [s[0]] + s[1..];
      Insert(s[0], t, key)
  }

  /** The elements whose key is `k`, in order. */
  function WithKey<T>(s: seq<T>, key: T -> int, k: int): seq<T> {
    Filter(s, x => key(x) == k)
  }

  lemma WithKeyCons<T>(x: T, s: seq<T>, key: T -> int, k: int)
    ensures WithKey([x] + s, key, k) == (if key(x) == k then [x] else []) + WithKey(s, key, k)
  {
    FilterAppend([x], s, y => key(y) == k);
    FilterSingle(x, y => key(y) == k);
  }

  lemma SwapEmpty<T>(head: seq<T>, mid: seq<T>, rest: seq<T>)
    requires head == [] || mid == []
    ensures head + (mid + rest) == mid + (head + rest)
  {
    if head == [] {
      assert head + (mid + rest) == mid + rest;
      assert head + rest == rest;
    } else {
      assert mid + rest == rest;
      assert mid + (head + rest) == head + rest;
    }
  }

  lemma {:induction false} InsertWithKey<T>(x: T, s: seq<T>, key: T -> int, k: int)
    ensures WithKey(Insert(x, s, key), key, k)
            == (if key(x) == k then [x] else []) + WithKey(s, key, k)
    decreases |s|
  {
    var mid: seq<T> := if key(x) == k then [x] else [];
    if s == [] || key(x) <= key(s[0]) {
      assert Insert(x, s, key) == [x] + s;
      WithKeyCons(x, s, key, k);
    } else {
      var t := Insert(x, s[1..], key);
      var head: seq<T> := if key(s[0]) == k then [s[0]] else [];
      var rest := WithKey(s[1..], key, k);
      assert Insert(x, s, key) == [s[0]] + t;
      InsertWithKey(x, s[1..], key, k);
      WithKeyCons(s[0], t, key, k);
      assert s == [s[0]] + s[1..];
      WithKeyCons(s[0], s[1..], key, k);
      SwapEmpty(head, mid, rest);
    }
  }

  /** Sorting is stable: the elements sharing any one key keep their relative order. */
  lemma {:induction false} SortByStable<T>(s: seq<T>, key: T -> int, k: int)
    ensures WithKey(SortBy(s, key), key, k) == WithKey(s, key, k)
    decreases |s|
  {
    if s != [] {
      var t := SortBy(s[1..], key);
      SortByStable(s[1..], key, k);
      InsertWithKey(s[0], t, key, k);
      assert s == [s[0]] + s[1..];
      WithKeyCons(s[0], s[1..], key, k);
    }
  }

  /** The position of the first element with the smallest key: a reference for `sort()[0]`. */
  function FirstMinIndex<T>(s: seq<T>, key: T -> int): (i: nat)
    requires s != []
    ensures i < |s|
    ensures forall j :: 0 <= j < |s| ==> key(s[i]) <= key(s[j])
    ensures forall j :: 0 <= j < i ==> key(s[j]) > key(s[i])
    decreases |s|
  {
    if |s| == 1 then 0
    else
      var i := FirstMinIndex(s[1..], key);
      if key(s[0]) <= key(s[1..][i]) then 0 else i + 1
  }

  /** The head of the sorted list is the first element with the smallest key. */
  lemma {:induction false} SortByHead<T>(s: seq<T>, key: T -> int)
    requires s != []
    ensures SortBy(s, key)[0] == s[FirstMinIndex(s, key)]
    decreases |s|
  {
    if |s| > 1 {
      SortByHead(s[1..], key);
    }
  }
}

=== FILE: shimmer.dfy ===
/**
 * The loading placeholders (Shimmer/Shimmer.jsx): the class-name helper `cx`, the
 * grey blocks that stand in for text lines, cards and grids, and the wrapper that
 * shows them instead of the content while a page loads.
 */
module Shimmer {
  import opened JsCore
  import opened Strings
  import opened Seqs

  // ---------------------------------------------------------------------------
  // cx

  /** The class names among `args` that are truthy, in order. */
  function Truthies(args: seq<Text>): (r: seq<string>)
    ensures |r| <= |args|
    ensures forall k :: 0 <= k < |r| ==> r[k] != "" && Some(r[k]) in args
    ensures forall j :: 0 <= j < |args| && TextTruthy(args[j]) ==> args[j].value in r
    decreases |args|
  {
    if args == [] then []
    else
      var rest := Truthies(args[1..]);
      assert forall k :: 0 <= k < |rest| ==> Some(rest[k]) in args by {
        forall k | 0 <= k < |rest| ensures Some(rest[k]) in args {
          var j :| 0 <= j < |args[1..]| && args[1..][j] == Some(rest[k]);
          assert args[j + 1] == Some(rest[k]);
        }
      }
      assert forall j :: 1 <= j < |args| && TextTruthy(args[j]) ==> args[j].value in rest by {
        forall j | 1 <= j < |args| && TextTruthy(args[j]) ensures args[j].value in rest {
          assert args[1..][j - 1] == args[j];
        }
      }
      (if TextTruthy(args[0]) then [args[0].value] else []) + rest
  }

  /** The truthy names of `a + b` are those of `a` followed by those of `b`. */
  lemma {:induction false} TruthiesAppend(a: seq<Text>, b: seq<Text>)
    ensures Truthies(a + b) == Truthies(a) + Truthies(b)
    decreases |a|
  {
    if a == [] {
      assert a + b == b;
    } else {
      assert (a + b)[1..] == a[1..] + b;
      TruthiesAppend(a[1..], b);
    }
  }

  /** One argument contributes its text exactly when it is truthy. */
  lemma TruthiesSingle(t: Text)
    ensures Truthies([t]) == if TextTruthy(t) then [t.value] else []
  {
    assert [t][1..] == [];
  }

  /** Without a truthy argument there is no class name. */
  lemma {:induction false} TruthiesOfFalsy(args: seq<Text>)
    requires forall j :: 0 <= j < |args| ==> !TextTruthy(args[j])
    ensures Truthies(args) == []
    decreases |args|
  {
    if args != [] {
      TruthiesOfFalsy(args[1..]);
    }
  }

  /** Every present argument is a single class name, without a space. */
  predicate SingleNames(args: seq<Text>) {
    forall j :: 0 <= j < |args| && args[j].Some? ==> ' ' !in args[j].value
  }

  /** Joining the truthy single names and splitting at the spaces gives them back. */
  lemma JoinedTruthiesSplit(args: seq<Text>)
    requires SingleNames(args)
    requires exists j :: 0 <= j < |args| && TextTruthy(args[j])
    ensures Split(Join(Truthies(args), ' '), ' ') == Truthies(args)
  {
    var parts := Truthies(args);
    assert |parts| > 0 by {
      var j :| 0 <= j < |args| && TextTruthy(args[j]);
      assert args[j].value in parts;
    }
    TruthiesOfSingleNames(args);
    SplitJoin(parts, ' ');
  }

  lemma TruthiesOfSingleNames(args: seq<Text>)
    requires SingleNames(args)
    ensures forall k :: 0 <= k < |Truthies(args)| ==> ' ' !in Truthies(args)[k]
  {
    var parts := Truthies(args);
    forall k | 0 <= k < |parts| ensures ' ' !in parts[k] {
      var i :| 0 <= i < |args| && args[i] == Some(parts[k]);
      assert args[i].Some? && ' ' !in args[i].value;
    }
  }

  /**
   * `cx(...c)`: the truthy arguments joined with single spaces. Without a truthy
   * argument the class name is empty; when each argument is a single class name,
   * splitting the result at the spaces gives back exactly the truthy ones, in order.
   */
  function Cx(args: seq<Text>): (r: string)
    ensures (forall j :: 0 <= j < |args| ==> !TextTruthy(args[j])) ==> r == ""
    ensures SingleNames(args) && (exists j :: 0 <= j < |args| && TextTruthy(args[j])) ==>
              Split(r, ' ') == Truthies(args)
  {
    if exists j :: 0 <= j < |args| && TextTruthy(args[j]) then
      if SingleNames(args) then
        JoinedTruthiesSplit(args);
        Join(Truthies(args), ' ')
      else Join(Truthies(args), ' ')
    else
      TruthiesOfFalsy(args);
      Join(Truthies(args), ' ')
  }

  /** Two arguments, the second falsy, give the first alone. */
  lemma CxDropsFalse(a: string, b: Text)
    requires a != "" && !TextTruthy(b)
    ensures Cx([Some(a), b]) == a
  {
    assert [Some(a), b][1..] == [b];
    TruthiesOfFalsy([b]);
  }

  /** Two truthy arguments are joined with one space. */
  lemma CxOfTwo(a: string, b: string)
    requires a != "" && b != ""
    ensures Cx([Some(a), Some(b)]) == a + " " + b
  {
    var args := [Some(a), Some(b)];
    assert args[1..] == [Some(b)];
    assert args[1..][1..] == [];
    assert Truthies(args) == [a, b];
    assert [a, b][1..] == [b];
    assert Join([a, b], ' ') == a + [' '] + Join([b], ' ');
  }

  // ---------------------------------------------------------------------------
  // The skeleton blocks

  /** One grey block, by the class name it is rendered with. */
  datatype Block = Block(className: string)

  const BaseClass := "bg-gray-200 rounded animate-pulse"

  /**
   * `<Skeleton className=c/>`: the base class, followed by `c` when it is truthy. The
   * default "" of a missing class behaves as a missing one.
   */
  function Skeleton(className: Text): (r: Block)
    ensures TextTruthy(className) ==> r.className == BaseClass + " " + className.value
    ensures !TextTruthy(className) ==> r.className == BaseClass
  {
    if TextTruthy(className) then
      CxOfTwo(BaseClass, className.value);
      Block(Cx([Some(BaseClass), className]))
    else
      CxDropsFalse(BaseClass, className);
      Block(Cx([Some(BaseClass), className]))
  }

  /** `Array.from({length: n})` has no elements for a negative length. */
  function Length(n: int): nat {
    if n < 0 then 0 else n
  }

  /** The class of text line `i` of `lines`: full width, the last one five sixths. */
  function LineClass(i: int, lines: int): Text {
    Some(Cx([Some("h-4 w-full"), if i == lines - 1 then Some("w-5/6") else None]))
  }

  /** `<SkeletonText lines=n/>`: `n` blocks, of which only the last is shortened. */
  function SkeletonText(lines: int): (r: seq<Block>)
    ensures |r| == Length(lines)
    ensures forall i :: 0 <= i < |r| ==> r[i] == Skeleton(LineClass(i, lines))
  {
    seq(Length(lines), i => Skeleton(LineClass(i, lines)))
  }

  /** Every line is full width except the last, which is five sixths wide. */
  lemma OnlyLastLineShort(lines: int, i: int)
    requires 0 <= i < Length(lines)
    ensures i < lines - 1 ==> SkeletonText(lines)[i] == Block(BaseClass + " " + "h-4 w-full")
    ensures i == lines - 1 ==> SkeletonText(lines)[i] == Block(BaseClass + " " + "h-4 w-full w-5/6")
  {
    if i == lines - 1 {
      CxOfTwo("h-4 w-full", "w-5/6");
      assert "h-4 w-full" + " " + "w-5/6" == "h-4 w-full w-5/6";
      CxOfTwo(BaseClass, "h-4 w-full w-5/6");
    } else {
      CxDropsFalse("h-4 w-full", None);
      CxOfTwo(BaseClass, "h-4 w-full");
    }
  }

  /**
   * `<SkeletonMedia className=c/>`: a full-width block; a missing `c` defaults to
   * "w-full h-50", and an empty one adds nothing.
   */
  function SkeletonMedia(className: Text): (r: Block)
    ensures className.None? ==> r.className == BaseClass + " " + ("w-full" + " " + "w-full h-50")
    ensures TextTruthy(className) ==> r.className == BaseClass + " " + ("w-full" + " " + className.value)
    ensures className == Some("") ==> r.className == BaseClass + " " + "w-full"
  {
    var c := Some(className.GetOr("w-full h-50"));
    if TextTruthy(c) then
      CxOfTwo("w-full", c.value);
      Skeleton(Some(Cx([Some("w-full"), c])))
    else
      CxDropsFalse("w-full", c);
      Skeleton(Some(Cx([Some("w-full"), c])))
  }

  /** `<SkeletonButton className=c/>`: a block whose missing `c` defaults to "h-9 w-28 rounded". */
  function SkeletonButton(className: Text): (r: Block)
    ensures className.None? ==> r.className == BaseClass + " " + "h-9 w-28 rounded"
    ensures TextTruthy(className) ==> r.className == BaseClass + " " + className.value
    ensures className == Some("") ==> r.className == BaseClass
  {
    Skeleton(Some(className.GetOr("h-9 w-28 rounded")))
  }

  /**
   * The props of `<SkeletonCard/>`; `None` is a prop that is not passed, which takes
   * its default.
   */
  datatype CardOptions = CardOptions(mediaClass: Text, titleWidth: Text, metaWidth: Text, lines: Option<int>, showButton: Option<bool>)

  /** `<SkeletonCard/>` with no props. */
  const DefaultCard := CardOptions(None, None, None, None, None)

  /** The blocks of a card: media, title, meta line, text lines and maybe a button. */
  function SkeletonCard(o: CardOptions): (r: seq<Block>)
    ensures var n := Length(o.lines.GetOr(2));
            |r| == 3 + n + (if o.showButton.GetOr(true) then 1 else 0) && r[3..3 + n] == SkeletonText(o.lines.GetOr(2))
    ensures o.showButton.GetOr(true) ==> r[|r| - 1].className == BaseClass + " " + "mt-5 h-9 w-28 rounded"
  {
    [ SkeletonMedia(Some(Cx([Some("w-full"), Some(o.mediaClass.GetOr("h-50"))]))),
      Skeleton(Some(Cx([Some("h-5"), Some(o.titleWidth.GetOr("w-3/4"))]))),
      Skeleton(Some(Cx([Some("h-4 mt-2"), Some(o.metaWidth.GetOr("w-1/3"))]))) ]
    + SkeletonText(o.lines.GetOr(2))
    + (if o.showButton.GetOr(true) then [SkeletonButton(Some("mt-5 h-9 w-28 rounded"))] else [])
  }

  /** The default card's first three blocks: the doubled "w-full" media, then the title and meta lines. */
  lemma DefaultCardClasses()
    ensures SkeletonCard(DefaultCard)[0].className == BaseClass + " " + ("w-full" + " " + ("w-full" + " " + "h-50"))
    ensures SkeletonCard(DefaultCard)[1].className == BaseClass + " " + ("h-5" + " " + "w-3/4")
    ensures SkeletonCard(DefaultCard)[2].className == BaseClass + " " + ("h-4 mt-2" + " " + "w-1/3")
  {
    CxOfTwo("w-full", "h-50");
    CxOfTwo("h-5", "w-3/4");
    CxOfTwo("h-4 mt-2", "w-1/3");
  }

  /** `<SkeletonGrid count=n Card=c/>`: `n` copies of the card, eight by default. */
  function SkeletonGrid<C>(count: int, card: C): (r: seq<C>)
    ensures |r| == Length(count)
    ensures forall i :: 0 <= i < |r| ==> r[i] == card
  {
    seq(Length(count), _ => card)
  }

  /** The default grid shows eight default cards of six blocks each. */
  lemma DefaultGrid()
    ensures |SkeletonGrid(8, SkeletonCard(DefaultCard))| == 8
    ensures |SkeletonCard(DefaultCard)| == 6
  {
  }

  /** The props of `<SkeletonDetails/>`; `None` is a prop that is not passed. */
  datatype DetailsOptions = DetailsOptions(mediaClass: Text, titleWidth: Text, dateWidth: Text, lines: Option<int>)

  /** `<SkeletonDetails/>`: media, title, date, `lines` text lines and two buttons. */
  function SkeletonDetails(o: DetailsOptions): (r: seq<Block>)
    ensures var n := Length(o.lines.GetOr(6));
            |r| == 5 + n && r[3..3 + n] == SkeletonText(o.lines.GetOr(6))
    ensures r[|r| - 2].className == BaseClass + " " + "h-9 w-36 rounded"
    ensures r[|r| - 1].className == BaseClass + " " + "h-9 w-32 rounded"
  {
    [ SkeletonMedia(Some(o.mediaClass.GetOr("w-full h-80 rounded-lg"))),
      Skeleton(Some(Cx([Some("h-6"), Some(o.titleWidth.GetOr("w-2/3"))]))),
      Skeleton(Some(Cx([Some("h-4 mt-3"), Some(o.dateWidth.GetOr("w-40"))]))) ]
    + SkeletonText(o.lines.GetOr(6))
    + [SkeletonButton(Some("h-9 w-36 rounded")), SkeletonButton(Some("h-9 w-32 rounded"))]
  }

  /**
   * The news page's placeholder (Others/NewsDetails.jsx) passes only the media class:
   * a media block "w-full w-full h-80", the default title and date widths and six
   * text lines.
   */
  lemma NewsDetailsSkeleton()
    ensures var r := SkeletonDetails(DetailsOptions(Some("w-full h-80"), None, None, None));
            |r| == 11 && r[0].className == BaseClass + " " + ("w-full" + " " + "w-full h-80") &&
            r[1].className == BaseClass + " " + ("h-6" + " " + "w-2/3") &&
            r[2].className == BaseClass + " " + ("h-4 mt-3" + " " + "w-40")
  {
    CxOfTwo("h-6", "w-2/3");
    CxOfTwo("h-4 mt-3", "w-40");
  }

  // ---------------------------------------------------------------------------
  // The wrapper

  /** `<Shimmer show fallback>children</Shimmer>`: the fallback iff `show` is truthy. */
  function ShimmerView<T>(show: Val, fallback: T, children: T): (r: T)
    ensures Truthy(show) ==> r == fallback
    ensures !Truthy(show) ==> r == children
  {
    if Truthy(show) then fallback else children
  }

  /** A page passing its `loading` flag shows the placeholder exactly while it loads. */
  lemma LoadingShowsFallback<T>(loading: bool, fallback: T, children: T)
    requires fallback != children
    ensures ShimmerView(Bool(loading), fallback, children) == fallback <==> loading
  {
  }
}

=== FILE: statistics.dfy ===
/**
 * The student statistics cards (Student/StudentStatistics.jsx): each figure such as
 * "350+" is split by `/^(\d+)(.*)$/` into the number the counter runs up to and the
 * text shown after it, and a card starts counting once it has been marked visible.
 */
module Statistics {
  import opened JsCore
  import opened Strings
  import opened Seqs

  // ---------------------------------------------------------------------------
  // Parsing "350+"

  /** The longest run of decimal digits at the start of `s`. */
  function DigitRun(s: string): (r: string)
    ensures |r| <= |s| && r == s[..|r|] && AllDigits(r)
    ensures |r| < |s| ==> !IsDigit(s[|r|])
    decreases |s|
  {
    if s != [] && IsDigit(s[0]) then
      var rest := DigitRun(s[1..]);
      assert s[..|rest| + 1] == [s[0]] + s[1..][..|rest|];
      [s[0]] + rest
    else []
  }

  /** The counter of one card: the value it counts up to and the text after it. */
  datatype Counter = Counter(end: nat, suffix: string)

  /**
   * The regex matches `a + b` with `a` the digits and `b` the rest. `$` without the
   * `m` flag is the end of the text, and `.` does not match a line break.
   */
  ghost predicate Splits(s: string, a: string, b: string) {
    s == a + b && a != [] && AllDigits(a) && NoLineTerminator(b)
  }

  /**
   * `m ? {end: parseInt(m[1], 10), suffix: m[2]} : {end: 0, suffix: ''}`. The greedy
   * `\d+` takes the whole leading run of digits, since no shorter run lets `(.*)$`
   * match where the longer one does not.
   */
  function ParseCount(s: string): (r: Counter)
    ensures (exists k :: 0 < k <= |s| && Splits(s, s[..k], s[k..])) ==>
              var a := DigitRun(s);
              Splits(s, a, s[|a|..]) && r == Counter(DigitsValue(a), s[|a|..])
    ensures (forall k :: 0 < k <= |s| ==> !Splits(s, s[..k], s[k..])) ==> r == Counter(0, "")
  {
    var a := DigitRun(s);
    var b := s[|a|..];
    if a != [] && NoLineTerminator(b) then
      assert Splits(s, a, b);
      Counter(DigitsValue(a), b)
    else
      assert forall k :: 0 < k <= |s| ==> !Splits(s, s[..k], s[k..]) by {
        forall k | 0 < k <= |s| && s[..k] != [] && AllDigits(s[..k])
          ensures !NoLineTerminator(s[k..])
        {
          NoSplitWithoutRun(s, k);
        }
      }
      Counter(0, "")
  }

  /**
   * When the leading run is empty or followed by a line break, no split exists:
   * every candidate digit prefix leaves the line break in its rest.
   */
  lemma NoSplitWithoutRun(s: string, k: int)
    requires 0 < k <= |s| && AllDigits(s[..k])
    requires DigitRun(s) == [] || !NoLineTerminator(s[|DigitRun(s)|..])
    ensures !NoLineTerminator(s[k..])
  {
    var a := DigitRun(s);
    DigitPrefixWithinRun(s, k);
    assert |a| >= k;
    var b := s[|a|..];
    var j :| 0 <= j < |b| && IsLineTerminator(b[j]);
    assert b[j] == s[|a| + j];
    assert s[k..][|a| + j - k] == s[|a| + j];
  }

  /** Every all-digit prefix lies within the leading run. */
  lemma {:induction false} DigitPrefixWithinRun(s: string, k: int)
    requires 0 <= k <= |s| && AllDigits(s[..k])
    ensures |DigitRun(s)| >= k
    decreases |s|
  {
    if k > 0 {
      assert IsDigit(s[..k][0]);
      assert s[1..][..k - 1] == s[..k][1..];
      DigitPrefixWithinRun(s[1..], k - 1);
    }
  }

  /** The leading run of a number's decimal text followed by a non-digit is that text. */
  lemma {:induction false} DigitRunOfDecimal(d: string, rest: string)
    requires AllDigits(d)
    requires rest == [] || !IsDigit(rest[0])
    ensures DigitRun(d + rest) == d
    decreases |d|
  {
    var s := d + rest;
    if d == [] {
      assert s == rest;
    } else {
      assert s[0] == d[0];
      assert s[1..] == d[1..] + rest;
      DigitRunOfDecimal(d[1..], rest);
      assert [d[0]] + d[1..] == d;
    }
  }

  /** Printing a count and a suffix that starts with a non-digit reads back both. */
  lemma ParseCountRoundTrip(n: nat, suffix: string)
    requires suffix == [] || !IsDigit(suffix[0])
    requires NoLineTerminator(suffix)
    ensures ParseCount(NatToDecimal(n) + suffix) == Counter(n, suffix)
  {
    var d := NatToDecimal(n);
    var s := d + suffix;
    DigitRunOfDecimal(d, suffix);
    DecimalRoundTrip(n);
    assert s[..|d|] == d && s[|d|..] == suffix;
    assert Splits(s, s[..|d|], s[|d|..]);
  }

  /** A figure that does not start with a digit counts from 0 to 0 with no suffix. */
  lemma NoLeadingDigit(s: string)
    requires s == [] || !IsDigit(s[0])
    ensures ParseCount(s) == Counter(0, "")
  {
  }

  /** A line break anywhere after the digits makes the whole regex fail. */
  lemma LineBreakDefeatsMatch(d: string, b: string)
    requires d != [] && AllDigits(d)
    requires !NoLineTerminator(b)
    ensures ParseCount(d + b) == Counter(0, "")
  {
    var s := d + b;
    var a := DigitRun(s);
    DigitPrefixWithinRun(s, |d|) by { assert s[..|d|] == d; }
    var j :| 0 <= j < |b| && IsLineTerminator(b[j]);
    assert s[|d| + j] == b[j];
    assert !IsDigit(s[|d| + j]);
    assert s[|a|..][|d| + j - |a|] == s[|d| + j];
  }

  // ---------------------------------------------------------------------------
  // The six cards

  datatype Stat = Stat(number: string, caption: string)

  const Stats := [
    Stat("350+", "Six"), Stat("300+", "Seven"), Stat("280+", "Eight"),
    Stat("250+", "Nine"), Stat("250+", "Ten (New)"), Stat("240+", "Ten (Old)")]

  /** "350+" counts up to 350 and keeps "+" after the number. */
  lemma FirstStatParsed()
    ensures ParseCount(Stats[0].number) == Counter(350, "+")
  {
    assert NatToDecimal(350) == "350" by {
      assert NatToDecimal(3) == "3";
      assert NatToDecimal(35) == "35";
    }
    assert NoLineTerminator("+");
    ParseCountRoundTrip(350, "+");
    assert "350" + "+" == Stats[0].number;
  }

  // ---------------------------------------------------------------------------
  // Visibility

  /** `Array(n).fill(false)`: no card has been seen yet. */
  function Initial(n: nat): (r: seq<bool>)
    ensures |r| == n && forall j :: 0 <= j < n ==> !r[j]
  {
    seq(n, _ => false)
  }

  /**
   * `next = prev.slice(); next[idx] = true`. Writing past the end extends the array
   * with holes, which are falsy and so read here as `false`.
   */
  function MarkVisible(prev: seq<bool>, idx: nat): (r: seq<bool>)
    ensures |r| == Max(|prev|, idx + 1)
    ensures r[idx]
    ensures forall j :: 0 <= j < |prev| && j != idx ==> r[j] == prev[j]
    ensures forall j :: |prev| <= j < |r| && j != idx ==> !r[j]
  {
    if idx < |prev| then prev[idx := true]
    else prev + seq(idx - |prev|, _ => false) + [true]
  }

  /** `visible[index]`, where an index past the end is undefined and so falsy. */
  function IsVisible(visible: seq<bool>, idx: nat): bool {
    idx < |visible| && visible[idx]
  }

  /** Cards marked in turn from the initial state. */
  function MarkAll(visible: seq<bool>, seen: seq<nat>): seq<bool>
    decreases |seen|
  {
    if seen == [] then visible else MarkAll(MarkVisible(visible, seen[0]), seen[1..])
  }

  /** After any sequence of sightings of real cards, exactly the sighted cards count. */
  lemma {:induction false} MarkAllExactly(visible: seq<bool>, seen: seq<nat>, n: nat)
    requires |visible| == n
    requires forall k :: 0 <= k < |seen| ==> seen[k] < n
    ensures |MarkAll(visible, seen)| == n
    ensures forall j :: 0 <= j < n ==> (MarkAll(visible, seen)[j] <==> visible[j] || j in seen)
    decreases |seen|
  {
    if seen != [] {
      var next := MarkVisible(visible, seen[0]);
      MarkAllExactly(next, seen[1..], n);
      forall j | 0 <= j < n
        ensures MarkAll(visible, seen)[j] <==> visible[j] || j in seen
      {
        assert next[j] <==> visible[j] || j == seen[0];
        assert j in seen <==> j == seen[0] || j in seen[1..] by {
          assert seen == [seen[0]] + seen[1..];
        }
      }
    }
  }

  /** From the initial state, a card is visible iff it has been sighted. */
  lemma SightedCardsOnly(seen: seq<nat>, j: nat)
    requires forall k :: 0 <= k < |seen| ==> seen[k] < |Stats|
    requires j < |Stats|
    ensures IsVisible(MarkAll(Initial(|Stats|), seen), j) <==> j in seen
  {
    MarkAllExactly(Initial(|Stats|), seen, |Stats|);
  }

  /** What a card shows: "0" and its suffix, or the counter mounted with its stagger. */
  datatype CardShows = Placeholder(text: string) | Counting(end: nat, durationMs: nat, suffix: string)

  function Card(visible: seq<bool>, idx: nat, c: Counter): (r: CardShows)
    ensures !IsVisible(visible, idx) <==> r.Placeholder?
    ensures r.Placeholder? ==> r.text == "0" + c.suffix
    ensures r.Counting? ==> r == Counting(c.end, 1500 + idx * 150, c.suffix)
  {
    if IsVisible(visible, idx) then Counting(c.end, 1500 + idx * 150, c.suffix)
    else Placeholder("0" + c.suffix)
  }

  /** Before the effect fills the flags, and right after, every card shows its placeholder. */
  lemma AllPlaceholdersAtFirst(idx: nat, c: Counter)
    ensures Card([], idx, c) == Placeholder("0" + c.suffix)
    ensures Card(Initial(|Stats|), idx, c) == Placeholder("0" + c.suffix)
  {
  }
}

=== FILE: strings.dfy ===
/**
 * String operations the components apply to API text: ASCII lower-casing, substring
 * search, `split`, `join`, the last path segment of a URL, and the global regex
 * replacements `/\n/g -> "<br />"` and `/\s+/g -> "-"`.
 */
module Strings {
  import opened JsCore

  /** `toLowerCase` on one character (ASCII letters only). */
  function LowerChar(c: char): (r: char)
    ensures 'A' <= c <= 'Z' ==> r as int == c as int + 32
    ensures !('A' <= c <= 'Z') ==> r == c
  {
    if 'A' <= c <= 'Z' then (c as int + 32) as char else c
  }

  function Lower(s: string): (r: string)
    ensures |r| == |s|
    ensures forall i :: 0 <= i < |s| ==> r[i] == LowerChar(s[i])
  {
    if s == [] then [] else [LowerChar(s[0])] + Lower(s[1..])
  }

  lemma LowerAppend(a: string, b: string)
    ensures Lower(a + b) == Lower(a) + Lower(b)
  {
    assert forall i :: 0 <= i < |a + b| ==> Lower(a + b)[i] == (Lower(a) + Lower(b))[i];
  }

  predicate StartsWith(s: string, p: string) {
    |p| <= |s| && s[..|p|] == p
  }

  /** Position `i` of `s` starts an occurrence of `p`. */
  predicate OccursAt(p: string, s: string, i: int) {
    0 <= i && i + |p| <= |s| && s[i..i + |p|] == p
  }

  /** Some position of `s` starts an occurrence of `p`. */
  ghost predicate OccursIn(p: string, s: string) {
    exists i :: OccursAt(p, s, i)
  }

  /** `s.includes(p)`, computed by trying every start position in turn. */
  function Contains(s: string, p: string): (r: bool)
    ensures r <==> OccursIn(p, s)
    decreases |s|
  {
    if StartsWith(s, p) then
      assert OccursAt(p, s, 0);
      true
    else if s == [] then
      assert forall i :: !OccursAt(p, s, i);
      false
    else
      var r := Contains(s[1..], p);
      if r then
        var i :| OccursAt(p, s[1..], i);
        assert s[i + 1..i + 1 + |p|] == s[1..][i..i + |p|];
        assert OccursAt(p, s, i + 1);
        true
      else
        forall i | 0 < i
          ensures !OccursAt(p, s, i)
        {
          assert !OccursAt(p, s[1..], i - 1);
        }
        false
  }

  // ---------------------------------------------------------------------------
  // split / join / last segment

  /** `s.split(c)` for a one-character separator. */
  function Split(s: string, c: char): (r: seq<string>)
    ensures |r| > 0
    ensures forall k :: 0 <= k < |r| ==> c !in r[k]
    decreases |s|
  {
    if s == [] then [[]]
    else
      var rest := Split(s[1..], c);
      if s[0] == c then [[]] + rest
      else [[s[0]] + rest[0]] + rest[1..]
  }

  /** `parts.join(c)`. */
  function Join(parts: seq<string>, c: char): string
    decreases |parts|
  {
    if parts == [] then []
    else if |parts| == 1 then parts[0]
    else parts[0] + [c] + Join(parts[1..], c)
  }

  /** Splitting a joined list gives back the list, when no part holds the separator. */
  lemma {:induction false} SplitJoin(parts: seq<string>, c: char)
    requires |parts| > 0
    requires forall k :: 0 <= k < |parts| ==> c !in parts[k]
    ensures Split(Join(parts, c), c) == parts
    decreases |parts|, |parts[0]|
  {
    var p := parts[0];
    if |parts| == 1 {
      SplitNoSeparator(p, c);
    } else if p == [] {
      assert Join(parts, c) == [c] + Join(parts[1..], c);
      assert Join(parts, c)[1..] == Join(parts[1..], c);
      SplitJoin(parts[1..], c);
    } else {
      var tail := [p[1..]] + parts[1..];
      assert tail[1..] == parts[1..];
      assert Join(parts, c) == [p[0]] + Join(tail, c);
      assert Join(parts, c)[1..] == Join(tail, c);
      assert c !in p[1..] by { assert forall j :: 0 <= j < |p[1..]| ==> p[1..][j] == p[j + 1]; }
      SplitJoin(tail, c);
      assert [p[0]] + p[1..] == p;
    }
  }

  lemma {:induction false} SplitNoSeparator(s: string, c: char)
    requires c !in s
    ensures Split(s, c) == [s]
    decreases |s|
  {
    if s != [] {
      assert c !in s[1..] by { assert forall j :: 0 <= j < |s[1..]| ==> s[1..][j] == s[j + 1]; }
      SplitNoSeparator(s[1..], c);
      assert [s[0]] + s[1..] == s;
    }
  }

  /**
   * `s.split(c).pop()`: the text after the last `c`, or all of `s` when `c` does not
   * occur.
   */
  function AfterLast(s: string, c: char): (r: string)
    ensures |r| <= |s| && r == s[|s| - |r|..]
    ensures c !in r
    ensures |r| < |s| ==> s[|s| - |r| - 1] == c
    decreases |s|
  {
    if s == [] then []
    else if s[|s| - 1] == c then []
    else
      var init := s[..|s| - 1];
      var r := AfterLast(init, c) + [s[|s| - 1]];
      assert init[|init| - (|r| - 1)..] + [s[|s| - 1]] == s[|s| - |r|..];
      r
  }

  /** `s.split(c)[0]`: the text before the first `c`, or all of `s`. */
  function BeforeFirst(s: string, c: char): (r: string)
    ensures |r| <= |s| && r == s[..|r|]
    ensures c !in r
    ensures |r| < |s| ==> s[|r|] == c
    decreases |s|
  {
    if s == [] then []
    else if s[0] == c then []
    else [s[0]] + BeforeFirst(s[1..], c)
  }

  function Last<T>(s: seq<T>): T
    requires |s| > 0
  {
    s[|s| - 1]
  }

  // ---------------------------------------------------------------------------
  // Regex replacements

  /** What one character becomes in `NewlinesToBr`. */
  function BrPiece(c: char): (r: string)
    ensures '\n' !in r
  {
    if c == '\n' then "<br />" else [c]
  }

  /** `s.replace(/\n/g, "<br />")`. */
  function NewlinesToBr(s: string): (r: string)
    ensures '\n' !in r
    ensures '\n' !in s ==> r == s
    decreases |s|
  {
    if s == [] then [] else BrPiece(s[0]) + NewlinesToBr(s[1..])
  }

  /** The replacement works piecewise: it never joins characters across a boundary. */
  lemma {:induction false} NewlinesToBrAppend(a: string, b: string)
    ensures NewlinesToBr(a + b) == NewlinesToBr(a) + NewlinesToBr(b)
    decreases |a|
  {
    if a == [] {
      assert a + b == b;
    } else {
      var x := a + b;
      assert x != [] && x[0] == a[0] && x[1..] == a[1..] + b;
      var h := BrPiece(a[0]);
      calc {
        NewlinesToBr(x);
        h + NewlinesToBr(a[1..] + b);
        { NewlinesToBrAppend(a[1..], b); }
        h + (NewlinesToBr(a[1..]) + NewlinesToBr(b));
        (h + NewlinesToBr(a[1..])) + NewlinesToBr(b);
      }
    }
  }

  function DropSpaces(s: string): (r: string)
    ensures |r| <= |s| && r == s[|s| - |r|..]
    ensures r == [] || !IsJsSpace(r[0])
    decreases |s|
  {
    if s != [] && IsJsSpace(s[0]) then DropSpaces(s[1..]) else s
  }

  /** `s.replace(/\s+/g, "-")`: every maximal run of whitespace becomes one '-'. */
  function SpaceRunsToDash(s: string): (r: string)
    ensures forall i :: 0 <= i < |r| ==> !IsJsSpace(r[i])
    ensures |r| <= |s|
    decreases |s|
  {
    if s == [] then []
    else if IsJsSpace(s[0]) then "-" + SpaceRunsToDash(DropSpaces(s))
    else [s[0]] + SpaceRunsToDash(s[1..])
  }

  lemma {:induction false} SpaceRunsToDashNoSpace(s: string)
    requires forall i :: 0 <= i < |s| ==> !IsJsSpace(s[i])
    ensures SpaceRunsToDash(s) == s
    decreases |s|
  {
    if s != [] {
      SpaceRunsToDashNoSpace(s[1..]);
    }
  }

  /** A word, a run of whitespace and the rest: the run becomes a single '-'. */
  lemma {:induction false} SpaceRunsToDashWords(a: string, gap: string, b: string)
    requires forall i :: 0 <= i < |a| ==> !IsJsSpace(a[i])
    requires gap != [] && forall i :: 0 <= i < |gap| ==> IsJsSpace(gap[i])
    requires b == [] || !IsJsSpace(b[0])
    ensures SpaceRunsToDash(a + gap + b) == a + "-" + SpaceRunsToDash(b)
    decreases |a|
  {
    var x := a + gap + b;
    if a == [] {
      assert x == gap + b;
      SpaceHead(x);
      DropSpacesPrefix(gap, b);
    } else {
      assert x[0] == a[0];
      NonSpaceHead(x);
      assert x[1..] == a[1..] + gap + b;
      SpaceRunsToDashWords(a[1..], gap, b);
      assert [a[0]] + a[1..] == a;
    }
  }

  lemma SpaceHead(x: string)
    requires x != [] && IsJsSpace(x[0])
    ensures SpaceRunsToDash(x) == "-" + SpaceRunsToDash(DropSpaces(x))
  {
  }

  lemma NonSpaceHead(x: string)
    requires x != [] && !IsJsSpace(x[0])
    ensures SpaceRunsToDash(x) == [x[0]] + SpaceRunsToDash(x[1..])
  {
  }

  lemma {:induction false} DropSpacesPrefix(gap: string, b: string)
    requires forall i :: 0 <= i < |gap| ==> IsJsSpace(gap[i])
    requires b == [] || !IsJsSpace(b[0])
    ensures DropSpaces(gap + b) == b
    decreases |gap|
  {
    if gap != [] {
      assert (gap + b)[1..] == gap[1..] + b;
      DropSpacesPrefix(gap[1..], b);
    } else {
      assert gap + b == b;
    }
  }

  /** A character that the regex `.` does not match. */
  predicate IsLineTerminator(c: char) {
    c == '\n' || c == '\r' || c == '\U{2028}' || c == '\U{2029}'
  }

  predicate NoLineTerminator(s: string) {
    forall i :: 0 <= i < |s| ==> !IsLineTerminator(s[i])
  }
}
